=== FILE: README.md ===
# Zone bundles, rack inventory and update tracking, in Dafny

This project models five pieces of the Oxide rack software and proves properties about them.

- **Zone bundle storage policy of the sled agent** (`sled-agent/src/zone_bundle.rs`):
  - the bundle causes and their order;
  - the validated storage limit, clean-up period and priority order;
  - how two bundles compare under a priority order;
  - the pruning decision a clean-up takes for each storage directory;
  - how the clean-up context is updated;
  - how the output of `zfs list` and `du` is read;
  - the zone-name filter used when listing bundles.
- **Rack inventory in wicket** (`wicket/src/state/inventory.rs`):
  - the component identifiers and their order;
  - their parsing and their display;
  - how service processor (SP) reports build the inventory;
  - how component versions are shown.
- **Update view in wicket** (`wicket/src/state/update.rs`):
  - one update item per rack component;
  - how an event report moves the item's parts through Waiting, Updating, Updated, Skipped and Failed;
  - how a new repository and a batch of reports refresh the rack's update state.
- **wicketd's update tracker** (`wicketd/src/update_tracker.rs`):
  - the per-SP bookkeeping of start, clear, abort and repository upload;
  - choosing the RoT slot to write;
  - the "already at this version" skip decisions;
  - simulated step results;
  - reading the gateway's update status while polling;
  - choosing the M.2 slot the host boots from.
- **Rack setup TOML document** (`wicket/src/rack_setup/config_toml.rs`):
  - multi-line arrays;
  - the bootstrap sled list with one comment per sled;
  - the rack network table and its uplinks.

Every operation is a pure function or a method over immutable datatypes. Two shared modules support the rest:

- `Types` holds `Option`, `Result`, the unsigned integer ranges, `Ordering` and the SP identifier.
- `Text` holds the parts of Rust's standard library the code relies on:
  - `u8`/`u64` `from_str`;
  - `split_ascii_whitespace`;
  - `trim`;
  - `lines`;
  - `str::contains`.

Inputs the code obtains from the outside world arrive as parameters:

- command output;
- the artifact store's answer to a new repository;
- the gateway's status answers;
- whether an update task has finished;
- whether an artifact kind is known;
- whether a version string parses as a semantic version.

The `update.rs` source panics in three situations. Each is modelled as a precondition:

- **A report for an unknown component.** `update_artifacts_and_reports` unwraps the item of every report whose identifier parses. `UpdateState.ReportsAcceptable` therefore requires every parsed identifier to be in the rack's items. `UpdateState.SecondPowerShelfReportRejected` shows that a report keyed `power`/`1` parses but is not acceptable: the rack has no second power shelf.
- **A malformed last step.** `UpdateItem::update` asserts that the last step of an RoT or SP component is the component-update step. It is only reached for a report whose identifier parses, so `UpdateState.ReportsAcceptable` requires this of those reports alone; a report with an unparsed identifier is skipped whatever its steps.
- **Reading an item's state before it exists.** `RackUpdateState::item_state` unwraps the item only once a repository is present. `UpdateState.ItemState` requires the item to exist in that case.

## Model

| member | source | states |
|---|---|---|
| ZoneBundle.CauseOrder | sled-agent/src/zone_bundle.rs:90-101 | Bundle causes are ordered Other < UnexpectedZone < TerminatedInstance < ExplicitRequest, and distinct causes never rank equal. |
| ZoneBundle.NewStorageLimit | sled-agent/src/zone_bundle.rs:1441-1458 | A storage limit is accepted iff 0 < percentage ≤ 50; an accepted limit keeps the percentage, and any other input is `InvalidStorageLimit`. |
| ZoneBundle.DefaultStorageLimitValid | sled-agent/src/zone_bundle.rs:1432-1436 | The default limit is 25 % and passes the constructor's check. |
| ZoneBundle.BytesAvailable | sled-agent/src/zone_bundle.rs:1465-1468 | The bytes available are floor(quota · pct / 100), exactly, and never exceed the quota when pct ≤ 100. |
| ZoneBundle.BytesAvailableAsWritten | sled-agent/src/zone_bundle.rs:1465-1468 | The source's u64 computation agrees with the exact value whenever quota · pct fits in 64 bits. |
| ZoneBundle.AcceptedLimitAtMostHalf | sled-agent/src/zone_bundle.rs:1452-1468 | Under any accepted limit, at most half of the quota is available to bundles. |
| ZoneBundle.BytesAvailableExamples | sled-agent/src/zone_bundle.rs:1684-1702 | The unit test's values hold: 1 % of 100 is 1, 99 % of 1 is 0, 25 % of 32768 is 8192, and so on. |
| ZoneBundle.BytesAvailableOverflow | sled-agent/src/zone_bundle.rs:1465-1468 | For a quota of u64::MAX at the default 25 %, the u64 computation gives 184467440737095515 where the exact answer is 4611686018427387903. |
| ZoneBundle.NewCleanupPeriod | sled-agent/src/zone_bundle.rs:1585-1595 | A clean-up period is accepted iff 60 s ≤ d ≤ 86400 s, both bounds inclusive; otherwise the result is `InvalidCleanupPeriod`. |
| ZoneBundle.CleanupPeriodBounds | sled-agent/src/zone_bundle.rs:1572-1584 | The minimum and maximum are accepted, one nanosecond outside either is refused, and the 600 s default is accepted. |
| ZoneBundle.HasRepeat | sled-agent/src/zone_bundle.rs:1530-1535 | The scan with a set of seen dimensions reports a repeat iff some dimension was already seen or occurs twice. |
| ZoneBundle.NewPriorityOrder | sled-agent/src/zone_bundle.rs:1526-1537 | A priority order is accepted iff it has exactly two dimensions and they differ; otherwise the result is `InvalidPriorityOrder`. |
| ZoneBundle.AcceptedOrderIsPermutation | sled-agent/src/zone_bundle.rs:1526-1537 | Every accepted order is a permutation of {Cause, Time}. |
| ZoneBundle.PriorityOrderExamples | sled-agent/src/zone_bundle.rs:1642-1666 | Empty, one-element, repeated and three-element orders are refused, and the default [Cause, Time] is accepted as itself. |
| ZoneBundle.CompareBundles | sled-agent/src/zone_bundle.rs:1543-1563 | The comparison is Equal iff every dimension compares equal; otherwise it is the comparison on the first dimension that differs. |
| ZoneBundle.CompareBundlesFlip | sled-agent/src/zone_bundle.rs:1543-1563 | Swapping the arguments reverses the comparison (antisymmetry). |
| ZoneBundle.CompareBundlesTransitive | sled-agent/src/zone_bundle.rs:1543-1563 | "Not greater" is transitive, so the order is a total preorder that sorting can use. |
| ZoneBundle.CompareBundlesExamples | sled-agent/src/zone_bundle.rs:1705-1770 | An older explicit-request bundle sorts before a newer terminated-instance bundle by time first, and after it by cause first. |
| ZoneBundle.SortBundlesExamples | sled-agent/src/zone_bundle.rs:1705-1770 | The unit test's four bundles, a terminated instance and an explicit request on each of two days, sort to exactly the orders the test expects: by day, then cause, when time comes first; by cause, then day, when cause comes first. |
| ZoneBundle.InsertBundle | sled-agent/src/zone_bundle.rs:1226 | Inserting a bundle into a list adds exactly that bundle (same multiset plus one). |
| ZoneBundle.InsertBundleSorted | sled-agent/src/zone_bundle.rs:1226 | Insertion into a list sorted by the priority keeps it sorted. |
| ZoneBundle.SortBundles | sled-agent/src/zone_bundle.rs:1226 | The bundles of a directory are sorted by the priority order, and the result is a permutation of the input. |
| ZoneBundle.PruneDirectory | sled-agent/src/zone_bundle.rs:1227-1244 | Pruning removes the shortest prefix of the sorted bundles after which the saturating usage is within the available bytes, or all of them. The counts equal that prefix's length and byte sum. |
| ZoneBundle.PruneRemovesLowestPriority | sled-agent/src/zone_bundle.rs:1226-1244 | Every removed bundle sorts no later than every kept bundle. |
| ZoneBundle.RunCleanup | sled-agent/src/zone_bundle.rs:1190-1248 | With every directory within its limit nothing is removed and the map is empty. Otherwise every directory gets an entry, and each entry is pruned as the policy says. |
| ZoneBundle.PruneAll | sled-agent/src/zone_bundle.rs:1214-1244 | Every directory gets a count, and each one's bundles are sorted by the priority order and pruned as the policy says. |
| ZoneBundle.PrunedDirectoryOutcome | sled-agent/src/zone_bundle.rs:1229-1244 | If pruning stops before the end, the remaining usage is within the limit; the removed bundles are always a sub-multiset of the directory's bundles. |
| ZoneBundle.UpdateCleanupContext | sled-agent/src/zone_bundle.rs:302-346 | Exactly the fields passed as `Some` are replaced. The clean-up task is notified iff the period shrinks or the storage limit drops. |
| ZoneBundle.UpdateCleanupContextIdempotent | sled-agent/src/zone_bundle.rs:302-346 | Applying the same update twice changes nothing more and does not notify; a priority change alone never notifies. |
| ZoneBundle.UpdateCleanupContextExample | sled-agent/src/zone_bundle.rs:302-346 | Replacing the default with a shorter period, a smaller limit and another order gives the new context and notifies. |
| ZoneBundle.ParseZfsQuota | sled-agent/src/zone_bundle.rs:1381-1412 | A failed command is an error, empty output is an error, and every failure is a clean-up error. |
| ZoneBundle.QuotaFromFields | sled-agent/src/zone_bundle.rs:1398-1412 | An unparsable avail is the only error. Otherwise a quota of "-", "0" or one that does not parse yields avail, and any other quota yields its parsed value. |
| ZoneBundle.ZfsLineTokens | sled-agent/src/zone_bundle.rs:1390-1397 | For a first line holding two tab-separated tokens, the parse reads exactly those two tokens, whatever follows. |
| ZoneBundle.ParseZfsQuotaNumbers | sled-agent/src/zone_bundle.rs:1381-1412 | The output for a numeric quota and avail parses to the quota, or to avail when the quota is 0. |
| ZoneBundle.QuotaFromNumbers | sled-agent/src/zone_bundle.rs:1398-1412 | Rendered numbers parse back to the quota, or to avail for a zero quota. |
| ZoneBundle.ParseZfsQuotaDash | sled-agent/src/zone_bundle.rs:1407-1410 | A quota of "-" yields avail. |
| ZoneBundle.ParseZfsQuotaBadAvail | sled-agent/src/zone_bundle.rs:1398-1402 | An avail of "none" is the "failed to parse available space" error. |
| ZoneBundle.ParseZfsQuotaMissingAvail | sled-agent/src/zone_bundle.rs:1395-1396 | A first line with only one token is the "no avail part" error. |
| ZoneBundle.SaturatingMul | sled-agent/src/zone_bundle.rs:1356 | Multiplication saturates at u64::MAX instead of wrapping. |
| ZoneBundle.ParseDiskUsage | sled-agent/src/zone_bundle.rs:1338-1358 | A failed `du` is an error, empty output is an error, and every failure is a clean-up error. |
| ZoneBundle.FirstTokenOfTrimmed | sled-agent/src/zone_bundle.rs:1350-1352 | The first token of a trimmed `du` line is its leading number. |
| ZoneBundle.ParseDiskUsageNumber | sled-agent/src/zone_bundle.rs:1316-1358 | `du` output starting with a block count parses to that count times the OS block size (1, 1 or 512), saturating. |
| ZoneBundle.DirectoryUtilization | sled-agent/src/zone_bundle.rs:1251-1287 | A directory's utilization exists iff both commands parse. It holds the parsed quota, the storage limit applied to that quota, and the parsed disk usage. A quota error is passed on unchanged, and so is a `du` error after a good quota. |
| ZoneBundle.FilterBundles | sled-agent/src/zone_bundle.rs:427-432 | A bundle is listed iff there is no filter or its zone name contains the filter. |
| ZoneBundle.FilterNoneOrEmptyKeepsAll | sled-agent/src/zone_bundle.rs:405-432 | No filter, or the empty filter, lists every bundle in order. |
| ZoneBundle.FilterCommonPrefixKeepsAll | sled-agent/src/zone_bundle.rs:405-432 | A filter that prefixes every zone name lists every bundle. |
| Inventory.CompareComponentId | wicket/src/state/inventory.rs:189-205 | The derived order: sleds before switches before power shelves, then by index; Equal iff the identifiers are equal. |
| Inventory.CompareComponentIdFlip | wicket/src/state/inventory.rs:189-205 | Swapping the arguments reverses the comparison. |
| Inventory.AllComponentIdsShape | wicket/src/state/inventory.rs:19-26 | The rack's components are sleds 0-31, switches 0-1 and power shelf 0, in that order: 35 in all. |
| Inventory.AllComponentIdsIncreasing | wicket/src/state/inventory.rs:19-26 | The list is strictly increasing in the component order, so it has no duplicates. |
| Inventory.AllComponentIdsMembers | wicket/src/state/inventory.rs:19-26 | A component is listed iff it is a sled or switch in range, or power shelf 0. |
| Inventory.ParseComponentId | wicket/src/state/inventory.rs:234-245 | A parsed identifier has the named kind and the parsed index, and is within that kind's range. Parsing fails only for a bad index, an unknown kind or an out-of-range index. |
| Inventory.ParseComponentIdRoundTrip | wicket/src/state/inventory.rs:234-245 | Every in-range component parses back from its kind name and rendered index. |
| Inventory.SecondPowerShelfParses | wicket/src/state/inventory.rs:234-245 | "power"/"1" parses to power shelf 1, which is not among the rack's components. |
| Inventory.Display | wicket/src/state/inventory.rs:213-221 | A component is shown as a non-empty name. |
| Inventory.DisplayShape | wicket/src/state/inventory.rs:213-221 | The name is "SLED ", "SWITCH " or "PSC " followed by the decimal index. |
| Inventory.DisplayInjective | wicket/src/state/inventory.rs:213-221 | Different components have different names. |
| Inventory.UpdateInventory | wicket/src/state/inventory.rs:49-98 | Any report with an out-of-range slot is an error naming the first such report, and the inventory is left unchanged. Otherwise every reported component is present and powered A2, with its last report's data. |
| Inventory.BuiltFromUnique | wicket/src/state/inventory.rs:49-98 | A batch of reports determines the resulting inventory uniquely. |
| Inventory.VersionOrUnknown | wicket/src/state/inventory.rs:150-152 | A caboose's version, or "UNKNOWN" if there is no caboose or no version. |
| Inventory.RotVersion | wicket/src/state/inventory.rs:175-185 | An RoT slot's version comes from that slot's caboose, and is "UNKNOWN" without RoT data. |
| UpdateState.NewItem | wicket/src/state/update.rs:171-180 | A new item has not started, belongs to the given component with the given parts, and satisfies the item invariant. |
| UpdateState.Reset | wicket/src/state/update.rs:201-203 | Reset returns the item to not-started and keeps its component and parts. |
| UpdateState.ItemEventReport | wicket/src/state/update.rs:182-194 | An item has an event report iff it is running, and then it is the stored one. |
| UpdateState.UpdateComponentState | wicket/src/state/update.rs:428-438 | A write changes only the named part, and only when that part is present; no part is added. |
| UpdateState.ReportWrites | wicket/src/state/update.rs:247-325 | The writes of a report are the step events' writes in order, followed by the progress events' writes. |
| UpdateState.ApplyWritesLastWins | wicket/src/state/update.rs:247-325 | A part's final state is that of the last write naming it, and it is unchanged when no write names it. |
| UpdateState.ReportNeverAborts | wicket/src/state/update.rs:247-325 | No event, not even an aborted execution, writes the Aborted state. |
| UpdateState.ApplyWritesNoAborted | wicket/src/state/update.rs:247-325 | Writes that never say Aborted cannot produce Aborted. |
| UpdateState.AllWaiting | wicket/src/state/update.rs:214-220 | The first running state maps every part of the item to Waiting. |
| UpdateState.Update | wicket/src/state/update.rs:205-326 | A report without step events resets the item; otherwise the item runs with the new report. The item invariant is kept. |
| UpdateState.UpdateWhileRunning | wicket/src/state/update.rs:211-231 | A running item takes the new report and keeps its parts' states, except that each part named by a write ends in the state of the last write naming it. |
| UpdateState.UpdateFromStart | wicket/src/state/update.rs:211-226 | When an item starts running, every part starts Waiting: a part no event names stays Waiting, and a named part ends in the state of the last write naming it. |
| UpdateState.UpdateNeverAborts | wicket/src/state/update.rs:205-326 | Updating never marks a part Aborted. |
| UpdateState.FailureMarksFailed | wicket/src/state/update.rs:300-313 | A failed or aborted execution marks its step's part Failed. |
| UpdateState.CompletionMarks | wicket/src/state/update.rs:254-298 | A completed last step marks its part Updated, or Skipped when the RoT or SP step was skipped. |
| UpdateState.Iter | wicket/src/state/update.rs:332-345 | One entry per part, in order, with the item's not-started, starting or running state. |
| UpdateState.NewRackUpdateState | wicket/src/state/update.rs:33-70 | One not-started item per rack component and nothing else, each with its kind's parts, and no repository. |
| UpdateState.ItemState | wicket/src/state/update.rs:72-87 | Awaiting a repository iff there are no artifacts. Otherwise the state is not started, starting or running exactly when the item's is, running with the item's report. |
| UpdateState.ArtifactVersions | wicket/src/state/update.rs:96-102 | Only known artifact kinds get a version, and each such kind gets the version of its last artifact. |
| UpdateState.ApplyReportsLastWins | wicket/src/state/update.rs:104-124 | A component's item ends up with its last report. |
| UpdateState.ApplyReportsUnnamed | wicket/src/state/update.rs:104-124 | A component no report names is left as it was by the reports. |
| UpdateState.UpdateArtifactsAndReports | wicket/src/state/update.rs:89-133 | The version and artifacts are replaced and the known versions recomputed. Components without a report are reset. The rack invariant is kept. |
| UpdateState.ResetUnnamed | wicket/src/state/update.rs:126-132 | Items whose component has no report are reset to not started, and the other items are kept as they are. No item changes its component or parts. |
| UpdateState.UpdateArtifactsAndReportsNamed | wicket/src/state/update.rs:89-133 | A reported component runs iff its last report has step events, and then shows that report. |
| UpdateState.ItemStateAfterUpdate | wicket/src/state/update.rs:72-133 | After a refresh without reports, every item awaits a repository or has not started, depending on the artifacts. |
| UpdateState.SecondPowerShelfReportRejected | wicket/src/state/update.rs:107-121 | A report for "power"/"1" cannot be applied to the rack's items. |
| UpdateTracker.StartImpl | wicketd/src/update_tracker.rs:218-293 | Errors name exactly the requested SPs still running, then a missing repository, each reported at most once. With errors, or without a driver, nothing changes. Otherwise every requested SP gets a fresh task and the others are kept. |
| UpdateTracker.ClearUpdateState | wicketd/src/update_tracker.rs:603-618 | Clearing fails iff the SP is running, and then changes nothing; otherwise only the SP's entry is removed. |
| UpdateTracker.AbortUpdate | wicketd/src/update_tracker.rs:620-650 | Not started iff the SP has no entry. Finished iff its task is finished or the engine is gone. Success iff it is running and the abort is accepted. |
| UpdateTracker.PutRepository | wicketd/src/update_tracker.rs:652-676 | Refused iff any SP is running, and the refusal carries exactly the set of running SPs. A store error changes nothing. Success takes the new plan and clears every SP. |
| UpdateTracker.StartThenStartRefused | wicketd/src/update_tracker.rs:218-293 | After a successful start every requested SP is running, so another start or a clear for it is refused. |
| UpdateTracker.PutRepositoryThenClear | wicketd/src/update_tracker.rs:603-676 | After a new repository no SP has an entry: clearing succeeds and aborting reports not started. |
| UpdateTracker.RunningMessageAsWritten | wicketd/src/update_tracker.rs:666-670 | The message is the fixed literal with `{running_sps:?}` left in it. |
| UpdateTracker.RunningMessageAsWrittenNamesNone | wicketd/src/update_tracker.rs:666-670 | Any two sets of running SPs get the same message, so it names none of them. |
| UpdateTracker.RunningMessage | wicketd/src/update_tracker.rs:666-670 | The corrected message starts with "Updates currently running for ". |
| UpdateTracker.RunningMessageNamesEach | wicketd/src/update_tracker.rs:666-670 | The corrected message contains the rendering of every running SP. |
| UpdateTracker.RotSlotToUpdate | wicketd/src/update_tracker.rs:1570-1583 | Active slot 0 or 1 is accepted and the other slot is written with its image; any other slot is an error. |
| UpdateTracker.RotSlotFlipAlternates | wicketd/src/update_tracker.rs:1570-1583 | The slot written and the active slot swap roles: flipping twice gives the active slot back, named A for 0 and B for 1. |
| UpdateTracker.InterrogateRot | wicketd/src/update_tracker.rs:1566-1621 | Only slots 0 and 1 are accepted, and any other is a failure to read the active slot. The other slot is updated, with image B when A is active and image A when B is. The active version is known iff the caboose has a version and it parses, and it is that version. |
| UpdateTracker.VersionDecision | wicketd/src/update_tracker.rs:880-921 | Skip iff the component is already at the version and skipping is enabled. Warn iff it is already at the version and skipping is disabled. Plain success iff it is not at the version. |
| UpdateTracker.VersionDecisionProperties | wicketd/src/update_tracker.rs:1460-1471 | An RoT whose version is unknown is always updated, disabled skipping never skips, and skipping happens iff the active version equals the artifact's. |
| UpdateTracker.SimulateResult | wicketd/src/update_tracker.rs:1473-1490 | Only the Failure request is an error (`SimulatedFailure`); the other requests carry a "Simulated" message. |
| UpdateTracker.SimulateResultFaithful | wicketd/src/update_tracker.rs:1473-1490 | Each request yields its own kind of result, and different requests give different results. |
| UpdateTracker.StatusDecision | wicketd/src/update_tracker.rs:1851-1916 | No update is an error, and another update's id is an error. Complete, or in-progress while preparing, is done. Preparing, or in-progress while in progress, polls again. Everything else is an error. |
| UpdateTracker.PollComponentUpdate | wicketd/src/update_tracker.rs:1840-1922 | Polling stops at the first status that is not "poll again" and returns its decision; every earlier status asked for another poll. |
| UpdateTracker.M2SlotNumber | wicketd/src/update_tracker.rs:1067-1074 | M.2 slots map to disks 0 and 1. |
| UpdateTracker.SlotsToUpdate | wicketd/src/update_tracker.rs:1067-1074 | The written slots form the set of their disk numbers, each at most 1. |
| UpdateTracker.ChooseBootSlot | wicketd/src/update_tracker.rs:1287-1299 | The host boots from the smallest written slot; an empty set is the "0 disks written" error. |
| UpdateTracker.BootSlotFromWritten | wicketd/src/update_tracker.rs:1287-1299 | Disk 0 whenever slot A was written, disk 1 when only B was, and an error when none was. |
| ConfigToml.FormatMultilineArray | wicket/src/rack_setup/config_toml.rs:111-117 | Every element keeps its value and gets the separator prefix; the trailing text is "\n" and there is a trailing comma. |
| ConfigToml.FormatMultilineArrayKeepsValues | wicket/src/rack_setup/config_toml.rs:111-117 | Formatting keeps the values and is idempotent. |
| ConfigToml.SledComment | wicket/src/rack_setup/config_toml.rs:121-141 | A comment starts with " # " and ends with the requested ending. |
| ConfigToml.SledCommentEnds | wicket/src/rack_setup/config_toml.rs:121-141 | Two comments for the same sled differ only in their endings. |
| ConfigToml.SledCommentValid | wicket/src/rack_setup/config_toml.rs:121-141 | When the sled's identifier, model and address hold no control character but the tab, its comment up to the ending is text TOML admits in a comment, so the only line break is the one the ending brings. |
| ConfigToml.SledCommentMentions | wicket/src/rack_setup/config_toml.rs:121-141 | The comment names the address, or "IP address UNKNOWN", and the board's identifier and model. Unknown boards say "UNKNOWN SLED" and PCs say "NON-GIMLET". |
| ConfigToml.OnlySledsMembers | wicket/src/rack_setup/config_toml.rs:146-150 | Exactly the entries of type sled are kept. |
| ConfigToml.OnlySledsOfSleds | wicket/src/rack_setup/config_toml.rs:146-150 | A list of sleds only is kept whole. |
| ConfigToml.BuildSledsArray | wicket/src/rack_setup/config_toml.rs:143-174 | One element per sled entry holding its slot, in order. The first prefix is the separator and each later prefix is the previous sled's comment. A non-empty list ends with the last sled's comment and a trailing comma; an empty one stays bare. |
| ConfigToml.SledsArrayComments | wicket/src/rack_setup/config_toml.rs:143-174 | When no sled brings a control character of its own, every comment of the sleds array is a valid TOML comment, ended by the separator or the final line feed. |
| ConfigToml.SledsRoundTrip | wicket/src/rack_setup/config_toml.rs:143-174 | The array has the commented layout of the sled entries and reads back as their slots, which is the whole list when every entry is a sled. Its comments are valid TOML comments, each ending at its line break, when no sled brings a control character. |
| ConfigToml.UplinkTable | wicket/src/rack_setup/config_toml.rs:212-259 | The keys are switch, gateway_ip, uplink_port, uplink_port_speed, uplink_port_fec and uplink_cidr, in that order. `uplink_vid` is an integer when present; when absent, the last key carries the hint suffix. |
| ConfigToml.UplinkRoundTrip | wicket/src/rack_setup/config_toml.rs:212-259 | Reading an uplink table back by key gives the uplink, with or without a VLAN id. |
| ConfigToml.PopulateNetworkTable | wicket/src/rack_setup/config_toml.rs:193-261 | No configuration leaves the table as it is. Otherwise the infrastructure range is written and the uplinks are replaced, unless there are none, in which case the template's stay. |
| ConfigToml.NetworkTableRoundTrip | wicket/src/rack_setup/config_toml.rs:193-261 | Every uplink of a configuration with uplinks reads back from the populated table. |
| ConfigToml.MultilineValues | wicket/src/rack_setup/config_toml.rs:45-91 | A list written as a multi-line array reads back as the list and has the multi-line layout. |
| ConfigToml.Populate | wicket/src/rack_setup/config_toml.rs:35-102 | The document carries the zone name and the four lists as multi-line arrays of their values. The sleds array has the commented layout of the sled entries, reads back as their slots and holds only valid TOML comments when no sled brings a control character. The network table is populated. |

## Left out

- File system, tar and gzip handling, running `zfs`, `du` and zone commands, the bundler's mutex and notification, and the timing of periodic clean-up: side effects. Only the parsing of command output and the pruning decision are modelled.
- The UTF-8 check of command output: output is taken as a string.
- Bundle enumeration across directories and the bundle set that removes duplicates in `list`: file system access. The listing's filter predicate is modelled on a sequence.
- Timestamps, UUIDs and zone names are opaque values; times are integers.
- ZoneBundle.SortBundles: the sort is an insertion sort, stable by construction, but stability is not stated.
- Tokio tasks, channels, the update engine, event buffers, gateway HTTP calls and retries in the update tracker. A task is a "finished" flag, and the gateway's answers are inputs.
- The RoT reboot wait and the progress reports sent while polling: they depend on clocks and channels.
- The caboose version message text and the message texts of skipped and warning steps: logging only.
- ratatui styles and the other UI code of the update view.
- Parsing the TOML template, the `Display` of the document, and the TOML round-trip test: they need a TOML library. Arrays and tables are modelled directly, and reading back is modelled by `ReadSlots` and `ReadUplink`.
- The rendering of IP addresses, CIDRs, port speed and FEC: they arrive as strings.
- `populate_network_table`'s `enum_to_toml_string` panic path: serialization is assumed to produce a string.
- ZoneBundle.PruneDirectory: the byte count of the removed bundles is an unbounded `nat`, where the program adds the sizes into a u64. Bundle sizes on one dataset cannot sum to 2^64, so wrap-around is not modelled.
- ZoneBundle.DirectoryUtilization: its available bytes use the exact `ZoneBundle.BytesAvailable`, the corrected definition under Findings. The program stores the wrapped u64 product instead, so when quota · pct ≥ 2^64 the threshold that `ZoneBundle.RunCleanup` prunes against differs from the program's.
- UpdateTracker.PutRepository: the refusal carries the set of running SPs, not the message text. The program's message is an unformatted literal that names none of them (see Findings). The corrected `UpdateTracker.RunningMessage` renders the message from that set.
- ConfigToml.SledsRoundTrip: reading back skips the comments rather than parsing the document as TOML. That every comment is one TOML admits (no control character but the tab, section "Comment" of TOML 1.0) is proved only when no sled's identifier, model or address holds such a character. For other input, such as an identifier holding U+0001 or a line feed, the model says nothing about what a TOML reader makes of the document.

## Findings

| source | as written | input that shows it | evidently intended | confidence | as-written member | corrected member |
|---|---|---|---|---|---|---|
| sled-agent/src/zone_bundle.rs:1466-1468 | `bytes_available` multiplies the u64 quota by the percentage before dividing. It wraps in release builds (and panics with overflow checks) once quota · pct ≥ 2^64. | A quota of u64::MAX at 25 % gives 184467440737095515 instead of 4611686018427387903. | The percentage of the quota, floor(quota · pct / 100), computed without overflow. | not executed | ZoneBundle.BytesAvailableAsWritten (ZoneBundle.BytesAvailableOverflow) | ZoneBundle.BytesAvailable |
| wicketd/src/update_tracker.rs:666-670 | The rejection message is the string literal "Updates currently running for {running_sps:?}", built with `.to_owned()`, so the placeholder is never filled in. | Running sets {sled 0} and {switch 1} give the same message, which names neither. | The message lists the running SPs, as `format!` would. | not executed | UpdateTracker.RunningMessageAsWritten (UpdateTracker.RunningMessageAsWrittenNamesNone) | UpdateTracker.RunningMessage (UpdateTracker.RunningMessageNamesEach) |

=== FILE: config_toml.dfy ===
/**
 The TOML document wicket hands to operators for rack setup: how the
 configuration's lists become multi-line arrays, how the bootstrap sleds
 are listed with a comment per sled, and how the rack network table is
 filled in.

 A `toml_edit` array is modelled as its elements (a value and the prefix
 decoration written before it) plus the trailing text and the trailing
 comma flag. Decorations never set are `None`. Addresses and the
 serialized port speed and FEC arrive already rendered as strings.
 */
module ConfigToml {
  import opened Types
  import opened Text

  /** The separator written before each element of a multi-line array. */
  const ARRAY_SEP := "\n    "

  /** What follows the last key of an uplink that has no VLAN id. */
  const UPLINK_VID_HINT := "\n# uplink_vid ="

  datatype TomlValue =
    | TomlInt(i: int)
    | TomlString(s: string)
    | TomlInlineTable(entries: seq<(string, string)>)

  datatype Element = Element(value: TomlValue, prefix: Option<string>)

  datatype TomlArray = TomlArray(elems: seq<Element>, trailing: Option<string>, trailingComma: bool)

  /** A new array, or one collected from values: nothing is decorated. */
  function PlainArray(values: seq<TomlValue>): (r: TomlArray)
    ensures |r.elems| == |values|
    ensures forall i :: 0 <= i < |values| ==> r.elems[i] == Element(values[i], None)
    ensures r.trailing.None? && !r.trailingComma
  {
    if |values| == 0 then TomlArray([], None, false)
    else
      var rest := PlainArray(values[..|values| - 1]);
      rest.(elems := rest.elems + [Element(values[|values| - 1], None)])
  }

  /** The values of an array, decorations dropped: what a TOML reader sees. */
  function Values(a: TomlArray): (r: seq<TomlValue>)
    ensures |r| == |a.elems|
    ensures forall i :: 0 <= i < |r| ==> r[i] == a.elems[i].value
  {
    ValuesOf(a.elems)
  }

  function ValuesOf(elems: seq<Element>): (r: seq<TomlValue>)
    ensures |r| == |elems|
    ensures forall i :: 0 <= i < |r| ==> r[i] == elems[i].value
  {
    if |elems| == 0 then [] else ValuesOf(elems[..|elems| - 1]) + [elems[|elems| - 1].value]
  }

  // ---------------------------------------------------------------------
  // Multi-line arrays
  // ---------------------------------------------------------------------

  /** Every element with its prefix replaced by the array separator. */
  function Indented(elems: seq<Element>): (r: seq<Element>)
    ensures |r| == |elems|
    ensures forall i :: 0 <= i < |r| ==> r[i].value == elems[i].value && r[i].prefix == Some(ARRAY_SEP)
  {
    if |elems| == 0 then []
    else [Element(elems[0].value, Some(ARRAY_SEP))] + Indented(elems[1..])
  }

  /**
   `format_multiline_array`: one element per line, indented, with a
   trailing comma and the closing bracket on a line of its own.
   */
  function FormatMultilineArray(a: TomlArray): (r: TomlArray)
    ensures |r.elems| == |a.elems|
    ensures forall i :: 0 <= i < |r.elems| ==> r.elems[i].value == a.elems[i].value
    ensures forall i :: 0 <= i < |r.elems| ==> r.elems[i].prefix == Some(ARRAY_SEP)
    ensures r.trailing == Some("\n") && r.trailingComma
  {
    TomlArray(Indented(a.elems), Some("\n"), true)
  }

  /** Formatting keeps the values, and formatting twice is formatting once. */
  lemma FormatMultilineArrayKeepsValues(a: TomlArray)
    ensures Values(FormatMultilineArray(a)) == Values(a)
    ensures FormatMultilineArray(FormatMultilineArray(a)) == FormatMultilineArray(a)
  {
    var f := FormatMultilineArray(a);
    assert FormatMultilineArray(f).elems == f.elems;
  }

  // ---------------------------------------------------------------------
  // Bootstrap sleds
  // ---------------------------------------------------------------------

  datatype Baseboard =
    | Gimlet(identifier: string, model: string, revision: int)
    | UnknownBaseboard
    | Pc(identifier: string, model: string)

  /** A sled found on the bootstrap network; its address is already rendered. */
  datatype BootstrapSled = BootstrapSled(id: SpIdentifier, baseboard: Baseboard, bootstrapIp: Option<string>)

  const UNKNOWN_IP := "IP address UNKNOWN"

  function IpText(ip: Option<string>): (r: string)
    ensures ip.Some? ==> r == ip.value
    ensures ip.None? ==> r == UNKNOWN_IP
  {
    match ip
    case Some(addr) => addr
    case None => UNKNOWN_IP
  }

  /** The pieces of a sled's comment, before the text that ends it. */
  function CommentParts(sled: BootstrapSled): seq<string> {
    var ip := IpText(sled.bootstrapIp);
    match sled.baseboard
    case Gimlet(identifier, model, revision) =>
      [" # ", identifier, " (model ", model, " revision ", IntToDecimal(revision), ", ", ip, ")"]
    case UnknownBaseboard => [" # ", "UNKNOWN SLED (", ip, ")"]
    case Pc(identifier, model) => [" # ", "NON-GIMLET ", identifier, " (model ", model, ", ", ip, ")"]
  }

  /**
   `sled_comment`: a TOML comment describing a sled, followed by `end`,
   the text that comes next on the line.
   */
  function SledComment(sled: BootstrapSled, end: string): (r: string)
    ensures " # " <= r
    ensures |r| >= 3 + |end| && r[|r| - |end|..] == end
  {
    var body := Concat(CommentParts(sled));
    var r := body + end;
    assert r[..|body|] == body;
    assert r[|r| - |end|..] == end;
    r
  }

  /** Only the ending differs between two comments on the same sled. */
  lemma SledCommentEnds(sled: BootstrapSled, end1: string, end2: string)
    ensures SledComment(sled, end1)[..|SledComment(sled, end1)| - |end1|]
         == SledComment(sled, end2)[..|SledComment(sled, end2)| - |end2|]
  {
    var d := Concat(CommentParts(sled));
    assert SledComment(sled, end1)[..|SledComment(sled, end1)| - |end1|] == d;
    assert SledComment(sled, end2)[..|SledComment(sled, end2)| - |end2|] == d;
  }

  lemma CommentContainsPart(sled: BootstrapSled, end: string, i: nat)
    requires i < |CommentParts(sled)|
    ensures Contains(SledComment(sled, end), CommentParts(sled)[i])
  {
    ConcatContainsPart(CommentParts(sled), i);
    ContainsWithin("", Concat(CommentParts(sled)), end, CommentParts(sled)[i]);
    assert "" + Concat(CommentParts(sled)) + end == SledComment(sled, end);
  }

  /**
   The comment names the sled's address, or says it is unknown, and
   names the board: its identifier and model for a Gimlet or a PC, and
   that it is unknown otherwise.
   */
  lemma SledCommentMentions(sled: BootstrapSled, end: string)
    ensures Contains(SledComment(sled, end), IpText(sled.bootstrapIp))
    ensures sled.baseboard.Gimlet? || sled.baseboard.Pc? ==>
              Contains(SledComment(sled, end), sled.baseboard.identifier)
              && Contains(SledComment(sled, end), sled.baseboard.model)
    ensures sled.baseboard.UnknownBaseboard? ==> Contains(SledComment(sled, end), "UNKNOWN SLED (")
    ensures sled.baseboard.Pc? ==> Contains(SledComment(sled, end), "NON-GIMLET ")
  {
    match sled.baseboard
    case Gimlet(_, _, _) =>
      CommentContainsPart(sled, end, 1);
      CommentContainsPart(sled, end, 3);
      CommentContainsPart(sled, end, 7);
    case UnknownBaseboard =>
      CommentContainsPart(sled, end, 1);
      CommentContainsPart(sled, end, 2);
    case Pc(_, _) =>
      CommentContainsPart(sled, end, 1);
      CommentContainsPart(sled, end, 2);
      CommentContainsPart(sled, end, 4);
      CommentContainsPart(sled, end, 6);
  }

  /**
   The text a sled's comment takes from the sled may appear in a TOML
   comment: it has no control character but the tab, so in particular no
   line break.
   */
  predicate SledCommentSafe(sled: BootstrapSled) {
    && CommentSafe(IpText(sled.bootstrapIp))
    && match sled.baseboard
       case Gimlet(identifier, model, _) => CommentSafe(identifier) && CommentSafe(model)
       case UnknownBaseboard => true
       case Pc(identifier, model) => CommentSafe(identifier) && CommentSafe(model)
  }

  /** `s` is text TOML admits as a comment, followed by `end`. */
  predicate CommentLine(s: string, end: string) {
    |s| >= |end| && s[|s| - |end|..] == end && CommentSafe(s[..|s| - |end|])
  }

  /**
   A sled's comment is a valid TOML comment up to its ending: it holds no
   control character but the tab, so the only line break in it is one
   `end` brings, and a reader skips exactly the comment and nothing after
   it.
   */
  lemma SledCommentValid(sled: BootstrapSled, end: string)
    requires SledCommentSafe(sled)
    ensures CommentLine(SledComment(sled, end), end)
  {
    var parts := CommentParts(sled);
    if sled.baseboard.Gimlet? {
      DecimalCommentSafe(sled.baseboard.revision);
    }
    assert forall i :: 0 <= i < |parts| ==> CommentSafe(parts[i]);
    ConcatCommentSafe(parts);
    var r := SledComment(sled, end);
    assert r[..|r| - |end|] == Concat(parts);
  }

  /** The entries that describe sleds, in order: anything else is dropped. */
  function OnlySleds(sleds: seq<BootstrapSled>): (r: seq<BootstrapSled>)
    ensures |r| <= |sleds|
    ensures forall i :: 0 <= i < |r| ==> r[i].id.typ.SledSp? && r[i] in sleds
  {
    if |sleds| == 0 then []
    else
      var last := sleds[|sleds| - 1];
      OnlySleds(sleds[..|sleds| - 1]) + (if last.id.typ.SledSp? then [last] else [])
  }

  lemma OnlySledsStep(sleds: seq<BootstrapSled>, i: nat)
    requires i < |sleds|
    ensures OnlySleds(sleds[..i + 1])
         == OnlySleds(sleds[..i]) + (if sleds[i].id.typ.SledSp? then [sleds[i]] else [])
  {
    assert sleds[..i + 1][..i] == sleds[..i];
  }

  /** Exactly the sled entries are kept. */
  lemma {:induction false} OnlySledsMembers(sleds: seq<BootstrapSled>, s: BootstrapSled)
    ensures s in OnlySleds(sleds) <==> s in sleds && s.id.typ.SledSp?
  {
    if |sleds| > 0 {
      var init := sleds[..|sleds| - 1];
      OnlySledsMembers(init, s);
      assert sleds == init + [sleds[|sleds| - 1]];
    }
  }

  /** A list of sleds only is kept whole. */
  lemma {:induction false} OnlySledsOfSleds(sleds: seq<BootstrapSled>)
    requires forall i :: 0 <= i < |sleds| ==> sleds[i].id.typ.SledSp?
    ensures OnlySleds(sleds) == sleds
  {
    if |sleds| > 0 {
      OnlySledsOfSleds(sleds[..|sleds| - 1]);
      assert sleds[..|sleds| - 1] + [sleds[|sleds| - 1]] == sleds;
    }
  }

  /** Keeping one more sled leaves the elements of the earlier ones alone. */
  lemma SledElementExtend(kept: seq<BootstrapSled>, sled: BootstrapSled, k: nat)
    requires k < |kept|
    ensures SledElement(kept + [sled], k) == SledElement(kept, k)
  {
    if k > 0 {
      assert (kept + [sled])[k - 1] == kept[k - 1];
    }
  }

  /** The elements written for the kept sleds. */
  predicate SledElements(elems: seq<Element>, kept: seq<BootstrapSled>) {
    |elems| == |kept| && forall k :: 0 <= k < |kept| ==> elems[k] == SledElement(kept, k)
  }

  /** The element of the newest sled carries the previous sled's comment, or the separator. */
  lemma SledElementLast(kept: seq<BootstrapSled>, sled: BootstrapSled, prefix: string)
    requires prefix == PrefixAfter(LastSled(kept))
    ensures SledElement(kept + [sled], |kept|) == Element(TomlInt(sled.id.slot), Some(prefix))
  {
    if kept != [] {
      assert (kept + [sled])[|kept| - 1] == kept[|kept| - 1];
    }
  }

  /** Writing the next sled after the previous one's comment keeps the elements right. */
  lemma SledElementsAppend(elems: seq<Element>, kept: seq<BootstrapSled>, sled: BootstrapSled, prefix: string)
    requires SledElements(elems, kept)
    requires prefix == PrefixAfter(LastSled(kept))
    ensures SledElements(elems + [Element(TomlInt(sled.id.slot), Some(prefix))], kept + [sled])
  {
    var elem := Element(TomlInt(sled.id.slot), Some(prefix));
    SledElementLast(kept, sled, prefix);
    forall k | 0 <= k < |kept|
      ensures (elems + [elem])[k] == SledElement(kept + [sled], k)
    {
      SledElementExtend(kept, sled, k);
    }
  }

  /** The element for the `k`-th kept sled: its slot, after the previous sled's comment. */
  function SledElement(kept: seq<BootstrapSled>, k: nat): Element
    requires k < |kept|
  {
    Element(TomlInt(kept[k].id.slot), Some(PrefixAfter(if k == 0 then None else Some(kept[k - 1]))))
  }

  /** The newest of the kept sleds, if any. */
  function LastSled(kept: seq<BootstrapSled>): Option<BootstrapSled> {
    if kept == [] then None else Some(kept[|kept| - 1])
  }

  /** What goes before a sled's slot: the previous sled's comment, or the separator for the first. */
  function PrefixAfter(prev: Option<BootstrapSled>): string {
    match prev
    case Some(p) => SledComment(p, ARRAY_SEP)
    case None => ARRAY_SEP
  }

  /**
   The layout `build_sleds_array` gives an array: one element per sled
   entry, in order, each carrying as its prefix the comment on the sled
   before it; the last sled's comment and a trailing comma end the array,
   and an array with no sled is bare.
   */
  predicate SledsArrayLayout(built: TomlArray, sleds: seq<BootstrapSled>) {
    var kept := OnlySleds(sleds);
    && |built.elems| == |kept|
    && (forall k :: 0 <= k < |built.elems| ==> built.elems[k] == SledElement(kept, k))
    && (kept == [] ==> built == TomlArray([], None, false))
    && (kept != [] ==> built.trailing == Some(SledComment(kept[|kept| - 1], "\n")) && built.trailingComma)
  }

  /** Every comment of the array is a valid TOML comment, ended by the separator or the final line feed. */
  predicate CommentsValid(a: TomlArray) {
    && (forall k :: 0 <= k < |a.elems| ==> a.elems[k].prefix.Some? && CommentLine(a.elems[k].prefix.value, ARRAY_SEP))
    && (a.trailing.Some? ==> CommentLine(a.trailing.value, "\n"))
  }

  /**
   When no sled brings a control character of its own, every comment of
   the sleds array is a valid TOML comment that ends at its line break.
   */
  lemma SledsArrayComments(built: TomlArray, sleds: seq<BootstrapSled>)
    requires SledsArrayLayout(built, sleds)
    requires forall i :: 0 <= i < |sleds| ==> SledCommentSafe(sleds[i])
    ensures CommentsValid(built)
  {
    var kept := OnlySleds(sleds);
    forall k | 0 <= k < |built.elems|
      ensures built.elems[k].prefix.Some? && CommentLine(built.elems[k].prefix.value, ARRAY_SEP)
    {
      assert built.elems[k] == SledElement(kept, k);
      if k > 0 {
        SledCommentValid(kept[k - 1], ARRAY_SEP);
      } else {
        assert ARRAY_SEP[..|ARRAY_SEP| - |ARRAY_SEP|] == "";
      }
    }
    if kept != [] {
      SledCommentValid(kept[|kept| - 1], "\n");
    }
  }

  /**
   `build_sleds_array`: the slots of the sled entries, in order. A
   comment belongs on the line of its sled, so it is written as the prefix
   of the element after it, and the last sled's comment as the array's
   trailing text.
   */
  method BuildSledsArray(sleds: seq<BootstrapSled>) returns (built: TomlArray)
    ensures SledsArrayLayout(built, sleds)
  {
    var elems: seq<Element> := [];
    var prev: Option<BootstrapSled> := None;
    var i := 0;
    while i < |sleds|
      invariant 0 <= i <= |sleds|
      invariant SledElements(elems, OnlySleds(sleds[..i]))
      invariant prev == LastSled(OnlySleds(sleds[..i]))
    {
      BuildStep(sleds, i, elems, prev);
      if sleds[i].id.typ.SledSp? {
        elems := elems + [Element(TomlInt(sleds[i].id.slot), Some(PrefixAfter(prev)))];
        prev := Some(sleds[i]);
      }
      i := i + 1;
    }
    assert sleds[..i] == sleds;
    match prev
    case None =>
      built := TomlArray(elems, None, false);
    case Some(last) =>
      built := TomlArray(elems, Some(SledComment(last, "\n")), true);
  }

  /** One turn of the loop of `build_sleds_array` keeps its elements and its previous sled right. */
  lemma BuildStep(sleds: seq<BootstrapSled>, i: nat, elems: seq<Element>, prev: Option<BootstrapSled>)
    requires i < |sleds|
    requires SledElements(elems, OnlySleds(sleds[..i]))
    requires prev == LastSled(OnlySleds(sleds[..i]))
    ensures var sled := sleds[i];
            var kept := OnlySleds(sleds[..i + 1]);
            if sled.id.typ.SledSp? then
              && SledElements(elems + [Element(TomlInt(sled.id.slot), Some(PrefixAfter(prev)))], kept)
              && Some(sled) == LastSled(kept)
            else
              SledElements(elems, kept) && prev == LastSled(kept)
  {
    var sled := sleds[i];
    var kept := OnlySleds(sleds[..i]);
    OnlySledsStep(sleds, i);
    if sled.id.typ.SledSp? {
      SledElementsAppend(elems, kept, sled, PrefixAfter(prev));
      assert LastSled(kept + [sled]) == Some(sled);
    }
  }

  /** The integers of an array, as a TOML reader gets them back. */
  function ReadSlots(a: TomlArray): (r: seq<int>)
    ensures |r| <= |a.elems|
  {
    IntsOf(a.elems)
  }

  function IntsOf(elems: seq<Element>): (r: seq<int>)
    ensures |r| <= |elems|
  {
    if |elems| == 0 then []
    else
      var init := IntsOf(elems[..|elems| - 1]);
      match elems[|elems| - 1].value
      case TomlInt(i) => init + [i]
      case _ => init
  }

  function Slots(sleds: seq<BootstrapSled>): (r: seq<int>)
    ensures |r| == |sleds|
    ensures forall i :: 0 <= i < |sleds| ==> r[i] == sleds[i].id.slot
  {
    if |sleds| == 0 then [] else Slots(sleds[..|sleds| - 1]) + [sleds[|sleds| - 1].id.slot]
  }

  /** An array whose elements are the given slots reads back as those slots. */
  lemma {:induction false} IntsOfInts(elems: seq<Element>, slots: seq<int>)
    requires |elems| == |slots|
    requires forall k :: 0 <= k < |slots| ==> elems[k].value == TomlInt(slots[k])
    ensures IntsOf(elems) == slots
  {
    if |slots| > 0 {
      IntsOfInts(elems[..|elems| - 1], slots[..|slots| - 1]);
    }
  }

  /**
   The sleds written, laid out with their comments, are read back as the
   slots of the sled entries, in order; for a list of sleds only, the
   slots of the whole list. Reading skips the comments; each is a valid
   TOML comment ending at its line break whenever no sled brings a control
   character of its own.
   */
  method SledsRoundTrip(sleds: seq<BootstrapSled>) returns (built: TomlArray, slots: seq<int>)
    ensures SledsArrayLayout(built, sleds)
    ensures slots == ReadSlots(built)
    ensures slots == Slots(OnlySleds(sleds))
    ensures (forall i :: 0 <= i < |sleds| ==> sleds[i].id.typ.SledSp?) ==> slots == Slots(sleds)
    ensures (forall i :: 0 <= i < |sleds| ==> SledCommentSafe(sleds[i])) ==> CommentsValid(built)
  {
    built := BuildSledsArray(sleds);
    if forall i :: 0 <= i < |sleds| ==> SledCommentSafe(sleds[i]) {
      SledsArrayComments(built, sleds);
    }
    IntsOfInts(built.elems, Slots(OnlySleds(sleds)));
    slots := ReadSlots(built);
    if forall i :: 0 <= i < |sleds| ==> sleds[i].id.typ.SledSp? {
      OnlySledsOfSleds(sleds);
    }
  }

  // ---------------------------------------------------------------------
  // Rack network table
  // ---------------------------------------------------------------------

  /** One uplink of the rack network configuration, with every field rendered. */
  datatype UplinkConfig = UplinkConfig(
    switch: string,
    gatewayIp: string,
    uplinkPort: string,
    uplinkPortSpeed: string,
    uplinkPortFec: string,
    uplinkCidr: string,
    uplinkVid: Option<U16>)

  datatype RackNetworkConfig = RackNetworkConfig(infraIpFirst: string, infraIpLast: string, uplinks: seq<UplinkConfig>)

  /** A key of a table, its value and the decoration written after the value. */
  datatype TableEntry = TableEntry(key: string, value: TomlValue, suffix: Option<string>)

  /** A table keeps its keys in insertion order. */
  type Table = seq<TableEntry>

  /** The `rack_network_config` table of the template. */
  datatype NetworkTable = NetworkTable(infraIpFirst: TomlValue, infraIpLast: TomlValue, uplinks: seq<Table>)

  const UPLINK_KEYS: seq<string> :=
    ["switch", "gateway_ip", "uplink_port", "uplink_port_speed", "uplink_port_fec", "uplink_cidr"]

  function Keys(t: Table): (r: seq<string>)
    ensures |r| == |t|
    ensures forall i :: 0 <= i < |t| ==> r[i] == t[i].key
  {
    if |t| == 0 then [] else Keys(t[..|t| - 1]) + [t[|t| - 1].key]
  }

  /** The value of `key` in a table, if present. */
  function Lookup(t: Table, key: string): (r: Option<TomlValue>)
    ensures r.Some? <==> exists i :: 0 <= i < |t| && t[i].key == key
    ensures r.Some? ==> exists i :: 0 <= i < |t| && t[i].key == key && t[i].value == r.value
  {
    if |t| == 0 then None
    else if t[0].key == key then Some(t[0].value)
    else
      var r := Lookup(t[1..], key);
      assert forall i :: 1 <= i < |t| ==> t[1..][i - 1] == t[i];
      if r.Some? then
        var j :| 0 <= j < |t[1..]| && t[1..][j].key == key && t[1..][j].value == r.value;
        assert t[j + 1].key == key;
        r
      else
        r
  }

  /** The value of a key is the one at its first occurrence. */
  lemma {:induction false} LookupFirst(t: Table, key: string, i: nat)
    requires i < |t| && t[i].key == key
    requires forall j :: 0 <= j < i ==> t[j].key != key
    ensures Lookup(t, key) == Some(t[i].value)
  {
    if i > 0 {
      LookupFirst(t[1..], key, i - 1);
    }
  }

  /** The table for one uplink, keys in the order they are inserted. */
  function UplinkTable(cfg: UplinkConfig): (r: Table)
    ensures Keys(r) == UPLINK_KEYS + (if cfg.uplinkVid.Some? then ["uplink_vid"] else [])
    ensures forall i :: 0 <= i < 6 ==> r[i].value.TomlString?
    ensures cfg.uplinkVid.Some? ==> r[6].value == TomlInt(cfg.uplinkVid.value)
                                    && forall i :: 0 <= i < 7 ==> r[i].suffix.None?
    ensures cfg.uplinkVid.None? ==> r[5].suffix == Some(UPLINK_VID_HINT)
                                    && forall i :: 0 <= i < 5 ==> r[i].suffix.None?
  {
    var fields := [
      TableEntry("switch", TomlString(cfg.switch), None),
      TableEntry("gateway_ip", TomlString(cfg.gatewayIp), None),
      TableEntry("uplink_port", TomlString(cfg.uplinkPort), None),
      TableEntry("uplink_port_speed", TomlString(cfg.uplinkPortSpeed), None),
      TableEntry("uplink_port_fec", TomlString(cfg.uplinkPortFec), None),
      TableEntry("uplink_cidr", TomlString(cfg.uplinkCidr), None)
    ];
    var r := match cfg.uplinkVid
      case Some(vid) => fields + [TableEntry("uplink_vid", TomlInt(vid), None)]
      case None => fields[..5] + [fields[5].(suffix := Some(UPLINK_VID_HINT))];
    assert Keys(r) == UPLINK_KEYS + (if cfg.uplinkVid.Some? then ["uplink_vid"] else []);
    r
  }

  function StringAt(t: Table, key: string): Option<string> {
    match Lookup(t, key)
    case Some(TomlString(s)) => Some(s)
    case _ => None
  }

  /** Reads an uplink back from its table, as the configuration's deserializer does. */
  function ReadUplink(t: Table): Option<UplinkConfig> {
    var switch :- StringAt(t, "switch");
    var gatewayIp :- StringAt(t, "gateway_ip");
    var uplinkPort :- StringAt(t, "uplink_port");
    var speed :- StringAt(t, "uplink_port_speed");
    var fec :- StringAt(t, "uplink_port_fec");
    var cidr :- StringAt(t, "uplink_cidr");
    var vid := match Lookup(t, "uplink_vid")
      case Some(TomlInt(v)) => if 0 <= v < U16_LIMIT then Some(v as U16) else None
      case _ => None;
    Some(UplinkConfig(switch, gatewayIp, uplinkPort, speed, fec, cidr, vid))
  }

  /** The keys an uplink table may have are all different. */
  lemma UplinkKeysDistinct()
    ensures forall i, j :: 0 <= i < j < 7 ==> (UPLINK_KEYS + ["uplink_vid"])[i] != (UPLINK_KEYS + ["uplink_vid"])[j]
  {
  }

  /** Each key of an uplink table is found at its own position. */
  lemma UplinkField(cfg: UplinkConfig, i: nat, key: string)
    requires i < |UplinkTable(cfg)| && key == (UPLINK_KEYS + ["uplink_vid"])[i]
    ensures Lookup(UplinkTable(cfg), key) == Some(UplinkTable(cfg)[i].value)
  {
    var t := UplinkTable(cfg);
    var keys := UPLINK_KEYS + ["uplink_vid"];
    UplinkKeysDistinct();
    assert forall j :: 0 <= j < |t| ==> t[j].key == keys[j] by {
      assert Keys(t) == keys[..|t|];
    }
    LookupFirst(t, key, i);
  }

  /** No key of an uplink table without a VLAN id is `uplink_vid`. */
  lemma UplinkWithoutVid(cfg: UplinkConfig)
    requires cfg.uplinkVid.None?
    ensures Lookup(UplinkTable(cfg), "uplink_vid").None?
  {
    var t := UplinkTable(cfg);
    UplinkKeysDistinct();
    assert forall i :: 0 <= i < |t| ==> t[i].key != "uplink_vid" by {
      assert Keys(t) == UPLINK_KEYS;
    }
  }

  /** A string field of an uplink table reads back as its value. */
  lemma UplinkStringField(cfg: UplinkConfig, i: nat, key: string)
    requires i < 6 && key == UPLINK_KEYS[i]
    ensures StringAt(UplinkTable(cfg), key) == Some(UplinkTable(cfg)[i].value.s)
  {
    UplinkField(cfg, i, key);
  }

  /** The six string fields read back as written. */
  lemma UplinkStringsRoundTrip(cfg: UplinkConfig)
    ensures StringAt(UplinkTable(cfg), "switch") == Some(cfg.switch)
    ensures StringAt(UplinkTable(cfg), "gateway_ip") == Some(cfg.gatewayIp)
    ensures StringAt(UplinkTable(cfg), "uplink_port") == Some(cfg.uplinkPort)
    ensures StringAt(UplinkTable(cfg), "uplink_port_speed") == Some(cfg.uplinkPortSpeed)
    ensures StringAt(UplinkTable(cfg), "uplink_port_fec") == Some(cfg.uplinkPortFec)
    ensures StringAt(UplinkTable(cfg), "uplink_cidr") == Some(cfg.uplinkCidr)
  {
    var t := UplinkTable(cfg);
    assert t[0].value.s == cfg.switch && t[1].value.s == cfg.gatewayIp && t[2].value.s == cfg.uplinkPort;
    assert t[3].value.s == cfg.uplinkPortSpeed && t[4].value.s == cfg.uplinkPortFec && t[5].value.s == cfg.uplinkCidr;
    UplinkStringField(cfg, 0, "switch");
    UplinkStringField(cfg, 1, "gateway_ip");
    UplinkStringField(cfg, 2, "uplink_port");
    UplinkStringField(cfg, 3, "uplink_port_speed");
    UplinkStringField(cfg, 4, "uplink_port_fec");
    UplinkStringField(cfg, 5, "uplink_cidr");
  }

  /** Every uplink written reads back as itself, with or without its VLAN id. */
  lemma UplinkRoundTrip(cfg: UplinkConfig)
    ensures ReadUplink(UplinkTable(cfg)) == Some(cfg)
  {
    UplinkStringsRoundTrip(cfg);
    if cfg.uplinkVid.Some? {
      UplinkField(cfg, 6, "uplink_vid");
    } else {
      UplinkWithoutVid(cfg);
    }
  }

  function UplinkTables(uplinks: seq<UplinkConfig>): (r: seq<Table>)
    ensures |r| == |uplinks|
    ensures forall i :: 0 <= i < |uplinks| ==> r[i] == UplinkTable(uplinks[i])
  {
    if |uplinks| == 0 then [] else [UplinkTable(uplinks[0])] + UplinkTables(uplinks[1..])
  }

  /**
   `populate_network_table`: with no network configuration the template is
   left as it is; otherwise the infrastructure range is written, and the
   uplinks are replaced unless the configuration has none.
   */
  function PopulateNetworkTable(table: NetworkTable, config: Option<RackNetworkConfig>): (r: NetworkTable)
    ensures config.None? ==> r == table
    ensures config.Some? ==>
              && r.infraIpFirst == TomlString(config.value.infraIpFirst)
              && r.infraIpLast == TomlString(config.value.infraIpLast)
    ensures config.Some? && config.value.uplinks == [] ==> r.uplinks == table.uplinks
    ensures config.Some? && config.value.uplinks != [] ==>
              |r.uplinks| == |config.value.uplinks|
              && forall i :: 0 <= i < |r.uplinks| ==> r.uplinks[i] == UplinkTable(config.value.uplinks[i])
  {
    match config
    case None => table
    case Some(c) =>
      NetworkTable(
        TomlString(c.infraIpFirst),
        TomlString(c.infraIpLast),
        if c.uplinks == [] then table.uplinks else UplinkTables(c.uplinks))
  }

  /** A configuration with uplinks reads back from the populated table. */
  lemma NetworkTableRoundTrip(table: NetworkTable, config: RackNetworkConfig, i: nat)
    requires config.uplinks != [] && i < |config.uplinks|
    ensures ReadUplink(PopulateNetworkTable(table, Some(config)).uplinks[i]) == Some(config.uplinks[i])
  {
    UplinkRoundTrip(config.uplinks[i]);
  }

  // ---------------------------------------------------------------------
  // The whole template
  // ---------------------------------------------------------------------

  datatype IpRange = IpRange(first: string, last: string)

  /** The user-visible part of the rack setup configuration. */
  datatype RssConfig = RssConfig(
    externalDnsZoneName: string,
    ntpServers: seq<string>,
    dnsServers: seq<string>,
    internalServicesIpPoolRanges: seq<IpRange>,
    externalDnsIps: seq<string>,
    bootstrapSleds: seq<BootstrapSled>,
    rackNetworkConfig: Option<RackNetworkConfig>)

  datatype TomlTemplate = TomlTemplate(
    externalDnsZoneName: TomlValue,
    ntpServers: TomlArray,
    dnsServers: TomlArray,
    internalServicesIpPoolRanges: TomlArray,
    externalDnsIps: TomlArray,
    bootstrapSleds: TomlArray,
    rackNetworkConfig: NetworkTable)

  function Strings(ss: seq<string>): (r: seq<TomlValue>)
    ensures |r| == |ss|
    ensures forall i :: 0 <= i < |ss| ==> r[i] == TomlString(ss[i])
  {
    if |ss| == 0 then [] else [TomlString(ss[0])] + Strings(ss[1..])
  }

  function Ranges(rs: seq<IpRange>): (r: seq<TomlValue>)
    ensures |r| == |rs|
    ensures forall i :: 0 <= i < |rs| ==> r[i] == TomlInlineTable([("first", rs[i].first), ("last", rs[i].last)])
  {
    if |rs| == 0 then []
    else [TomlInlineTable([("first", rs[0].first), ("last", rs[0].last)])] + Ranges(rs[1..])
  }

  /** The layout `format_multiline_array` gives an array. */
  predicate IsMultiline(a: TomlArray) {
    && a.trailing == Some("\n") && a.trailingComma
    && forall i :: 0 <= i < |a.elems| ==> a.elems[i].prefix == Some(ARRAY_SEP)
  }

  /** A list written as a multi-line array reads back as the list. */
  lemma MultilineValues(values: seq<TomlValue>)
    ensures Values(FormatMultilineArray(PlainArray(values))) == values
    ensures IsMultiline(FormatMultilineArray(PlainArray(values)))
  {
  }

  /**
   `TomlTemplate::populate`: every list of the configuration becomes a
   multi-line array, the sleds are listed with their comments, and the
   network table is filled in.
   */
  method Populate(template: TomlTemplate, config: RssConfig) returns (r: TomlTemplate)
    ensures r.externalDnsZoneName == TomlString(config.externalDnsZoneName)
    ensures Values(r.ntpServers) == Strings(config.ntpServers)
    ensures Values(r.dnsServers) == Strings(config.dnsServers)
    ensures Values(r.internalServicesIpPoolRanges) == Ranges(config.internalServicesIpPoolRanges)
    ensures Values(r.externalDnsIps) == Strings(config.externalDnsIps)
    ensures IsMultiline(r.ntpServers) && IsMultiline(r.dnsServers)
    ensures IsMultiline(r.internalServicesIpPoolRanges) && IsMultiline(r.externalDnsIps)
    ensures SledsArrayLayout(r.bootstrapSleds, config.bootstrapSleds)
    ensures ReadSlots(r.bootstrapSleds) == Slots(OnlySleds(config.bootstrapSleds))
    ensures (forall i :: 0 <= i < |config.bootstrapSleds| ==> SledCommentSafe(config.bootstrapSleds[i])) ==>
              CommentsValid(r.bootstrapSleds)
    ensures r.rackNetworkConfig == PopulateNetworkTable(template.rackNetworkConfig, config.rackNetworkConfig)
  {
    var ntp := FormatMultilineArray(PlainArray(Strings(config.ntpServers)));
    var dns := FormatMultilineArray(PlainArray(Strings(config.dnsServers)));
    var ranges := FormatMultilineArray(PlainArray(Ranges(config.internalServicesIpPoolRanges)));
    var dnsIps := FormatMultilineArray(PlainArray(Strings(config.externalDnsIps)));
    MultilineValues(Strings(config.ntpServers));
    MultilineValues(Strings(config.dnsServers));
    MultilineValues(Ranges(config.internalServicesIpPoolRanges));
    MultilineValues(Strings(config.externalDnsIps));
    var sleds, _ := SledsRoundTrip(config.bootstrapSleds);
    r := TomlTemplate(
      TomlString(config.externalDnsZoneName),
      ntp, dns, ranges, dnsIps, sleds,
      PopulateNetworkTable(template.rackNetworkConfig, config.rackNetworkConfig));
  }
}

=== FILE: inventory.dfy ===
/**
 The rack's component identities as the wicket terminal UI knows them:
 the fixed set of slots it shows, the parsing of a reported `(type, slot)`
 pair, the display name of a component, and the replacement of the whole
 inventory when the management gateway reports a new one.
 */
module Inventory {
  import opened Types
  import opened Text

  // ---------------------------------------------------------------------
  // Component identities
  // ---------------------------------------------------------------------

  /** A component kind and its slot. */
  datatype ComponentId = Sled(i: U8) | Switch(i: U8) | Psc(i: U8)

  /** The position of the variant in declaration order, which the derived `Ord` compares first. */
  function KindRank(c: ComponentId): nat {
    match c
    case Sled(_) => 0
    case Switch(_) => 1
    case Psc(_) => 2
  }

  /** The derived `Ord` of `ComponentId`: by variant, then by slot. */
  function CompareComponentId(a: ComponentId, b: ComponentId): (r: Ordering)
    ensures r == Equal <==> a == b
    ensures r == Less <==> KindRank(a) < KindRank(b) || (KindRank(a) == KindRank(b) && a.i < b.i)
  {
    if KindRank(a) != KindRank(b) then CompareInt(KindRank(a), KindRank(b))
    else CompareInt(a.i, b.i)
  }

  /** Swapping the operands flips the comparison, so it is antisymmetric. */
  lemma CompareComponentIdFlip(a: ComponentId, b: ComponentId)
    ensures CompareComponentId(b, a) == CompareComponentId(a, b).Flip()
  {
  }

  /** The largest slot number the rack has for each kind. */
  function MaxSlot(c: ComponentId): nat {
    match c
    case Sled(_) => 31
    case Switch(_) => 1
    case Psc(_) => 1
  }

  /** Slots 0 to 31 for sleds, 0 to 1 for switches and power shelves. */
  predicate InRackRange(c: ComponentId) {
    c.i <= MaxSlot(c)
  }

  /**
   Every component the UI shows: sleds 0 to 31, then switches 0 and 1,
   then only power shelf 0 (racks do not ship with a second one).
   */
  const ALL_COMPONENT_IDS: seq<ComponentId> := SledsBelow(32) + [Switch(0), Switch(1), Psc(0)]

  /** Sleds 0 to `n - 1`, in slot order. */
  function SledsBelow(n: nat): (r: seq<ComponentId>)
    requires n <= 32
    ensures |r| == n
    ensures forall k :: 0 <= k < n ==> r[k] == Sled(k)
  {
    if n == 0 then [] else SledsBelow(n - 1) + [Sled(n - 1)]
  }

  /** The identities are listed in strictly increasing `Ord` order, so each appears once. */
  predicate StrictlyIncreasing(s: seq<ComponentId>) {
    forall i, j :: 0 <= i < j < |s| ==> CompareComponentId(s[i], s[j]) == Less
  }

  lemma AllComponentIdsShape()
    ensures |ALL_COMPONENT_IDS| == 35
    ensures forall k :: 0 <= k < 32 ==> ALL_COMPONENT_IDS[k] == Sled(k)
    ensures ALL_COMPONENT_IDS[32] == Switch(0) && ALL_COMPONENT_IDS[33] == Switch(1)
    ensures ALL_COMPONENT_IDS[34] == Psc(0)
  {
  }

  lemma AllComponentIdsIncreasing()
    ensures StrictlyIncreasing(ALL_COMPONENT_IDS)
  {
    AllComponentIdsShape();
    forall i, j | 0 <= i < j < |ALL_COMPONENT_IDS|
      ensures CompareComponentId(ALL_COMPONENT_IDS[i], ALL_COMPONENT_IDS[j]) == Less
    {
      ListedAt(i);
      ListedAt(j);
    }
  }

  /** The component at each position of the list. */
  lemma ListedAt(k: nat)
    requires k < 35
    ensures ALL_COMPONENT_IDS[k] == if k < 32 then Sled(k) else if k < 34 then Switch(k - 32) else Psc(0)
  {
    AllComponentIdsShape();
  }

  /** Membership: exactly the in-range sleds and switches, and the first power shelf. */
  lemma AllComponentIdsMembers(c: ComponentId)
    ensures c in ALL_COMPONENT_IDS <==> (InRackRange(c) && !c.Psc?) || c == Psc(0)
  {
    AllComponentIdsShape();
    if (InRackRange(c) && !c.Psc?) || c == Psc(0) {
      match c
      case Sled(i) => assert ALL_COMPONENT_IDS[i] == c;
      case Switch(i) => assert ALL_COMPONENT_IDS[32 + i] == c;
      case Psc(_) => assert ALL_COMPONENT_IDS[34] == c;
    }
  }

  // ---------------------------------------------------------------------
  // Parsing and display
  // ---------------------------------------------------------------------

  /** The type names under which reports are keyed. */
  function TypeName(c: ComponentId): string {
    match c
    case Sled(_) => "sled"
    case Switch(_) => "switch"
    case Psc(_) => "power"
  }

  function WithKind(spType: string, i: U8): Option<ComponentId> {
    if spType == "sled" then Some(Sled(i))
    else if spType == "switch" then Some(Switch(i))
    else if spType == "power" then Some(Psc(i))
    else None
  }

  /**
   `ComponentId::try_from(ParsableComponentId)`: the slot must parse as a
   `u8`, and the type name and slot must name a slot the rack has.
   */
  function ParseComponentId(spType: string, i: string): (r: Option<ComponentId>)
    ensures r.Some? ==> TypeName(r.value) == spType && ParseU8(i) == Some(r.value.i) && InRackRange(r.value)
    ensures r.None? ==> ParseU8(i).None?
                        || forall c: ComponentId :: TypeName(c) == spType && c.i == ParseU8(i).value ==> !InRackRange(c)
  {
    match ParseU8(i)
    case None => None
    case Some(n) =>
      match WithKind(spType, n)
      case None => None
      case Some(c) => if InRackRange(c) then Some(c) else None
  }

  /** Every in-range identity parses back from its type name and decimal slot. */
  lemma ParseComponentIdRoundTrip(c: ComponentId)
    requires InRackRange(c)
    ensures ParseComponentId(TypeName(c), ToDecimal(c.i)) == Some(c)
  {
    ParseToDecimal(c.i, U8_LIMIT);
  }

  /** Power shelf 1 parses, yet it is not one of the components the UI shows. */
  lemma SecondPowerShelfParses()
    ensures ParseComponentId("power", "1") == Some(Psc(1))
    ensures Psc(1) !in ALL_COMPONENT_IDS
  {
    assert ToDecimal(1) == "1";
    ParseComponentIdRoundTrip(Psc(1));
    AllComponentIdsMembers(Psc(1));
  }

  /** `Display for ComponentId`. */
  function Display(c: ComponentId): (r: string)
    ensures |r| > 0
  {
    match c
    case Sled(i) => "SLED " + ToDecimal(i)
    case Switch(i) => "SWITCH " + ToDecimal(i)
    case Psc(i) => "PSC " + ToDecimal(i)
  }

  function DisplayPrefix(c: ComponentId): string {
    match c
    case Sled(_) => "SLED "
    case Switch(_) => "SWITCH "
    case Psc(_) => "PSC "
  }

  /** The display name is the kind's upper-case name, a space and the decimal slot. */
  lemma DisplayShape(c: ComponentId)
    ensures Display(c) == DisplayPrefix(c) + ToDecimal(c.i)
    ensures Display(c)[|DisplayPrefix(c)|..] == ToDecimal(c.i)
  {
  }

  /** Distinct components have distinct display names. */
  lemma DisplayInjective(a: ComponentId, b: ComponentId)
    requires Display(a) == Display(b)
    ensures a == b
  {
    DisplayKindLetter(a);
    DisplayKindLetter(b);
    assert KindRank(a) == KindRank(b);
    assert DisplayPrefix(a) == DisplayPrefix(b);
    DisplayShape(a);
    DisplayShape(b);
    ToDecimalInjective(a.i, b.i);
  }

  /** The second letter of a display name tells the kinds apart. */
  function KindLetter(c: ComponentId): char {
    match c
    case Sled(_) => 'L'
    case Switch(_) => 'W'
    case Psc(_) => 'S'
  }

  lemma DisplayKindLetter(c: ComponentId)
    ensures |Display(c)| > 1 && Display(c)[1] == KindLetter(c)
  {
    DisplayShape(c);
    var p := DisplayPrefix(c);
    assert |p| > 1 && p[1] == KindLetter(c);
    assert Display(c)[1] == p[1];
  }

  // ---------------------------------------------------------------------
  // Inventory contents
  // ---------------------------------------------------------------------

  /** The only part of a caboose the UI reads. */
  datatype Caboose = Caboose(version: Option<string>)

  datatype RotSlot = RotA | RotB

  datatype RotInventory = RotInventory(active: RotSlot, cabooseA: Option<Caboose>, cabooseB: Option<Caboose>)

  /**
   What the gateway reports of one service processor. Ignition, state and
   component lists are only displayed, and are kept as an opaque summary.
   */
  datatype Sp = Sp(
    summary: string,
    cabooseActive: Option<Caboose>,
    cabooseInactive: Option<Caboose>,
    rot: Option<RotInventory>)

  datatype Component = SledComponent(sp: Sp) | SwitchComponent(sp: Sp) | PscComponent(sp: Sp)

  datatype PowerState = A0 | A1 | A2 | A3 | A4

  /** One entry of the gateway's rack inventory. */
  datatype SpReport = SpReport(id: SpIdentifier, sp: Sp)

  datatype Inventory = Inventory(power: map<ComponentId, PowerState>, inventory: map<ComponentId, Component>)

  const EMPTY_INVENTORY := Inventory(map[], map[])

  /** The rack slot a report may name: 31 for sleds, 1 for switches and power shelves. */
  predicate ValidReport(id: SpIdentifier) {
    match id.typ
    case SledSp => id.slot <= 31
    case SwitchSp => id.slot <= 1
    case PowerSp => id.slot <= 1
  }

  function ReportedId(id: SpIdentifier): ComponentId
    requires ValidReport(id)
  {
    match id.typ
    case SledSp => Sled(id.slot)
    case SwitchSp => Switch(id.slot)
    case PowerSp => Psc(id.slot)
  }

  function ReportedComponent(r: SpReport): Component
    requires ValidReport(r.id)
  {
    match r.id.typ
    case SledSp => SledComponent(r.sp)
    case SwitchSp => SwitchComponent(r.sp)
    case PowerSp => PscComponent(r.sp)
  }

  /** The message of the error `update_inventory` returns for a slot out of range. */
  function InvalidSlotMessage(id: SpIdentifier): string {
    match id.typ
    case SledSp => "Invalid sled slot: " + ToDecimal(id.slot)
    case SwitchSp => "Invalid switch slot: " + ToDecimal(id.slot)
    case PowerSp => "Invalid power shelf slot: " + ToDecimal(id.slot)
  }

  /** `k` is the last report of `sps`, all valid, naming `id`. */
  ghost predicate IsLastReportOf(sps: seq<SpReport>, id: ComponentId, k: int)
    requires forall j :: 0 <= j < |sps| ==> ValidReport(sps[j].id)
  {
    && 0 <= k < |sps|
    && ReportedId(sps[k].id) == id
    && forall j :: k < j < |sps| ==> ReportedId(sps[j].id) != id
  }

  /** The inventory `update_inventory` builds from reports that are all valid. */
  ghost predicate BuiltFrom(inv: Inventory, sps: seq<SpReport>)
    requires forall j :: 0 <= j < |sps| ==> ValidReport(sps[j].id)
  {
    && inv.inventory.Keys == inv.power.Keys
    && (forall id :: id in inv.power <==> exists k :: 0 <= k < |sps| && ReportedId(sps[k].id) == id)
    && (forall id :: id in inv.power ==> inv.power[id] == A2)
    && (forall id, k :: id in inv.inventory && IsLastReportOf(sps, id, k) ==>
                          inv.inventory[id] == ReportedComponent(sps[k]))
  }

  /**
   `Inventory::update_inventory`: build a built inventory from the reports
   in order, a later report for a slot overwriting an earlier one, with
   every power state `A2`. The first report naming a slot out of range
   aborts the update with its message and leaves the inventory as it was.
   */
  method UpdateInventory(inv: Inventory, sps: seq<SpReport>) returns (next: Inventory, err: Option<string>)
    ensures err.None? <==> forall j :: 0 <= j < |sps| ==> ValidReport(sps[j].id)
    ensures err.Some? ==> next == inv
    ensures err.Some? ==> exists k :: 0 <= k < |sps| && !ValidReport(sps[k].id)
                                      && (forall j :: 0 <= j < k ==> ValidReport(sps[j].id))
                                      && err.value == InvalidSlotMessage(sps[k].id)
    ensures err.None? ==> BuiltFrom(next, sps)
  {
    var built := EMPTY_INVENTORY;
    var k := 0;
    while k < |sps|
      invariant k <= |sps|
      invariant forall j :: 0 <= j < k ==> ValidReport(sps[j].id)
      invariant BuiltFrom(built, sps[..k])
    {
      var report := sps[k];
      if !ValidReport(report.id) {
        return inv, Some(InvalidSlotMessage(report.id));
      }
      BuiltFromStep(built, sps, k);
      built := AddReport(built, report);
      k := k + 1;
    }
    assert sps[..k] == sps;
    return built, None;
  }

  /** Record one valid report: its slot is powered `A2` and holds the reported component. */
  function AddReport(built: Inventory, report: SpReport): Inventory
    requires ValidReport(report.id)
  {
    var id := ReportedId(report.id);
    Inventory(built.power[id := A2], built.inventory[id := ReportedComponent(report)])
  }

  /** Adding the next report to the inventory built from the earlier ones builds it from one more. */
  lemma BuiltFromStep(built: Inventory, sps: seq<SpReport>, k: nat)
    requires k < |sps|
    requires forall j :: 0 <= j <= k ==> ValidReport(sps[j].id)
    requires BuiltFrom(built, sps[..k])
    ensures BuiltFrom(AddReport(built, sps[k]), sps[..k + 1])
  {
    var prefix := sps[..k + 1];
    assert prefix[..k] == sps[..k];
    AddReportKeys(built, prefix);
    AddReportContents(built, prefix);
  }

  lemma AddReportKeys(built: Inventory, prefix: seq<SpReport>)
    requires |prefix| > 0
    requires forall j :: 0 <= j < |prefix| ==> ValidReport(prefix[j].id)
    requires BuiltFrom(built, prefix[..|prefix| - 1])
    ensures var next := AddReport(built, prefix[|prefix| - 1]);
            forall id' :: id' in next.power <==> exists j :: 0 <= j < |prefix| && ReportedId(prefix[j].id) == id'
  {
    var k := |prefix| - 1;
    var id := ReportedId(prefix[k].id);
    var next := AddReport(built, prefix[k]);
    forall id' | id' in next.power
      ensures exists j :: 0 <= j < k + 1 && ReportedId(prefix[j].id) == id'
    {
      if id' == id {
        assert ReportedId(prefix[k].id) == id';
      } else {
        var j :| 0 <= j < k && ReportedId(prefix[..k][j].id) == id';
        assert prefix[j] == prefix[..k][j];
      }
    }
    forall id' | exists j :: 0 <= j < k + 1 && ReportedId(prefix[j].id) == id'
      ensures id' in next.power
    {
      var j :| 0 <= j < k + 1 && ReportedId(prefix[j].id) == id';
      if j < k {
        assert prefix[..k][j] == prefix[j];
      }
    }
  }

  lemma AddReportContents(built: Inventory, prefix: seq<SpReport>)
    requires |prefix| > 0
    requires forall j :: 0 <= j < |prefix| ==> ValidReport(prefix[j].id)
    requires BuiltFrom(built, prefix[..|prefix| - 1])
    ensures var next := AddReport(built, prefix[|prefix| - 1]);
            forall id', j :: id' in next.inventory && IsLastReportOf(prefix, id', j) ==>
              next.inventory[id'] == ReportedComponent(prefix[j])
  {
    var k := |prefix| - 1;
    var id := ReportedId(prefix[k].id);
    var next := AddReport(built, prefix[k]);
    forall id', j | id' in next.inventory && IsLastReportOf(prefix, id', j)
      ensures next.inventory[id'] == ReportedComponent(prefix[j])
    {
      if id' == id {
        assert j == k;
      } else {
        assert j < k;
        assert IsLastReportOf(prefix[..k], id', j);
      }
    }
  }

  /** Two successful updates with the same reports build the same inventory, whatever came before. */
  lemma BuiltFromUnique(a: Inventory, b: Inventory, sps: seq<SpReport>)
    requires forall j :: 0 <= j < |sps| ==> ValidReport(sps[j].id)
    requires BuiltFrom(a, sps) && BuiltFrom(b, sps)
    ensures a == b
  {
    assert a.power.Keys == b.power.Keys;
    forall id | id in a.inventory
      ensures id in b.inventory && a.inventory[id] == b.inventory[id]
    {
      assert id in a.power;
      var k := LastReportIndex(sps, id);
      assert a.inventory[id] == ReportedComponent(sps[k]);
    }
    assert a.power == b.power;
    assert a.inventory == b.inventory;
  }

  /** Every reported identity has a last report. */
  lemma LastReportIndex(sps: seq<SpReport>, id: ComponentId) returns (k: int)
    requires forall j :: 0 <= j < |sps| ==> ValidReport(sps[j].id)
    requires exists j :: 0 <= j < |sps| && ReportedId(sps[j].id) == id
    ensures IsLastReportOf(sps, id, k)
  {
    k := |sps| - 1;
    while ReportedId(sps[k].id) != id
      invariant 0 <= k < |sps|
      invariant exists j :: 0 <= j <= k && ReportedId(sps[j].id) == id
      invariant forall j :: k < j < |sps| ==> ReportedId(sps[j].id) != id
      decreases k
    {
      k := k - 1;
    }
  }

  // ---------------------------------------------------------------------
  // Versions
  // ---------------------------------------------------------------------

  /** `version_or_unknown`: the caboose's version when there is one, else `UNKNOWN`. */
  function VersionOrUnknown(caboose: Option<Caboose>): (r: string)
    ensures caboose.Some? && caboose.value.version.Some? ==> r == caboose.value.version.value
    ensures caboose.None? || caboose.value.version.None? ==> r == "UNKNOWN"
  {
    match caboose
    case Some(Caboose(Some(v))) => v
    case _ => "UNKNOWN"
  }

  /** `Component::rot_version_a` and `rot_version_b`: the RoT slot's caboose version, or `UNKNOWN`. */
  function RotVersion(c: Component, slot: RotSlot): (r: string)
    ensures c.sp.rot.None? ==> r == "UNKNOWN"
    ensures c.sp.rot.Some? ==>
              r == VersionOrUnknown(if slot == RotA then c.sp.rot.value.cabooseA else c.sp.rot.value.cabooseB)
  {
    match c.sp.rot
    case None => VersionOrUnknown(None)
    case Some(rot) => VersionOrUnknown(if slot == RotA then rot.cabooseA else rot.cabooseB)
  }
}

=== FILE: text.dfy ===
/**
 The pieces of Rust's string handling the modelled code relies on: decimal
 parsing of unsigned integers (`str::parse::<u8>()`, `::<u64>()`), decimal
 printing (`Display` for integers), `split_ascii_whitespace`, `trim`,
 `lines().next()` and substring search (`str::contains`).
 */
module Text {
  import opened Types

  // ---------------------------------------------------------------------
  // Decimal digits
  // ---------------------------------------------------------------------

  predicate IsAsciiDigit(c: char) {
    '0' <= c <= '9'
  }

  predicate AllDigits(s: string) {
    forall i :: 0 <= i < |s| ==> IsAsciiDigit(s[i])
  }

  function DigitValue(c: char): (d: nat)
    requires IsAsciiDigit(c)
    ensures d < 10
  {
    (c as int) - ('0' as int)
  }

  function DigitChar(d: nat): (c: char)
    requires d < 10
    ensures IsAsciiDigit(c) && DigitValue(c) == d
  {
    ('0' as int + d) as char
  }

  /** The value of a string of decimal digits, most significant first. */
  function DigitsValue(s: string): nat
    requires AllDigits(s)
  {
    if |s| == 0 then 0 else DigitsValue(s[..|s| - 1]) * 10 + DigitValue(s[|s| - 1])
  }

  /**
   `Display` of an unsigned integer: the shortest decimal spelling, with no
   sign and no leading zero.
   */
  function ToDecimal(n: nat): (s: string)
    ensures |s| > 0 && AllDigits(s)
    ensures DigitsValue(s) == n
    ensures s[0] == '0' ==> n == 0 && |s| == 1
  {
    if n < 10 then [DigitChar(n)]
    else
      var hi := ToDecimal(n / 10);
      var s := hi + [DigitChar(n % 10)];
      assert s[..|s| - 1] == hi;
      s
  }

  /** `Display` of a signed integer. */
  function IntToDecimal(i: int): (s: string)
    ensures |s| > 0
    ensures i >= 0 ==> s == ToDecimal(i)
    ensures i < 0 ==> s == "-" + ToDecimal(-i)
  {
    if i < 0 then "-" + ToDecimal(-i) else ToDecimal(i)
  }

  /**
   `<uN as FromStr>::from_str` where `limit` is 2^N: an optional leading
   `+`, then one or more ASCII digits whose value is below `limit`.
   Anything else (an empty string, a lone `+`, a `-`, a space, a value that
   overflows) is an error.
   */
  function ParseUnsigned(s: string, limit: nat): (r: Option<nat>)
    ensures r.Some? ==> r.value < limit
    ensures |s| == 0 ==> r.None?
    ensures (exists i :: 0 <= i < |s| && s[i] != '+' && !IsAsciiDigit(s[i])) ==> r.None?
    ensures |s| > 0 && AllDigits(s) ==> (r.Some? <==> DigitsValue(s) < limit)
    ensures |s| > 0 && AllDigits(s) && r.Some? ==> r.value == DigitsValue(s)
  {
    var digits := if |s| > 0 && s[0] == '+' then s[1..] else s;
    if |digits| == 0 || !AllDigits(digits) then None
    else
      var v := DigitsValue(digits);
      if v < limit then Some(v) else None
  }

  function ParseU8(s: string): (r: Option<U8>)
    ensures r.Some? <==> ParseUnsigned(s, U8_LIMIT).Some?
    ensures r.Some? ==> r.value == ParseUnsigned(s, U8_LIMIT).value
  {
    match ParseUnsigned(s, U8_LIMIT)
    case None => None
    case Some(v) => Some(v)
  }

  function ParseU64(s: string): (r: Option<U64>)
    ensures r.Some? <==> ParseUnsigned(s, U64_LIMIT).Some?
    ensures r.Some? ==> r.value == ParseUnsigned(s, U64_LIMIT).value
  {
    match ParseUnsigned(s, U64_LIMIT)
    case None => None
    case Some(v) => Some(v)
  }

  /** Printing then parsing gives back the number, with or without a `+`. */
  lemma ParseToDecimal(n: nat, limit: nat)
    ensures ParseUnsigned(ToDecimal(n), limit) == if n < limit then Some(n) else None
    ensures ParseUnsigned("+" + ToDecimal(n), limit) == if n < limit then Some(n) else None
  {
    var s := ToDecimal(n);
    assert ("+" + s)[1..] == s;
  }

  /** `Display` is injective on integers: distinct numbers print differently. */
  lemma ToDecimalInjective(a: nat, b: nat)
    requires ToDecimal(a) == ToDecimal(b)
    ensures a == b
  {
  }

  // ---------------------------------------------------------------------
  // Whitespace
  // ---------------------------------------------------------------------

  /** `u8::is_ascii_whitespace`: space, tab, line feed, form feed, carriage return. */
  predicate IsAsciiWhitespace(c: char) {
    c == ' ' || c == '\t' || c == '\n' || c == '\U{C}' || c == '\r'
  }

  /** `char::is_whitespace`: the Unicode White_Space property. */
  predicate IsWhitespace(c: char) {
    var v := c as int;
    (0x9 <= v <= 0xD) || v == 0x20 || v == 0x85 || v == 0xA0 || v == 0x1680
    || (0x2000 <= v <= 0x200A) || v == 0x2028 || v == 0x2029 || v == 0x202F
    || v == 0x205F || v == 0x3000
  }

  lemma AsciiWhitespaceIsWhitespace(c: char)
    requires IsAsciiWhitespace(c)
    ensures IsWhitespace(c)
  {
  }

  /** The number of leading characters of `s` satisfying ASCII whitespace. */
  function LeadingAsciiWhitespace(s: string): (k: nat)
    ensures k <= |s|
    ensures forall i :: 0 <= i < k ==> IsAsciiWhitespace(s[i])
    ensures k < |s| ==> !IsAsciiWhitespace(s[k])
  {
    if |s| == 0 || !IsAsciiWhitespace(s[0]) then 0
    else 1 + LeadingAsciiWhitespace(s[1..])
  }

  /** The number of leading characters of `s` that are not ASCII whitespace. */
  function LeadingToken(s: string): (k: nat)
    ensures k <= |s|
    ensures forall i :: 0 <= i < k ==> !IsAsciiWhitespace(s[i])
    ensures k < |s| ==> IsAsciiWhitespace(s[k])
  {
    if |s| == 0 || IsAsciiWhitespace(s[0]) then 0
    else 1 + LeadingToken(s[1..])
  }

  /**
   One step of `split_ascii_whitespace`: the next maximal run of
   non-whitespace characters and what follows it, or `None` when only
   whitespace is left.
   */
  function NextToken(s: string): (r: Option<(string, string)>)
    ensures r.None? <==> forall i :: 0 <= i < |s| ==> IsAsciiWhitespace(s[i])
    ensures r.Some? ==> |r.value.0| > 0
    ensures r.Some? ==> forall i :: 0 <= i < |r.value.0| ==> !IsAsciiWhitespace(r.value.0[i])
    ensures r.Some? ==> |r.value.1| == 0 || IsAsciiWhitespace(r.value.1[0])
    ensures r.Some? ==> exists k :: 0 <= k <= |s| && s[k..] == r.value.0 + r.value.1
  {
    var k := LeadingAsciiWhitespace(s);
    if k == |s| then None
    else
      var rest := s[k..];
      var n := LeadingToken(rest);
      assert rest == rest[..n] + rest[n..];
      Some((rest[..n], rest[n..]))
  }

  /** A token followed by nothing or by whitespace is what `NextToken` finds first. */
  lemma NextTokenOfToken(tok: string, rest: string)
    requires |tok| > 0
    requires forall i :: 0 <= i < |tok| ==> !IsAsciiWhitespace(tok[i])
    requires |rest| == 0 || IsAsciiWhitespace(rest[0])
    ensures NextToken(tok + rest) == Some((tok, rest))
  {
    var s := tok + rest;
    assert s[0] == tok[0];
    assert LeadingAsciiWhitespace(s) == 0;
    LeadingTokenOfToken(tok, rest);
    assert s[..|tok|] == tok;
    assert s[|tok|..] == rest;
  }

  lemma {:induction false} LeadingTokenOfToken(tok: string, rest: string)
    requires forall i :: 0 <= i < |tok| ==> !IsAsciiWhitespace(tok[i])
    requires |rest| == 0 || IsAsciiWhitespace(rest[0])
    ensures LeadingToken(tok + rest) == |tok|
  {
    var s := tok + rest;
    if |tok| > 0 {
      assert s[0] == tok[0] && !IsAsciiWhitespace(s[0]);
      assert s[1..] == tok[1..] + rest;
      assert forall i :: 0 <= i < |tok[1..]| ==> tok[1..][i] == tok[i + 1];
      LeadingTokenOfToken(tok[1..], rest);
      assert LeadingToken(s) == 1 + LeadingToken(s[1..]);
    } else {
      assert s == rest;
    }
  }

  /** Leading ASCII whitespace is skipped by `NextToken`. */
  lemma NextTokenSkipsWhitespace(c: char, s: string)
    requires IsAsciiWhitespace(c)
    ensures NextToken([c] + s) == NextToken(s)
  {
    var t := [c] + s;
    assert t[1..] == s;
    assert LeadingAsciiWhitespace(t) == 1 + LeadingAsciiWhitespace(s);
    assert t[LeadingAsciiWhitespace(t)..] == s[LeadingAsciiWhitespace(s)..];
  }

  /** A digit string is a token: it holds no whitespace. */
  lemma DigitsAreToken(s: string)
    requires AllDigits(s)
    ensures forall i :: 0 <= i < |s| ==> !IsAsciiWhitespace(s[i])
  {
  }

  /** `str::trim_start`. */
  function TrimStart(s: string): (r: string)
    ensures |r| <= |s| && r == s[|s| - |r|..]
    ensures forall i :: 0 <= i < |s| - |r| ==> IsWhitespace(s[i])
    ensures |r| > 0 ==> !IsWhitespace(r[0])
  {
    if |s| == 0 || !IsWhitespace(s[0]) then s else TrimStart(s[1..])
  }

  /** `str::trim_end`. */
  function TrimEnd(s: string): (r: string)
    ensures |r| <= |s| && r == s[..|r|]
    ensures forall i :: |r| <= i < |s| ==> IsWhitespace(s[i])
    ensures |r| > 0 ==> !IsWhitespace(r[|r| - 1])
  {
    if |s| == 0 || !IsWhitespace(s[|s| - 1]) then s else TrimEnd(s[..|s| - 1])
  }

  /** `str::trim`: remove Unicode whitespace from both ends. */
  function Trim(s: string): (r: string)
    ensures |r| <= |s|
    ensures |r| > 0 ==> !IsWhitespace(r[0]) && !IsWhitespace(r[|r| - 1])
    ensures exists i: nat :: OccursAt(s, r, i)
  {
    var t := TrimStart(s);
    var r := TrimEnd(t);
    assert r == s[|s| - |t|..][..|r|];
    assert r == s[|s| - |t|..|s| - |t| + |r|];
    assert OccursAt(s, r, |s| - |t|);
    r
  }

  /** A string whose first and last characters are not whitespace is its own trim. */
  lemma TrimIdentity(s: string)
    requires |s| > 0 ==> !IsWhitespace(s[0]) && !IsWhitespace(s[|s| - 1])
    ensures Trim(s) == s
  {
  }

  /** Trimming a word followed by more text keeps the word and a prefix of the rest. */
  lemma TrimAfterWord(word: string, rest: string) returns (m: nat)
    requires |word| > 0 && !IsWhitespace(word[0]) && !IsWhitespace(word[|word| - 1])
    ensures m <= |rest| && Trim(word + rest) == word + rest[..m]
  {
    var s := word + rest;
    assert s[0] == word[0];
    assert TrimStart(s) == s;
    var t := TrimEnd(s);
    assert s[|word| - 1] == word[|word| - 1];
    assert |t| >= |word|;
    m := |t| - |word|;
    assert t == s[..|t|];
    assert s[..|t|] == word + rest[..m];
  }

  lemma DigitsAreTrimmed(s: string)
    requires AllDigits(s)
    ensures Trim(s) == s
  {
    TrimIdentity(s);
  }

  // ---------------------------------------------------------------------
  // Lines and substrings
  // ---------------------------------------------------------------------

  /**
   A character TOML 1.0 admits in a comment: anything but a control
   character, U+0000 to U+001F and U+007F, except the tab. Line feed and
   carriage return are among those excluded, so such text stays on one
   line.
   */
  predicate IsCommentChar(c: char) {
    c == '\t' || (' ' <= c && c != '\U{7F}')
  }

  /** Every character of `s` may appear in a TOML comment. */
  predicate CommentSafe(s: string) {
    forall i :: 0 <= i < |s| ==> IsCommentChar(s[i])
  }

  /** A decimal rendering may appear in a comment. */
  lemma DecimalCommentSafe(i: int)
    ensures CommentSafe(IntToDecimal(i))
  {
    var d := ToDecimal(if i < 0 then -i else i);
    assert forall k :: 0 <= k < |d| ==> IsAsciiDigit(d[k]);
    if i < 0 {
      assert forall k :: 1 <= k < |IntToDecimal(i)| ==> IntToDecimal(i)[k] == d[k - 1];
    }
  }

  /** The index of the first `\n` in `s`, or `|s|` if there is none. */
  function NewlineIndex(s: string): (k: nat)
    ensures k <= |s|
    ensures forall i :: 0 <= i < k ==> s[i] != '\n'
    ensures k < |s| ==> s[k] == '\n'
  {
    if |s| == 0 || s[0] == '\n' then 0 else 1 + NewlineIndex(s[1..])
  }

  /**
   `s.lines().next()`: nothing for an empty string; otherwise the text up
   to the first line feed, without a carriage return that precedes it.
   */
  function FirstLine(s: string): (r: Option<string>)
    ensures r.None? <==> |s| == 0
    ensures r.Some? ==> forall i :: 0 <= i < |r.value| ==> r.value[i] != '\n'
    ensures r.Some? ==> r.value <= s
  {
    if |s| == 0 then None
    else
      var k := NewlineIndex(s);
      var line := s[..k];
      if k < |s| && k > 0 && line[k - 1] == '\r' then Some(line[..k - 1]) else Some(line)
  }

  lemma FirstLineOf(line: string, rest: string)
    requires forall i :: 0 <= i < |line| ==> line[i] != '\n' && line[i] != '\r'
    ensures FirstLine(line + "\n" + rest) == Some(line)
  {
    var s := line + "\n" + rest;
    NewlineIndexOf(line, "\n" + rest);
    assert s == line + ("\n" + rest);
    assert s[..|line|] == line;
  }

  lemma NewlineIndexOf(line: string, rest: string)
    requires forall i :: 0 <= i < |line| ==> line[i] != '\n'
    requires |rest| > 0 && rest[0] == '\n'
    ensures NewlineIndex(line + rest) == |line|
  {
    if |line| > 0 {
      assert (line + rest)[1..] == line[1..] + rest;
      NewlineIndexOf(line[1..], rest);
    } else {
      assert line + rest == rest;
    }
  }

  /** `needle` occurs in `hay` starting at position `i`. */
  predicate OccursAt(hay: string, needle: string, i: nat) {
    i + |needle| <= |hay| && hay[i..i + |needle|] == needle
  }

  /** `str::contains` with a string pattern, searched left to right. */
  function Contains(hay: string, needle: string): (r: bool)
    ensures r <==> exists i: nat :: OccursAt(hay, needle, i)
  {
    if |needle| > |hay| then
      assert forall i: nat :: !OccursAt(hay, needle, i);
      false
    else if hay[..|needle|] == needle then
      assert OccursAt(hay, needle, 0);
      true
    else if Contains(hay[1..], needle) then
      var i: nat :| OccursAt(hay[1..], needle, i);
      OccursShifted(hay, needle, i);
      true
    else
      forall i: nat | i > 0
        ensures !OccursAt(hay, needle, i)
      {
        OccursShifted(hay, needle, i - 1);
      }
      false
  }

  /** An occurrence past the first character is an occurrence in the rest. */
  lemma OccursShifted(hay: string, needle: string, i: nat)
    requires |hay| > 0
    ensures OccursAt(hay[1..], needle, i) <==> OccursAt(hay, needle, i + 1)
  {
    if i + |needle| <= |hay[1..]| {
      assert hay[1..][i..i + |needle|] == hay[i + 1..i + 1 + |needle|];
    }
  }

  /** The empty pattern and the string itself are always contained. */
  lemma ContainsTrivial(hay: string)
    ensures Contains(hay, "")
    ensures Contains(hay, hay)
  {
    assert OccursAt(hay, "", 0);
    assert OccursAt(hay, hay, 0);
  }

  /** A string is contained in any string that extends it on either side. */
  lemma ContainsInfix(pre: string, mid: string, post: string)
    ensures Contains(pre + mid + post, mid)
  {
    var h := pre + mid + post;
    assert h[|pre|..|pre| + |mid|] == mid;
    assert OccursAt(h, mid, |pre|);
  }

  /** What a string contains, any extension of it contains too. */
  lemma ContainsWithin(pre: string, mid: string, post: string, needle: string)
    requires Contains(mid, needle)
    ensures Contains(pre + mid + post, needle)
  {
    var i: nat :| OccursAt(mid, needle, i);
    var h := pre + mid + post;
    assert h[|pre| + i..|pre| + i + |needle|] == mid[i..i + |needle|];
    assert OccursAt(h, needle, |pre| + i);
  }

  /** The strings of `parts`, one after the other. */
  function Concat(parts: seq<string>): (r: string)
    ensures |parts| > 0 ==> parts[0] <= r
  {
    if |parts| == 0 then "" else parts[0] + Concat(parts[1..])
  }

  /** Each of the parts is contained in their concatenation. */
  lemma {:induction false} ConcatContainsPart(parts: seq<string>, i: nat)
    requires i < |parts|
    ensures Contains(Concat(parts), parts[i])
  {
    var rest := Concat(parts[1..]);
    if i == 0 {
      ContainsInfix("", parts[0], rest);
      assert "" + parts[0] + rest == Concat(parts);
    } else {
      ConcatContainsPart(parts[1..], i - 1);
      assert parts[1..][i - 1] == parts[i];
      ContainsWithin(parts[0], rest, "", parts[i]);
      assert parts[0] + rest + "" == Concat(parts);
    }
  }
  /** Parts that may each appear in a comment concatenate to text that may too. */
  lemma {:induction false} ConcatCommentSafe(parts: seq<string>)
    requires forall i :: 0 <= i < |parts| ==> CommentSafe(parts[i])
    ensures CommentSafe(Concat(parts))
  {
    if |parts| > 0 {
      var rest := Concat(parts[1..]);
      assert forall i :: 0 <= i < |parts[1..]| ==> parts[1..][i] == parts[i + 1];
      ConcatCommentSafe(parts[1..]);
      assert forall k :: |parts[0]| <= k < |Concat(parts)| ==> Concat(parts)[k] == rest[k - |parts[0]|];
    }
  }

  /** The strings of `parts` with `sep` between each two of them. */
  function Join(parts: seq<string>, sep: string): (r: string)
    ensures |parts| > 0 ==> parts[0] <= r
  {
    if |parts| == 0 then ""
    else if |parts| == 1 then parts[0]
    else parts[0] + sep + Join(parts[1..], sep)
  }

  /** Each of the parts is contained in their joined rendering. */
  lemma {:induction false} JoinContainsPart(parts: seq<string>, sep: string, i: nat)
    requires i < |parts|
    ensures Contains(Join(parts, sep), parts[i])
  {
    if |parts| == 1 {
      ContainsTrivial(parts[0]);
    } else {
      var rest := Join(parts[1..], sep);
      if i == 0 {
        ContainsInfix("", parts[0], sep + rest);
        assert "" + parts[0] + (sep + rest) == Join(parts, sep);
      } else {
        JoinContainsPart(parts[1..], sep, i - 1);
        assert parts[1..][i - 1] == parts[i];
        ContainsWithin(parts[0] + sep, rest, "", parts[i]);
        assert parts[0] + sep + rest + "" == Join(parts, sep);
      }
    }
  }
}

=== FILE: types.dfy ===
/**
 Shared vocabulary of the model: failure-compatible wrappers, the machine
 integer ranges the Rust source uses, a three-way ordering, and the
 service-processor identity shared by wicket and wicketd.
 */
module Types {

  /** Rust's `Option<T>`. */
  datatype Option<+T> = None | Some(value: T) {
    predicate IsFailure() { None? }

    function PropagateFailure<U>(): Option<U>
      requires None?
    {
      None
    }

    function Extract(): T
      requires Some?
    {
      value
    }
  }

  /** Rust's `Result<T, E>`. */
  datatype Result<+T, +E> = Success(value: T) | Failure(error: E) {
    predicate IsFailure() { Failure? }

    function PropagateFailure<U>(): Result<U, E>
      requires Failure?
    {
      Failure(error)
    }

    function Extract(): T
      requires Success?
    {
      value
    }
  }

  const U8_LIMIT: nat := 0x100
  const U16_LIMIT: nat := 0x1_0000
  const U32_LIMIT: nat := 0x1_0000_0000
  const U64_LIMIT: nat := 0x1_0000_0000_0000_0000
  const U64_MAX: nat := U64_LIMIT - 1

  type U8 = x: nat | x < U8_LIMIT
  type U16 = x: nat | x < U16_LIMIT
  type U32 = x: nat | x < U32_LIMIT
  type U64 = x: nat | x < U64_LIMIT

  /** Rust's `std::cmp::Ordering`. */
  datatype Ordering = Less | Equal | Greater {
    /** The ordering seen from the other side of the comparison. */
    function Flip(): Ordering {
      match this
      case Less => Greater
      case Equal => Equal
      case Greater => Less
    }
  }

  /** Three-way comparison of integers, as `Ord::cmp` does for them. */
  function CompareInt(a: int, b: int): (r: Ordering)
    ensures r == Less <==> a < b
    ensures r == Equal <==> a == b
    ensures r == Greater <==> a > b
  {
    if a < b then Less else if a == b then Equal else Greater
  }

  /** `u64::saturating_sub`. */
  function SaturatingSub(a: nat, b: nat): (r: nat)
    ensures r + b >= a
    ensures r <= a
    ensures b <= a ==> r + b == a
  {
    if a >= b then a - b else 0
  }

  /** The kind of a service processor, as reported by the management gateway. */
  datatype SpType = SledSp | SwitchSp | PowerSp

  /** The identity of a service processor: its kind and its slot number. */
  datatype SpIdentifier = SpIdentifier(typ: SpType, slot: U32)
}

=== FILE: update_state.dfy ===
/**
 The update status the wicket terminal UI keeps for each rack component:
 an item moves from not started to running-or-completed as event reports
 arrive from wicketd, and keeps one running state per updatable part
 (RoT, SP, host) driven by the step and progress events of the report.
 Event reports are reduced to the event kinds and step facts the UI reads.
 */
module UpdateState {
  import opened Types
  import opened Inventory

  // ---------------------------------------------------------------------
  // Event reports
  // ---------------------------------------------------------------------

  /** The updatable parts of a component. */
  datatype UpdateComponent = Rot | Sp | Host

  /** The step identifiers the UI distinguishes; the others are `OtherStep`. */
  datatype UpdateStepId = SpComponentUpdate | OtherStep

  /** What the UI reads of a step: its part, its identifier, and whether it is the part's last step. */
  datatype StepInfo = StepInfo(component: UpdateComponent, id: UpdateStepId, isLastStepInComponent: bool)

  datatype StepOutcome = OutcomeSuccess | OutcomeWarning | OutcomeSkipped

  datatype StepEventKind =
    | NoStepsDefined
    | ExecutionStarted
    | ProgressReset
    | AttemptRetry
    | NestedStep
    | UnknownStep
    | StepCompleted(step: StepInfo, outcome: StepOutcome)
    | ExecutionCompleted(lastStep: StepInfo, lastOutcome: StepOutcome)
    | ExecutionFailed(failedStep: StepInfo)
    | ExecutionAborted(abortedStep: StepInfo)

  datatype ProgressEventKind =
    | WaitingForProgress(step: StepInfo)
    | Progress(step: StepInfo)
    | NestedProgress(step: StepInfo)
    | UnknownProgress

  datatype EventReport = EventReport(stepEvents: seq<StepEventKind>, progressEvents: seq<ProgressEventKind>)

  // ---------------------------------------------------------------------
  // Item states
  // ---------------------------------------------------------------------

  datatype UpdateRunningState = Waiting | Updated | Updating | Skipped | Failed | Aborted

  datatype ItemStateImpl =
    | NotStarted
    | UpdateStarted
    | RunningOrCompleted(eventReport: EventReport, components: map<UpdateComponent, UpdateRunningState>)

  /** The update status of one rack component and the parts it has. */
  datatype UpdateItem = UpdateItem(componentId: ComponentId, components: seq<UpdateComponent>, state: ItemStateImpl)

  /** What `iter` reports for one part. */
  datatype PartState = PartNotStarted | Starting | FailedToStart | Running(state: UpdateRunningState)

  /** The parts listed in `parts`, as a set. */
  function PartSet(parts: seq<UpdateComponent>): (r: set<UpdateComponent>)
    ensures forall c :: c in r <==> c in parts
  {
    if |parts| == 0 then {} else {parts[0]} + PartSet(parts[1..])
  }

  /** A running item tracks exactly the parts the item has. */
  predicate ItemInvariant(item: UpdateItem) {
    item.state.RunningOrCompleted? ==> item.state.components.Keys == PartSet(item.components)
  }

  function NewItem(id: ComponentId, components: seq<UpdateComponent>): (r: UpdateItem)
    ensures ItemInvariant(r) && r.state == NotStarted
    ensures r.componentId == id && r.components == components
  {
    UpdateItem(id, components, NotStarted)
  }

  /** `UpdateItem::reset`. */
  function Reset(item: UpdateItem): (r: UpdateItem)
    ensures r.state == NotStarted
    ensures r.componentId == item.componentId && r.components == item.components
  {
    item.(state := NotStarted)
  }

  /** `UpdateItem::is_running`. */
  predicate IsRunning(item: UpdateItem) {
    item.state.RunningOrCompleted?
  }

  /** `UpdateItem::event_report`: present exactly while the item is running. */
  function ItemEventReport(item: UpdateItem): (r: Option<EventReport>)
    ensures r.Some? <==> IsRunning(item)
    ensures r.Some? ==> r.value == item.state.eventReport
  {
    match item.state
    case RunningOrCompleted(report, _) => Some(report)
    case _ => None
  }

  // ---------------------------------------------------------------------
  // Applying a report
  // ---------------------------------------------------------------------

  /** A state to record for a part, or nothing. */
  type Write = Option<(UpdateComponent, UpdateRunningState)>

  /** `update_component_state`: set the part's state if the part is tracked; add nothing. */
  function UpdateComponentState(
    items: map<UpdateComponent, UpdateRunningState>, w: Write): (r: map<UpdateComponent, UpdateRunningState>)
    ensures r.Keys == items.Keys
    ensures forall c :: c in r && !(w.Some? && w.value.0 == c) ==> r[c] == items[c]
    ensures w.Some? && w.value.0 in items ==> r[w.value.0] == w.value.1
  {
    match w
    case None => items
    case Some((c, s)) => if c in items then items[c := s] else items
  }

  /** The RoT and SP parts have two steps each, the last being the component update. */
  predicate IsSpOrRot(c: UpdateComponent) {
    c == UpdateComponent.Sp || c == Rot
  }

  /** The write a completed step makes: only the last step of a part records anything. */
  function CompletionWrite(step: StepInfo, outcome: StepOutcome): Write {
    if !step.isLastStepInComponent then None
    else if IsSpOrRot(step.component) && outcome == OutcomeSkipped then Some((step.component, Skipped))
    else Some((step.component, Updated))
  }

  /** The state a step event records, if any. */
  function StepWrite(e: StepEventKind): Write {
    match e
    case StepCompleted(step, outcome) => CompletionWrite(step, outcome)
    case ExecutionCompleted(step, outcome) => CompletionWrite(step, outcome)
    case ExecutionFailed(step) => Some((step.component, Failed))
    case ExecutionAborted(step) => Some((step.component, Failed))
    case _ => None
  }

  /** The state a progress event records, if any: the part is updating. */
  function ProgressWrite(e: ProgressEventKind): Write {
    match e
    case UnknownProgress => None
    case _ => Some((e.step.component, Updating))
  }

  /**
   The source asserts that the last step of an SP or RoT part is the
   component update step; a report breaking this aborts the UI.
   */
  predicate WellFormedStep(e: StepEventKind) {
    match e
    case StepCompleted(step, _) =>
      step.isLastStepInComponent && IsSpOrRot(step.component) ==> step.id == SpComponentUpdate
    case ExecutionCompleted(step, _) =>
      step.isLastStepInComponent && IsSpOrRot(step.component) ==> step.id == SpComponentUpdate
    case _ => true
  }

  predicate WellFormedReport(report: EventReport) {
    forall i :: 0 <= i < |report.stepEvents| ==> WellFormedStep(report.stepEvents[i])
  }

  /** The writes of a report: its step events in order, then its progress events in order. */
  function ReportWrites(report: EventReport): (r: seq<Write>)
    ensures |r| == |report.stepEvents| + |report.progressEvents|
    ensures forall i :: 0 <= i < |report.stepEvents| ==> r[i] == StepWrite(report.stepEvents[i])
    ensures forall i :: 0 <= i < |report.progressEvents| ==>
              r[|report.stepEvents| + i] == ProgressWrite(report.progressEvents[i])
  {
    seq(|report.stepEvents|, i requires 0 <= i < |report.stepEvents| => StepWrite(report.stepEvents[i]))
    + seq(|report.progressEvents|, i requires 0 <= i < |report.progressEvents| =>
            ProgressWrite(report.progressEvents[i]))
  }

  /** Apply writes in order. */
  function ApplyWrites(
    items: map<UpdateComponent, UpdateRunningState>, ws: seq<Write>): (r: map<UpdateComponent, UpdateRunningState>)
    ensures r.Keys == items.Keys
  {
    if |ws| == 0 then items
    else UpdateComponentState(ApplyWrites(items, ws[..|ws| - 1]), ws[|ws| - 1])
  }

  /** `k` is the last write in `ws` that targets part `c`. */
  predicate IsLastWrite(ws: seq<Write>, c: UpdateComponent, k: int) {
    && 0 <= k < |ws|
    && ws[k].Some? && ws[k].value.0 == c
    && forall j :: k < j < |ws| ==> !(ws[j].Some? && ws[j].value.0 == c)
  }

  /**
   Each tracked part ends in the state of the last write that targets it,
   and keeps its state when no write targets it.
   */
  lemma {:induction false} ApplyWritesLastWins(
    items: map<UpdateComponent, UpdateRunningState>, ws: seq<Write>, c: UpdateComponent)
    requires c in items
    ensures (forall j :: 0 <= j < |ws| ==> !(ws[j].Some? && ws[j].value.0 == c)) ==>
              ApplyWrites(items, ws)[c] == items[c]
    ensures forall k :: IsLastWrite(ws, c, k) ==> ApplyWrites(items, ws)[c] == ws[k].value.1
  {
    if forall j :: 0 <= j < |ws| ==> !(ws[j].Some? && ws[j].value.0 == c) {
      ApplyWritesUntouched(items, ws, c);
    }
    forall k | IsLastWrite(ws, c, k)
      ensures ApplyWrites(items, ws)[c] == ws[k].value.1
    {
      ApplyWritesLast(items, ws, c, k);
    }
  }

  /** A part no write names keeps its state. */
  lemma {:induction false} ApplyWritesUntouched(
    items: map<UpdateComponent, UpdateRunningState>, ws: seq<Write>, c: UpdateComponent)
    requires c in items
    requires forall j :: 0 <= j < |ws| ==> !(ws[j].Some? && ws[j].value.0 == c)
    ensures ApplyWrites(items, ws)[c] == items[c]
  {
    if |ws| > 0 {
      var init := ws[..|ws| - 1];
      forall j | 0 <= j < |init|
        ensures !(init[j].Some? && init[j].value.0 == c)
      {
        assert init[j] == ws[j];
      }
      ApplyWritesUntouched(items, init, c);
    }
  }

  /** A part ends in the state its last write records. */
  lemma {:induction false} ApplyWritesLast(
    items: map<UpdateComponent, UpdateRunningState>, ws: seq<Write>, c: UpdateComponent, k: int)
    requires c in items
    requires IsLastWrite(ws, c, k)
    ensures ApplyWrites(items, ws)[c] == ws[k].value.1
  {
    var n := |ws| - 1;
    var init := ws[..n];
    assert ApplyWrites(items, ws) == UpdateComponentState(ApplyWrites(items, init), ws[n]);
    if k < n {
      forall j | k < j < |init|
        ensures !(init[j].Some? && init[j].value.0 == c)
      {
        assert init[j] == ws[j];
      }
      assert init[k] == ws[k];
      ApplyWritesLast(items, init, c, k);
    }
  }

  /** No write a report makes records `Aborted`. */
  lemma ReportNeverAborts(report: EventReport)
    ensures forall i :: 0 <= i < |ReportWrites(report)| && ReportWrites(report)[i].Some? ==>
              ReportWrites(report)[i].value.1 != Aborted
  {
    var ws := ReportWrites(report);
    forall i | 0 <= i < |ws| && ws[i].Some?
      ensures ws[i].value.1 != Aborted
    {
      if i < |report.stepEvents| {
        assert ws[i] == StepWrite(report.stepEvents[i]);
      } else {
        assert ws[i] == ProgressWrite(report.progressEvents[i - |report.stepEvents|]);
      }
    }
  }

  /** Applying writes none of which record `Aborted` introduces no `Aborted` part. */
  lemma {:induction false} ApplyWritesNoAborted(items: map<UpdateComponent, UpdateRunningState>, ws: seq<Write>)
    requires forall c :: c in items ==> items[c] != Aborted
    requires forall i :: 0 <= i < |ws| && ws[i].Some? ==> ws[i].value.1 != Aborted
    ensures forall c :: c in ApplyWrites(items, ws) ==> ApplyWrites(items, ws)[c] != Aborted
  {
    if |ws| > 0 {
      ApplyWritesNoAborted(items, ws[..|ws| - 1]);
    }
  }

  /** Every part of the item waiting. */
  function AllWaiting(components: seq<UpdateComponent>): (r: map<UpdateComponent, UpdateRunningState>)
    ensures r.Keys == set c | c in components
    ensures forall c :: c in r ==> r[c] == Waiting
  {
    map c | c in components :: Waiting
  }

  /**
   `UpdateItem::update`: an empty report resets the item. Otherwise the
   item enters the running state (every part waiting) unless it is in it
   already, takes the new report, and applies the report's writes to its
   parts.
   */
  function Update(item: UpdateItem, report: EventReport): (r: UpdateItem)
    requires WellFormedReport(report)
    ensures r.componentId == item.componentId && r.components == item.components
    ensures |report.stepEvents| == 0 ==> r.state == NotStarted
    ensures |report.stepEvents| > 0 ==> r.state.RunningOrCompleted? && r.state.eventReport == report
    ensures ItemInvariant(item) ==> ItemInvariant(r)
  {
    if |report.stepEvents| == 0 then Reset(item)
    else
      var base := if item.state.RunningOrCompleted? then item.state.components else AllWaiting(item.components);
      item.(state := RunningOrCompleted(report, ApplyWrites(base, ReportWrites(report))))
  }

  /**
   An item that starts running begins with every part waiting: a part no
   event names stays `Waiting`, and a named part takes the state of the
   last event naming it.
   */
  lemma UpdateFromStart(item: UpdateItem, report: EventReport, c: UpdateComponent)
    requires WellFormedReport(report) && |report.stepEvents| > 0
    requires !IsRunning(item) && c in item.components
    ensures (forall j :: 0 <= j < |ReportWrites(report)| ==>
               !(ReportWrites(report)[j].Some? && ReportWrites(report)[j].value.0 == c)) ==>
              Update(item, report).state.components[c] == Waiting
    ensures forall k :: IsLastWrite(ReportWrites(report), c, k) ==>
              Update(item, report).state.components[c] == ReportWrites(report)[k].value.1
  {
    ApplyWritesLastWins(AllWaiting(item.components), ReportWrites(report), c);
  }

  /**
   An item already running takes the new report but keeps its parts' map:
   a part no event names keeps its state, and a named part takes the state
   of the last event naming it.
   */
  lemma UpdateWhileRunning(item: UpdateItem, report: EventReport, c: UpdateComponent)
    requires WellFormedReport(report) && |report.stepEvents| > 0
    requires IsRunning(item) && c in item.state.components
    ensures Update(item, report).state.eventReport == report
    ensures (forall j :: 0 <= j < |ReportWrites(report)| ==>
               !(ReportWrites(report)[j].Some? && ReportWrites(report)[j].value.0 == c)) ==>
              Update(item, report).state.components[c] == item.state.components[c]
    ensures forall k :: IsLastWrite(ReportWrites(report), c, k) ==>
              Update(item, report).state.components[c] == ReportWrites(report)[k].value.1
  {
    ApplyWritesLastWins(item.state.components, ReportWrites(report), c);
  }

  /** A running item whose parts never were `Aborted` still has none after an update. */
  lemma UpdateNeverAborts(item: UpdateItem, report: EventReport)
    requires WellFormedReport(report) && |report.stepEvents| > 0
    requires IsRunning(item) ==> forall c :: c in item.state.components ==> item.state.components[c] != Aborted
    ensures forall c :: c in Update(item, report).state.components ==> Update(item, report).state.components[c] != Aborted
  {
    var base := if item.state.RunningOrCompleted? then item.state.components else AllWaiting(item.components);
    ReportNeverAborts(report);
    ApplyWritesNoAborted(base, ReportWrites(report));
  }

  /** A failing or aborting execution marks its tracked part `Failed` unless later events say otherwise. */
  lemma FailureMarksFailed(item: UpdateItem, step: StepInfo, aborted: bool)
    requires ItemInvariant(item) && step.component in item.components
    ensures var e := if aborted then ExecutionAborted(step) else ExecutionFailed(step);
            var r := Update(item, EventReport([e], []));
            r.state.components[step.component] == Failed
  {
    var e := if aborted then ExecutionAborted(step) else ExecutionFailed(step);
    var report := EventReport([e], []);
    var base := if item.state.RunningOrCompleted? then item.state.components else AllWaiting(item.components);
    assert IsLastWrite(ReportWrites(report), step.component, 0);
    ApplyWritesLastWins(base, ReportWrites(report), step.component);
  }

  /** The completion of a part's last step marks it `Skipped` when an SP or RoT update was skipped, `Updated` otherwise. */
  lemma CompletionMarks(item: UpdateItem, step: StepInfo, outcome: StepOutcome)
    requires ItemInvariant(item) && step.component in item.components
    requires step.isLastStepInComponent && (IsSpOrRot(step.component) ==> step.id == SpComponentUpdate)
    ensures var r := Update(item, EventReport([StepCompleted(step, outcome)], []));
            r.state.components[step.component]
              == if IsSpOrRot(step.component) && outcome == OutcomeSkipped then Skipped else Updated
  {
    var report := EventReport([StepCompleted(step, outcome)], []);
    var base := if item.state.RunningOrCompleted? then item.state.components else AllWaiting(item.components);
    assert IsLastWrite(ReportWrites(report), step.component, 0);
    ApplyWritesLastWins(base, ReportWrites(report), step.component);
  }

  /** `UpdateItem::iter`: each part with the item's state, read from the running map. */
  function Iter(item: UpdateItem): (r: seq<(UpdateComponent, PartState)>)
    requires ItemInvariant(item)
    ensures |r| == |item.components|
    ensures forall i :: 0 <= i < |r| ==> r[i].0 == item.components[i]
    ensures forall i :: 0 <= i < |r| ==> (r[i].1 == PartNotStarted <==> item.state.NotStarted?)
    ensures forall i :: 0 <= i < |r| ==> (r[i].1 == Starting <==> item.state.UpdateStarted?)
    ensures forall i :: 0 <= i < |r| && IsRunning(item) ==>
              r[i].1 == Running(item.state.components[item.components[i]])
  {
    seq(|item.components|, i requires 0 <= i < |item.components| =>
      (item.components[i],
       match item.state
       case NotStarted => PartNotStarted
       case UpdateStarted => Starting
       case RunningOrCompleted(_, components) => Running(components[item.components[i]])))
  }

  // ---------------------------------------------------------------------
  // The rack's update state
  // ---------------------------------------------------------------------

  datatype ArtifactId = ArtifactId(name: string, version: string, kind: string)

  datatype RackUpdateState = RackUpdateState(
    items: map<ComponentId, UpdateItem>,
    systemVersion: Option<string>,
    artifacts: seq<ArtifactId>,
    artifactVersions: map<string, string>,
    statusViewDisplayed: bool)

  /** The parts of a component: sleds have a host as well as an RoT and an SP. */
  function PartsOf(id: ComponentId): seq<UpdateComponent> {
    match id
    case Sled(_) => [Rot, UpdateComponent.Sp, Host]
    case Switch(_) => [Rot, UpdateComponent.Sp]
    case Psc(_) => [Rot, UpdateComponent.Sp]
  }

  /** Every item is the one for its key, keeps the invariant, and has its kind's parts. */
  predicate RackInvariant(rack: RackUpdateState) {
    forall id :: id in rack.items ==>
      && rack.items[id].componentId == id
      && rack.items[id].components == PartsOf(id)
      && ItemInvariant(rack.items[id])
  }

  /** One fresh item per listed component. */
  function FreshItems(ids: seq<ComponentId>): (r: map<ComponentId, UpdateItem>)
    ensures forall id :: id in r <==> id in ids
    ensures forall id :: id in r ==> r[id] == UpdateItem(id, PartsOf(id), NotStarted)
  {
    if |ids| == 0 then map[]
    else FreshItems(ids[..|ids| - 1])[ids[|ids| - 1] := UpdateItem(ids[|ids| - 1], PartsOf(ids[|ids| - 1]), NotStarted)]
  }

  /** `RackUpdateState::new`: one item, not started, per component the UI shows. */
  function NewRackUpdateState(): (r: RackUpdateState)
    ensures forall id :: id in r.items <==> id in ALL_COMPONENT_IDS
    ensures forall id :: id in r.items ==> r.items[id].state == NotStarted
    ensures RackInvariant(r)
    ensures r.artifacts == [] && r.systemVersion.None? && r.artifactVersions == map[]
  {
    RackUpdateState(FreshItems(ALL_COMPONENT_IDS), None, [], map[], false)
  }

  /** The state of an item as the UI shows it. */
  datatype UpdateItemState =
    | AwaitingRepository
    | ItemNotStarted
    | ItemUpdateStarted
    | ItemRunningOrCompleted(eventReport: EventReport)

  /**
   `RackUpdateState::item_state`: awaiting a repository while there are no
   artifacts, whatever the item's state; otherwise the item's state. The
   item must exist once there are artifacts.
   */
  function ItemState(rack: RackUpdateState, id: ComponentId): (r: UpdateItemState)
    requires rack.artifacts == [] || id in rack.items
    ensures rack.artifacts == [] <==> r == AwaitingRepository
    ensures r.ItemRunningOrCompleted? <==> rack.artifacts != [] && IsRunning(rack.items[id])
    ensures r.ItemRunningOrCompleted? ==> ItemEventReport(rack.items[id]) == Some(r.eventReport)
    ensures rack.artifacts != [] ==>
              && (r == ItemNotStarted <==> rack.items[id].state.NotStarted?)
              && (r == ItemUpdateStarted <==> rack.items[id].state.UpdateStarted?)
  {
    if rack.artifacts == [] then AwaitingRepository
    else match rack.items[id].state
      case NotStarted => ItemNotStarted
      case UpdateStarted => ItemUpdateStarted
      case RunningOrCompleted(report, _) => ItemRunningOrCompleted(report)
  }

  /** `artifact_versions` rebuilt from the artifacts whose kind is known, a later artifact overriding. */
  function ArtifactVersions(artifacts: seq<ArtifactId>, isKnownKind: string -> bool): (r: map<string, string>)
    ensures forall k :: k in r <==> isKnownKind(k) && exists i :: 0 <= i < |artifacts| && artifacts[i].kind == k
    ensures forall i :: 0 <= i < |artifacts| && isKnownKind(artifacts[i].kind)
                        && (forall j :: i < j < |artifacts| ==> artifacts[j].kind != artifacts[i].kind) ==>
              r[artifacts[i].kind] == artifacts[i].version
  {
    if |artifacts| == 0 then map[]
    else
      var init := artifacts[..|artifacts| - 1];
      var last := artifacts[|artifacts| - 1];
      var before := ArtifactVersions(init, isKnownKind);
      var r := if isKnownKind(last.kind) then before[last.kind := last.version] else before;
      ArtifactVersionsStep(artifacts, isKnownKind, before, r);
      r
  }

  lemma ArtifactVersionsStep(
    artifacts: seq<ArtifactId>, isKnownKind: string -> bool, before: map<string, string>, r: map<string, string>)
    requires |artifacts| > 0
    requires var init := artifacts[..|artifacts| - 1];
             && (forall k :: k in before <==> isKnownKind(k) && exists i :: 0 <= i < |init| && init[i].kind == k)
             && (forall i :: 0 <= i < |init| && isKnownKind(init[i].kind)
                             && (forall j :: i < j < |init| ==> init[j].kind != init[i].kind) ==>
                   before[init[i].kind] == init[i].version)
    requires var last := artifacts[|artifacts| - 1];
             r == if isKnownKind(last.kind) then before[last.kind := last.version] else before
    ensures forall k :: k in r <==> isKnownKind(k) && exists i :: 0 <= i < |artifacts| && artifacts[i].kind == k
    ensures forall i :: 0 <= i < |artifacts| && isKnownKind(artifacts[i].kind)
                        && (forall j :: i < j < |artifacts| ==> artifacts[j].kind != artifacts[i].kind) ==>
              r[artifacts[i].kind] == artifacts[i].version
  {
    var init := artifacts[..|artifacts| - 1];
    var n := |artifacts| - 1;
    forall k | isKnownKind(k) && exists i :: 0 <= i < |artifacts| && artifacts[i].kind == k
      ensures k in r
    {
      var i :| 0 <= i < |artifacts| && artifacts[i].kind == k;
      if i < n {
        assert init[i].kind == k;
      }
    }
    forall i | 0 <= i < |artifacts| && isKnownKind(artifacts[i].kind)
               && (forall j :: i < j < |artifacts| ==> artifacts[j].kind != artifacts[i].kind)
      ensures r[artifacts[i].kind] == artifacts[i].version
    {
      if i < n {
        assert init[i] == artifacts[i];
        assert forall j :: i < j < |init| ==> init[j].kind != init[i].kind by {
          forall j | i < j < |init| ensures init[j].kind != init[i].kind {
            assert init[j] == artifacts[j];
          }
        }
      }
    }
  }

  /** A report as iterated from the report map: the type name and slot text it is keyed by. */
  datatype KeyedReport = KeyedReport(spType: string, slot: string, report: EventReport)

  function ReportId(k: KeyedReport): Option<ComponentId> {
    ParseComponentId(k.spType, k.slot)
  }

  /** The ids the reports name, for those that parse. */
  function ReportedIds(reports: seq<KeyedReport>): (r: set<ComponentId>)
    ensures forall id :: id in r <==> exists i :: 0 <= i < |reports| && ReportId(reports[i]) == Some(id)
  {
    set i | 0 <= i < |reports| && ReportId(reports[i]).Some? :: ReportId(reports[i]).value
  }

  /** What the source demands of the reports: each parsed id names an item, and each report is well formed. */
  predicate ReportsAcceptable(items: map<ComponentId, UpdateItem>, reports: seq<KeyedReport>) {
    forall i :: 0 <= i < |reports| ==>
      ReportId(reports[i]).Some? ==> WellFormedReport(reports[i].report) && ReportId(reports[i]).value in items
  }

  /** Feed each report whose key parses to its item, in order; skip the others. */
  function ApplyReports(items: map<ComponentId, UpdateItem>, reports: seq<KeyedReport>)
    : (r: map<ComponentId, UpdateItem>)
    requires ReportsAcceptable(items, reports)
    ensures r.Keys == items.Keys
    ensures forall id :: id in r ==> r[id].componentId == items[id].componentId
                                     && r[id].components == items[id].components
    ensures forall id :: id in r && ItemInvariant(items[id]) ==> ItemInvariant(r[id])
  {
    if |reports| == 0 then items
    else
      var init := reports[..|reports| - 1];
      var last := reports[|reports| - 1];
      assert ReportsAcceptable(items, init) by {
        assert forall i :: 0 <= i < |init| ==> init[i] == reports[i];
      }
      var before := ApplyReports(items, init);
      match ReportId(last)
      case None => before
      case Some(id) => before[id := Update(before[id], last.report)]
  }

  /** `k` is the last report naming `id`. */
  predicate IsLastReportFor(reports: seq<KeyedReport>, id: ComponentId, k: int) {
    && 0 <= k < |reports|
    && ReportId(reports[k]) == Some(id)
    && forall j :: k < j < |reports| ==> ReportId(reports[j]) != Some(id)
  }

  /** The last report naming an item decides whether it ends up running, and with which report. */
  lemma {:induction false} ApplyReportsLastWins(
    items: map<ComponentId, UpdateItem>, reports: seq<KeyedReport>, id: ComponentId, k: int)
    requires ReportsAcceptable(items, reports)
    requires id in items && IsLastReportFor(reports, id, k)
    ensures var r := ApplyReports(items, reports)[id];
            && (r.state.RunningOrCompleted? <==> |reports[k].report.stepEvents| > 0)
            && (r.state.RunningOrCompleted? ==> r.state.eventReport == reports[k].report)
  {
    var init := reports[..|reports| - 1];
    assert ReportsAcceptable(items, init) by {
      assert forall i :: 0 <= i < |init| ==> init[i] == reports[i];
    }
    if k < |reports| - 1 {
      assert IsLastReportFor(init, id, k);
      ApplyReportsLastWins(items, init, id, k);
    }
  }

  /** Items no report names are unaffected by the reports. */
  lemma {:induction false} ApplyReportsUnnamed(
    items: map<ComponentId, UpdateItem>, reports: seq<KeyedReport>, id: ComponentId)
    requires ReportsAcceptable(items, reports)
    requires id in items && id !in ReportedIds(reports)
    ensures ApplyReports(items, reports)[id] == items[id]
  {
    if |reports| > 0 {
      var init := reports[..|reports| - 1];
      assert ReportsAcceptable(items, init) by {
        assert forall i :: 0 <= i < |init| ==> init[i] == reports[i];
      }
      ApplyReportsUnnamed(items, init, id);
    }
  }

  /**
   `RackUpdateState::update_artifacts_and_reports`: take the new system
   version and artifacts, rebuild the known artifact versions, feed every
   report with a parsable key to its item, and reset every item no such
   report names.
   */
  function UpdateArtifactsAndReports(
    rack: RackUpdateState,
    systemVersion: Option<string>,
    artifacts: seq<ArtifactId>,
    reports: seq<KeyedReport>,
    isKnownKind: string -> bool): (r: RackUpdateState)
    requires ReportsAcceptable(rack.items, reports)
    ensures r.systemVersion == systemVersion && r.artifacts == artifacts
    ensures r.artifactVersions == ArtifactVersions(artifacts, isKnownKind)
    ensures r.items.Keys == rack.items.Keys
    ensures forall id :: id in r.items && id !in ReportedIds(reports) ==> r.items[id].state == NotStarted
    ensures RackInvariant(rack) ==> RackInvariant(r)
    ensures r.statusViewDisplayed == rack.statusViewDisplayed
  {
    var updated := ApplyReports(rack.items, reports);
    var items := ResetUnnamed(updated, ReportedIds(reports));
    assert RackInvariant(rack) ==> RackInvariant(rack.(items := items));
    rack.(systemVersion := systemVersion, artifacts := artifacts,
          artifactVersions := ArtifactVersions(artifacts, isKnownKind), items := items)
  }

  /** Reset every item whose component is not among `named`; keep the others. */
  function ResetUnnamed(items: map<ComponentId, UpdateItem>, named: set<ComponentId>)
    : (r: map<ComponentId, UpdateItem>)
    ensures r.Keys == items.Keys
    ensures forall id :: id in r ==> r[id].componentId == items[id].componentId
                                     && r[id].components == items[id].components
    ensures forall id :: id in r && id in named ==> r[id] == items[id]
    ensures forall id :: id in r && id !in named ==> r[id].state == NotStarted
    ensures forall id :: id in r && ItemInvariant(items[id]) ==> ItemInvariant(r[id])
  {
    map id | id in items :: if id in named then items[id] else Reset(items[id])
  }

  /** After an update with reports, a named item runs with its last report exactly when that report has steps. */
  lemma UpdateArtifactsAndReportsNamed(
    rack: RackUpdateState,
    systemVersion: Option<string>,
    artifacts: seq<ArtifactId>,
    reports: seq<KeyedReport>,
    isKnownKind: string -> bool,
    id: ComponentId,
    k: int)
    requires ReportsAcceptable(rack.items, reports)
    requires id in rack.items && IsLastReportFor(reports, id, k)
    ensures var r := UpdateArtifactsAndReports(rack, systemVersion, artifacts, reports, isKnownKind);
            && (IsRunning(r.items[id]) <==> |reports[k].report.stepEvents| > 0)
            && (IsRunning(r.items[id]) ==> ItemEventReport(r.items[id]) == Some(reports[k].report))
  {
    ApplyReportsLastWins(rack.items, reports, id, k);
    assert id in ReportedIds(reports);
  }

  /** With no artifacts every item awaits a repository; with artifacts and no reports every item is not started. */
  lemma ItemStateAfterUpdate(
    rack: RackUpdateState,
    systemVersion: Option<string>,
    artifacts: seq<ArtifactId>,
    isKnownKind: string -> bool,
    id: ComponentId)
    requires id in rack.items
    ensures var r := UpdateArtifactsAndReports(rack, systemVersion, artifacts, [], isKnownKind);
            ItemState(r, id) == if artifacts == [] then AwaitingRepository else ItemNotStarted
  {
  }

  /** Power shelf 1 parses but has no item, so a report for it breaks the requirement of the update. */
  lemma SecondPowerShelfReportRejected(report: EventReport)
    ensures !ReportsAcceptable(NewRackUpdateState().items, [KeyedReport("power", "1", report)])
  {
    SecondPowerShelfParses();
    var k := KeyedReport("power", "1", report);
    assert ReportId(k) == Some(Psc(1));
    assert Psc(1) !in NewRackUpdateState().items;
    assert [k][0] == k;
  }
}

=== FILE: update_tracker.dfy ===
/**
 The bookkeeping wicketd keeps about the updates it drives, one entry per
 service processor, and the decisions taken while an update runs: which
 RoT slot to write, whether to skip a component already at the target
 version, how to read the gateway's update status, and which M.2 slot the
 host boots from afterwards.

 An update task is reduced to whether it has finished; the artifact
 store's answer to a new repository and the gateway's answers are inputs.
 */
module UpdateTracker {
  import opened Types
  import opened Text

  // ---------------------------------------------------------------------
  // Tracker state
  // ---------------------------------------------------------------------

  /** What the tracker knows of the update task of one service processor. */
  datatype SpUpdateData = SpUpdateData(finished: bool)

  /** The update plan of the repository in the artifact store, kept opaque. */
  datatype UpdatePlan = UpdatePlan(id: nat)

  datatype TrackerData = TrackerData(plan: Option<UpdatePlan>, sps: map<SpIdentifier, SpUpdateData>)

  /** An SP is being updated when it has an entry whose task has not finished. */
  predicate IsRunning(data: TrackerData, sp: SpIdentifier) {
    sp in data.sps && !data.sps[sp].finished
  }

  /** The state after an operation, and the error it returned, if any. */
  datatype Outcome<+E> = Outcome(data: TrackerData, error: Option<E>)

  datatype StartUpdateError =
    | TufRepositoryUnavailable
    | UpdateInProgress(sps: set<SpIdentifier>)

  /** A freshly spawned update task. */
  const FRESH_TASK := SpUpdateData(false)

  /**
   `UpdateTracker::start_impl`: report the requested SPs already being
   updated, then the lack of a repository; with no errors and a driver,
   give every requested SP a fresh task and leave the others alone. The
   pre-checks alone (no driver) never change anything.
   */
  function StartImpl(data: TrackerData, requested: set<SpIdentifier>, withDriver: bool)
    : (r: Outcome<seq<StartUpdateError>>)
    ensures r.error.Some? <==> (exists sp :: sp in requested && IsRunning(data, sp)) || data.plan.None?
    ensures r.error.Some? ==>
              && |r.error.value| == (if exists sp :: sp in requested && IsRunning(data, sp) then 1 else 0)
                                    + (if data.plan.None? then 1 else 0)
              && (TufRepositoryUnavailable in r.error.value <==> data.plan.None?)
              && (forall e :: e in r.error.value && e.UpdateInProgress? ==>
                    forall sp :: sp in e.sps <==> sp in requested && IsRunning(data, sp))
              && (r.error.value[0].UpdateInProgress? <==> exists sp :: sp in requested && IsRunning(data, sp))
    ensures r.error.Some? || !withDriver ==> r.data == data
    ensures r.error.None? && withDriver ==>
              && r.data.plan == data.plan
              && r.data.sps.Keys == data.sps.Keys + requested
              && (forall sp :: sp in requested ==> r.data.sps[sp] == FRESH_TASK)
              && (forall sp :: sp in data.sps && sp !in requested ==> r.data.sps[sp] == data.sps[sp])
  {
    var inProgress := set sp | sp in requested && IsRunning(data, sp);
    assert (exists sp :: sp in requested && IsRunning(data, sp)) <==> inProgress != {} by {
      if inProgress != {} {
        var sp :| sp in inProgress;
        assert sp in requested && IsRunning(data, sp);
      }
      assert forall sp :: sp in requested && IsRunning(data, sp) ==> sp in inProgress;
    }
    var errors := (if inProgress != {} then [UpdateInProgress(inProgress)] else [])
                  + (if data.plan.None? then [TufRepositoryUnavailable] else []);
    if errors != [] then
      Outcome(data, Some(errors))
    else if !withDriver then
      Outcome(data, None)
    else
      var sps := map sp | sp in data.sps.Keys + requested :: if sp in requested then FRESH_TASK else data.sps[sp];
      Outcome(data.(sps := sps), None)
  }

  datatype ClearUpdateStateError = ClearUpdateInProgress

  /** `UpdateTrackerData::clear_update_state`: refuse while running, otherwise forget the SP. */
  function ClearUpdateState(data: TrackerData, sp: SpIdentifier): (r: Outcome<ClearUpdateStateError>)
    ensures r.error.Some? <==> IsRunning(data, sp)
    ensures r.error.Some? ==> r.data == data
    ensures r.error.None? ==> r.data == data.(sps := data.sps - {sp})
  {
    if IsRunning(data, sp) then Outcome(data, Some(ClearUpdateInProgress))
    else Outcome(data.(sps := map s | s in data.sps && s != sp :: data.sps[s]), None)
  }

  datatype AbortUpdateError = UpdateNotStarted | UpdateFinished

  /**
   `UpdateTrackerData::abort_update`: an SP with no entry was never started;
   a finished task, or one whose engine has already gone when the abort is
   sent (`abortAccepted` false), is finished. Aborting changes no entry.
   */
  function AbortUpdate(data: TrackerData, sp: SpIdentifier, abortAccepted: bool): (r: Option<AbortUpdateError>)
    ensures r == Some(UpdateNotStarted) <==> sp !in data.sps
    ensures r == Some(UpdateFinished) <==> sp in data.sps && (data.sps[sp].finished || !abortAccepted)
    ensures r.None? <==> IsRunning(data, sp) && abortAccepted
  {
    if sp !in data.sps then Some(UpdateNotStarted)
    else if data.sps[sp].finished then Some(UpdateFinished)
    else if !abortAccepted then Some(UpdateFinished)
    else None
  }

  datatype PutRepositoryError =
    | UpdatesRunning(running: set<SpIdentifier>)
    | StoreRejected(reason: string)

  /**
   `UpdateTrackerData::put_repository`: refuse while any SP is being
   updated; otherwise hand the repository to the artifact store, and only
   once it is accepted take its plan and forget every SP.
   */
  function PutRepository(data: TrackerData, store: Result<UpdatePlan, string>): (r: Outcome<PutRepositoryError>)
    ensures (exists sp :: IsRunning(data, sp)) <==> r.error.Some? && r.error.value.UpdatesRunning?
    ensures r.error.Some? && r.error.value.UpdatesRunning? ==>
              forall sp :: sp in r.error.value.running <==> IsRunning(data, sp)
    ensures r.error.Some? ==> r.data == data
    ensures r.error.None? <==> store.Success? && forall sp :: !IsRunning(data, sp)
    ensures r.error.None? ==> r.data == TrackerData(Some(store.value), map[])
  {
    var running := set sp | sp in data.sps && IsRunning(data, sp);
    assert forall sp :: IsRunning(data, sp) ==> sp in running;
    if running != {} then Outcome(data, Some(UpdatesRunning(running)))
    else match store
      case Failure(reason) => Outcome(data, Some(StoreRejected(reason)))
      case Success(plan) => Outcome(TrackerData(Some(plan), map[]), None)
  }

  /** After a successful start every requested SP is running, and another start for any of them is refused. */
  lemma StartThenStartRefused(data: TrackerData, requested: set<SpIdentifier>, sp: SpIdentifier)
    requires StartImpl(data, requested, true).error.None?
    requires sp in requested
    ensures IsRunning(StartImpl(data, requested, true).data, sp)
    ensures StartImpl(StartImpl(data, requested, true).data, {sp}, true).error.Some?
    ensures ClearUpdateState(StartImpl(data, requested, true).data, sp).error == Some(ClearUpdateInProgress)
  {
    var next := StartImpl(data, requested, true).data;
    assert IsRunning(next, sp);
  }

  /** With nothing running, a new repository clears every SP, and clearing an absent SP succeeds. */
  lemma PutRepositoryThenClear(data: TrackerData, plan: UpdatePlan, sp: SpIdentifier)
    requires forall s :: !IsRunning(data, s)
    ensures PutRepository(data, Success(plan)).data.sps == map[]
    ensures ClearUpdateState(PutRepository(data, Success(plan)).data, sp).error.None?
    ensures AbortUpdate(PutRepository(data, Success(plan)).data, sp, true) == Some(UpdateNotStarted)
  {
  }

  // ---------------------------------------------------------------------
  // The error message for running updates
  // ---------------------------------------------------------------------

  /**
   The message `put_repository` builds when updates are running: a string
   literal whose `{running_sps:?}` is never substituted, because it is not
   passed through `format!`.
   */
  function RunningMessageAsWritten(running: seq<SpIdentifier>): (r: string)
    ensures r == "Updates currently running for {running_sps:?}"
  {
    "Updates currently running for {running_sps:?}"
  }

  /** Two different sets of running SPs give the same message, so it names none of them. */
  lemma RunningMessageAsWrittenNamesNone(a: seq<SpIdentifier>, b: seq<SpIdentifier>)
    ensures RunningMessageAsWritten(a) == RunningMessageAsWritten(b)
    ensures RunningMessageAsWritten([SpIdentifier(SledSp, 0)]) == RunningMessageAsWritten([SpIdentifier(SwitchSp, 1)])
  {
  }

  function SpTypeDebug(t: SpType): string {
    match t
    case SledSp => "Sled"
    case SwitchSp => "Switch"
    case PowerSp => "Power"
  }

  /** The `Debug` rendering of an SP identifier. */
  function SpDebug(sp: SpIdentifier): string {
    "SpIdentifier { slot: " + ToDecimal(sp.slot) + ", type_: " + SpTypeDebug(sp.typ) + " }"
  }

  /** The renderings of the elements, in order. */
  function SpDebugs(sps: seq<SpIdentifier>): (r: seq<string>)
    ensures |r| == |sps|
    ensures forall i :: 0 <= i < |sps| ==> r[i] == SpDebug(sps[i])
  {
    if |sps| == 0 then [] else [SpDebug(sps[0])] + SpDebugs(sps[1..])
  }

  /** The elements' renderings separated by `, `. */
  function JoinSps(sps: seq<SpIdentifier>): string {
    Join(SpDebugs(sps), ", ")
  }

  const RUNNING_PREFIX := "Updates currently running for "

  /** The message with the running SPs substituted. */
  function RunningMessage(running: seq<SpIdentifier>): (r: string)
    ensures RUNNING_PREFIX <= r
  {
    RUNNING_PREFIX + "[" + JoinSps(running) + "]"
  }

  /** Each SP of a list is named in the list's rendering. */
  lemma JoinSpsNamesEach(sps: seq<SpIdentifier>, i: nat)
    requires i < |sps|
    ensures Contains(JoinSps(sps), SpDebug(sps[i]))
  {
    JoinContainsPart(SpDebugs(sps), ", ", i);
  }

  /** The corrected message names every running SP. */
  lemma RunningMessageNamesEach(running: seq<SpIdentifier>, i: nat)
    requires i < |running|
    ensures Contains(RunningMessage(running), SpDebug(running[i]))
  {
    JoinSpsNamesEach(running, i);
    var w := JoinSps(running);
    ContainsWithin(RUNNING_PREFIX + "[", w, "]", SpDebug(running[i]));
    assert RunningMessage(running) == RUNNING_PREFIX + "[" + w + "]";
  }

  // ---------------------------------------------------------------------
  // Interrogating the RoT and deciding whether to update
  // ---------------------------------------------------------------------

  /** An artifact to apply: only its version matters to the decisions. */
  datatype ArtifactIdData = ArtifactIdData(name: string, version: string)

  datatype UpdateTerminalError =
    | GetRotActiveSlotFailed(message: string)
    | SimulatedFailure

  /** The slot to write, named by the active one, and the artifact for it. */
  datatype RotTarget = RotTarget(activeSlotName: char, slotToUpdate: U16, artifactToApply: ArtifactIdData)

  /**
   The slot flip of `interrogate_rot`: with slot 0 (A) active, write slot 1
   with the B image; with slot 1 (B) active, write slot 0 with the A image;
   any other active slot is an error.
   */
  function RotSlotToUpdate(activeSlot: U16, rotA: ArtifactIdData, rotB: ArtifactIdData)
    : (r: Result<RotTarget, UpdateTerminalError>)
    ensures r.Success? <==> activeSlot <= 1
    ensures r.Success? ==> r.value.slotToUpdate == 1 - activeSlot
    ensures r.Success? ==> r.value.artifactToApply == if r.value.slotToUpdate == 0 then rotA else rotB
    ensures r.Failure? ==> r.error.GetRotActiveSlotFailed?
  {
    if activeSlot == 0 then Success(RotTarget('A', 1, rotB))
    else if activeSlot == 1 then Success(RotTarget('B', 0, rotA))
    else Failure(GetRotActiveSlotFailed("unexpected RoT active slot " + ToDecimal(activeSlot)))
  }

  /** Flipping the slot to update gives back the active slot: the two slots alternate. */
  lemma RotSlotFlipAlternates(activeSlot: U16, rotA: ArtifactIdData, rotB: ArtifactIdData)
    requires RotSlotToUpdate(activeSlot, rotA, rotB).Success?
    ensures var next := RotSlotToUpdate(activeSlot, rotA, rotB).value.slotToUpdate;
            RotSlotToUpdate(next, rotA, rotB).Success?
            && RotSlotToUpdate(next, rotA, rotB).value.slotToUpdate == activeSlot
    ensures RotSlotToUpdate(activeSlot, rotA, rotB).value.activeSlotName == if activeSlot == 0 then 'A' else 'B'
  {
  }

  /** The result of interrogating the RoT. */
  datatype RotInterrogation = RotInterrogation(
    slotToUpdate: U16,
    artifactToApply: ArtifactIdData,
    activeVersion: Option<string>)

  /**
   `interrogate_rot` after the caboose of the active slot is read: the
   active version is known only when the caboose has one that parses
   (`parsesAsVersion` stands for the semantic-version parser).
   */
  function InterrogateRot(
    activeSlot: U16, cabooseVersion: Option<string>, parsesAsVersion: string -> bool,
    rotA: ArtifactIdData, rotB: ArtifactIdData): (r: Result<RotInterrogation, UpdateTerminalError>)
    ensures r.Success? <==> activeSlot <= 1
    ensures r.Success? ==> (r.value.activeVersion.Some? <==> cabooseVersion.Some? && parsesAsVersion(cabooseVersion.value))
    ensures r.Success? && r.value.activeVersion.Some? ==> r.value.activeVersion == cabooseVersion
    ensures r.Success? ==>
              && r.value.slotToUpdate == 1 - activeSlot
              && r.value.artifactToApply == (if activeSlot == 0 then rotB else rotA)
    ensures r.Failure? ==> r.error.GetRotActiveSlotFailed?
  {
    var target :- RotSlotToUpdate(activeSlot, rotA, rotB);
    var version := if cabooseVersion.Some? && parsesAsVersion(cabooseVersion.value) then cabooseVersion else None;
    Success(RotInterrogation(target.slotToUpdate, target.artifactToApply, version))
  }

  /** `RotInterrogation::active_version_matches_artifact_to_apply`. */
  predicate ActiveVersionMatches(i: RotInterrogation) {
    Some(i.artifactToApply.version) == i.activeVersion
  }

  /** How an RoT or SP update step ends. */
  datatype VersionOutcome = SkippedAlreadyAtVersion | UpdatedWithWarning | UpdatedSuccessfully

  /**
   The decision of the "Updating RoT" and "Updating SP" steps: a component
   already at the target version is skipped unless the version check is
   disabled, in which case it is updated with a warning; otherwise it is
   updated normally.
   */
  function VersionDecision(hasThisVersion: bool, skipVersionCheck: bool): (r: VersionOutcome)
    ensures r == SkippedAlreadyAtVersion <==> hasThisVersion && !skipVersionCheck
    ensures r == UpdatedWithWarning <==> hasThisVersion && skipVersionCheck
    ensures r == UpdatedSuccessfully <==> !hasThisVersion
  {
    if hasThisVersion && !skipVersionCheck then SkippedAlreadyAtVersion
    else if hasThisVersion then UpdatedWithWarning
    else UpdatedSuccessfully
  }

  /** The SP comparison: the artifact's version against the caboose's parsed version. */
  predicate SpHasThisVersion(artifact: ArtifactIdData, spVersion: Option<string>) {
    Some(artifact.version) == spVersion
  }

  /** An RoT whose version is unknown is always updated, and disabling the skip never skips. */
  lemma VersionDecisionProperties(i: RotInterrogation, skipVersionCheck: bool)
    ensures i.activeVersion.None? ==> VersionDecision(ActiveVersionMatches(i), skipVersionCheck) == UpdatedSuccessfully
    ensures skipVersionCheck ==> VersionDecision(ActiveVersionMatches(i), skipVersionCheck) != SkippedAlreadyAtVersion
    ensures (VersionDecision(ActiveVersionMatches(i), false) == SkippedAlreadyAtVersion) <==> (i.activeVersion == Some(i.artifactToApply.version))
  {
  }

  /** The outcomes a test can ask a step to simulate. */
  datatype UpdateSimulatedResult = SimSuccess | SimWarning | SimSkipped | SimFailure

  datatype StepResultKind = StepSuccess | StepWarning | StepSkipped

  /** A step result with its message. */
  datatype StepResult = StepResult(kind: StepResultKind, message: string)

  /** `simulate_result`: the requested outcome, with a fixed message, or a terminal error. */
  function SimulateResult(result: UpdateSimulatedResult): (r: Result<StepResult, UpdateTerminalError>)
    ensures r.Failure? <==> result == SimFailure
    ensures r.Failure? ==> r.error == SimulatedFailure
    ensures r.Success? ==> Contains(r.value.message, "Simulated")
  {
    match result
    case SimSuccess => Success(StepResult(StepSuccess, SimulatedMessage("success")))
    case SimWarning => Success(StepResult(StepWarning, SimulatedMessage("warning")))
    case SimSkipped => Success(StepResult(StepSkipped, SimulatedMessage("skipped")))
    case SimFailure => Failure(SimulatedFailure)
  }

  function SimulatedMessage(kind: string): (r: string)
    ensures Contains(r, "Simulated")
  {
    ContainsInfix("", "Simulated", " " + kind + " result");
    assert "" + "Simulated" + (" " + kind + " result") == "Simulated " + kind + " result";
    "Simulated " + kind + " result"
  }

  /** Each requested outcome is simulated as the step result of the same kind. */
  lemma SimulateResultFaithful(result: UpdateSimulatedResult)
    ensures result == SimSuccess ==> SimulateResult(result).value.kind == StepSuccess
    ensures result == SimWarning ==> SimulateResult(result).value.kind == StepWarning
    ensures result == SimSkipped ==> SimulateResult(result).value.kind == StepSkipped
    ensures forall a, b :: SimulateResult(a) == SimulateResult(b) ==> a == b
  {
  }

  // ---------------------------------------------------------------------
  // Polling the gateway for a component update
  // ---------------------------------------------------------------------

  datatype SpUpdateStatus =
    | StatusNone
    | StatusPreparing(id: nat, progress: Option<(nat, nat)>)
    | StatusInProgress(id: nat, bytesReceived: nat, totalBytes: nat)
    | StatusComplete(id: nat)
    | StatusAborted(id: nat)
    | StatusFailed(id: nat, code: nat)
    | StatusRotError(id: nat, message: string)

  datatype ComponentUpdateStage = StagePreparing | StageInProgress

  datatype PollDecision = Done | KeepPolling | PollFailed(message: string)

  /**
   The reaction of `poll_component_update` to one status: no update is an
   error, an update with another id is an error, in-progress while
   preparing and complete are done, aborted, failed and RoT errors are
   errors, and anything else means poll again.
   */
  function StatusDecision(status: SpUpdateStatus, stage: ComponentUpdateStage, updateId: nat): (r: PollDecision)
    ensures status.StatusNone? ==> r.PollFailed?
    ensures !status.StatusNone? && status.id != updateId ==> r == PollFailed("SP processing different update")
    ensures r == Done <==> !status.StatusNone? && status.id == updateId
                           && (status.StatusComplete? || (status.StatusInProgress? && stage.StagePreparing?))
    ensures r == KeepPolling <==> !status.StatusNone? && status.id == updateId
                                  && (status.StatusPreparing? || (status.StatusInProgress? && stage.StageInProgress?))
  {
    if status.StatusNone? then PollFailed("SP no longer processing update (did it reset?)")
    else if status.id != updateId then PollFailed("SP processing different update")
    else if status.StatusPreparing? then KeepPolling
    else if status.StatusInProgress? then (if stage == StagePreparing then Done else KeepPolling)
    else if status.StatusComplete? then Done
    else if status.StatusAborted? then PollFailed("update aborted")
    else if status.StatusFailed? then PollFailed("update failed (error code " + ToDecimal(status.code) + ")")
    else PollFailed("update failed (rot error message " + status.message + ")")
  }

  /**
   The polling loop over the statuses the gateway returns in turn: stop at
   the first status that ends the wait, and report how many were read.
   `None` means every status read asked for another poll.
   */
  method PollComponentUpdate(statuses: seq<SpUpdateStatus>, stage: ComponentUpdateStage, updateId: nat)
    returns (polls: nat, result: Option<PollDecision>)
    ensures polls <= |statuses|
    ensures forall i :: 0 <= i < polls - 1 ==> StatusDecision(statuses[i], stage, updateId) == KeepPolling
    ensures result.None? <==> polls == |statuses|
                              && forall i :: 0 <= i < |statuses| ==> StatusDecision(statuses[i], stage, updateId) == KeepPolling
    ensures result.Some? ==> polls > 0 && result.value == StatusDecision(statuses[polls - 1], stage, updateId)
                             && result.value != KeepPolling
  {
    polls := 0;
    while polls < |statuses|
      invariant polls <= |statuses|
      invariant forall i :: 0 <= i < polls ==> StatusDecision(statuses[i], stage, updateId) == KeepPolling
    {
      var decision := StatusDecision(statuses[polls], stage, updateId);
      polls := polls + 1;
      if decision != KeepPolling {
        return polls, Some(decision);
      }
    }
    return polls, None;
  }

  // ---------------------------------------------------------------------
  // Host boot slot
  // ---------------------------------------------------------------------

  datatype M2Slot = M2A | M2B

  /** Slot A is disk 0 and slot B is disk 1. */
  function M2SlotNumber(s: M2Slot): (r: U16)
    ensures r <= 1
  {
    match s
    case M2A => 0
    case M2B => 1
  }

  /** The disks installinator wrote, as slot numbers. */
  function SlotsToUpdate(written: seq<M2Slot>): (r: set<U16>)
    ensures forall n :: n in r <==> exists i :: 0 <= i < |written| && M2SlotNumber(written[i]) == n
    ensures forall n :: n in r ==> n <= 1
  {
    set i | 0 <= i < |written| :: M2SlotNumber(written[i])
  }

  /** A non-empty set of slots has a least element. */
  predicate IsLeast(s: set<U16>, m: U16) {
    m in s && forall x :: x in s ==> m <= x
  }

  lemma {:induction false} HasLeast(s: set<U16>)
    requires s != {}
    ensures exists m :: IsLeast(s, m)
  {
    var x :| x in s;
    var rest := s - {x};
    if rest == {} {
      assert IsLeast(s, x) by {
        forall y | y in s ensures x <= y {
          assert y in rest || y == x;
        }
      }
    } else {
      HasLeast(rest);
      var m :| IsLeast(rest, m);
      var least := if x < m then x else m;
      assert IsLeast(s, least) by {
        forall y | y in s ensures least <= y {
          if y != x {
            assert y in rest;
          }
        }
      }
    }
  }

  datatype BootSlotError = NoDisksWritten

  /**
   The slot the host is set to boot from: the first (smallest) slot
   written; no written disk is an error.
   */
  function ChooseBootSlot(slots: set<U16>): (r: Result<U16, BootSlotError>)
    ensures r.Failure? <==> slots == {}
    ensures r.Success? ==> r.value in slots && forall x :: x in slots ==> r.value <= x
  {
    if slots == {} then Failure(NoDisksWritten)
    else
      HasLeast(slots);
      var m :| IsLeast(slots, m);
      Success(m)
  }

  /** The host boots from disk 0 whenever slot A was written, and from disk 1 when only B was. */
  lemma BootSlotFromWritten(written: seq<M2Slot>)
    ensures M2A in written ==> ChooseBootSlot(SlotsToUpdate(written)) == Success(0)
    ensures M2B in written && M2A !in written ==> ChooseBootSlot(SlotsToUpdate(written)) == Success(1)
    ensures written == [] ==> ChooseBootSlot(SlotsToUpdate(written)).Failure?
  {
    var slots := SlotsToUpdate(written);
    if M2A in written {
      var i :| 0 <= i < |written| && written[i] == M2A;
      assert M2SlotNumber(written[i]) == 0;
      assert 0 in slots;
    } else if M2B in written {
      var i :| 0 <= i < |written| && written[i] == M2B;
      assert M2SlotNumber(written[i]) == 1;
      assert 1 in slots;
      forall n | n in slots ensures n == 1 {
        var j :| 0 <= j < |written| && M2SlotNumber(written[j]) == n;
        assert written[j] != M2A;
      }
    }
  }
}

=== FILE: zone_bundle.dfy ===
/**
 The automatic clean-up policy for zone bundles kept by a sled agent:
 the validated settings (storage limit, clean-up period, priority order),
 the priority comparison between bundles, the pruning decision taken by a
 clean-up pass, the update of the clean-up settings, the parsing of the
 `zfs list` and `du` outputs the pass relies on, and the zone-name filter
 used when listing bundles.

 Time stamps and bundle identifiers are opaque integers; durations are
 counted in nanoseconds.
 */
module ZoneBundle {
  import opened Types
  import opened Text

  // ---------------------------------------------------------------------
  // Bundles
  // ---------------------------------------------------------------------

  /** Why a bundle was taken. The declaration order is the priority order. */
  datatype ZoneBundleCause = Other | UnexpectedZone | TerminatedInstance | ExplicitRequest

  /** The position of a cause in declaration order, which the derived `Ord` compares. */
  function CauseRank(c: ZoneBundleCause): nat {
    match c
    case Other => 0
    case UnexpectedZone => 1
    case TerminatedInstance => 2
    case ExplicitRequest => 3
  }

  /** The four causes in increasing order, each ranked strictly above the one before. */
  lemma CauseOrder()
    ensures CauseRank(Other) < CauseRank(UnexpectedZone) < CauseRank(TerminatedInstance)
            < CauseRank(ExplicitRequest)
    ensures forall a: ZoneBundleCause, b: ZoneBundleCause :: CauseRank(a) == CauseRank(b) ==> a == b
  {
  }

  datatype ZoneBundleId = ZoneBundleId(zoneName: string, bundleId: nat)

  datatype ZoneBundleMetadata = ZoneBundleMetadata(
    id: ZoneBundleId,
    timeCreated: int,
    version: U8,
    cause: ZoneBundleCause)

  /** A bundle found on disk: its metadata, its path and its size in bytes. */
  datatype ZoneBundleInfo = ZoneBundleInfo(metadata: ZoneBundleMetadata, path: string, bytes: U64)

  // ---------------------------------------------------------------------
  // Errors
  // ---------------------------------------------------------------------

  /** Why reading a command's output failed. */
  datatype CleanupFailure =
    | CommandFailed
    | NoLines
    | NoQuotaPart
    | NoAvailPart
    | BadAvail
    | NoUsageSize
    | BadUsage

  datatype BundleError =
    | InvalidStorageLimit
    | InvalidCleanupPeriod
    | InvalidPriorityOrder
    | Cleanup(failure: CleanupFailure)

  // ---------------------------------------------------------------------
  // Storage limit
  // ---------------------------------------------------------------------

  /** The share of a dataset's quota zone bundles may use, as a percentage. */
  datatype StorageLimit = StorageLimit(pct: U8)

  const STORAGE_LIMIT_MIN := StorageLimit(0)
  const STORAGE_LIMIT_MAX := StorageLimit(50)
  const STORAGE_LIMIT_DEFAULT := StorageLimit(25)

  /** `StorageLimit::new`: a percentage in the half-open range (0, 50]. */
  function NewStorageLimit(percentage: U8): (r: Result<StorageLimit, BundleError>)
    ensures r.Success? <==> 0 < percentage <= 50
    ensures r.Success? ==> r.value.pct == percentage
    ensures r.Failure? ==> r.error == InvalidStorageLimit
  {
    if percentage > STORAGE_LIMIT_MIN.pct && percentage <= STORAGE_LIMIT_MAX.pct then
      Success(StorageLimit(percentage))
    else
      Failure(InvalidStorageLimit)
  }

  /** The default limit is one that `NewStorageLimit` accepts. */
  lemma DefaultStorageLimitValid()
    ensures NewStorageLimit(STORAGE_LIMIT_DEFAULT.pct) == Success(STORAGE_LIMIT_DEFAULT)
    ensures STORAGE_LIMIT_DEFAULT.pct == 25
  {
  }

  /**
   The bytes available to bundles: `pct` percent of the quota, rounded
   down. The product is formed exactly (without the 64-bit wrap-around of
   the source, see `BytesAvailableAsWritten`).
   */
  function BytesAvailable(limit: StorageLimit, quota: U64): (r: nat)
    ensures r * 100 <= quota * limit.pct < r * 100 + 100
    ensures limit.pct <= 100 ==> r <= quota
  {
    var product := quota * limit.pct;
    if limit.pct <= 100 then
      MulMonotone(quota, limit.pct, 100);
      product / 100
    else
      product / 100
  }

  /**
   The source's `(dataset_quota * pct) / 100` evaluated in `u64`, where the
   product wraps around modulo 2^64 in a release build.
   */
  function BytesAvailableAsWritten(limit: StorageLimit, quota: U64): (r: U64)
    ensures quota * limit.pct < U64_LIMIT ==> r == BytesAvailable(limit, quota)
  {
    var product := quota * limit.pct;
    (product % U64_LIMIT) / 100
  }

  /** Every accepted limit leaves at most half of the quota to bundles. */
  lemma AcceptedLimitAtMostHalf(percentage: U8, quota: U64)
    requires NewStorageLimit(percentage).Success?
    ensures BytesAvailable(NewStorageLimit(percentage).value, quota) * 2 <= quota
  {
    var r := BytesAvailable(StorageLimit(percentage), quota);
    MulMonotone(quota, percentage, 50);
    assert r * 100 <= quota * 50;
  }

  lemma MulMonotone(a: nat, b: nat, c: nat)
    requires b <= c
    ensures a * b <= a * c
  {
    assert a * c == a * b + a * (c - b);
  }

  /** The worked values of the unit test for `bytes_available`. */
  lemma BytesAvailableExamples()
    ensures BytesAvailable(StorageLimit(1), 100) == 1
    ensures BytesAvailable(StorageLimit(1), 1000) == 10
    ensures BytesAvailable(StorageLimit(100), 100) == 100
    ensures BytesAvailable(StorageLimit(100), 1000) == 1000
    ensures BytesAvailable(StorageLimit(100), 99) == 99
    ensures BytesAvailable(StorageLimit(99), 1) == 0
    ensures BytesAvailable(StorageLimit(25), 32768) == 8192
  {
  }

  /**
   With no quota reported as `u64::MAX` and the default 25% limit, the
   wrapped product gives a value 25 times smaller than a quarter of the quota.
   */
  lemma BytesAvailableOverflow()
    ensures BytesAvailableAsWritten(STORAGE_LIMIT_DEFAULT, U64_MAX) == 184467440737095515
    ensures BytesAvailable(STORAGE_LIMIT_DEFAULT, U64_MAX) == 4611686018427387903
  {
  }

  // ---------------------------------------------------------------------
  // Clean-up period
  // ---------------------------------------------------------------------

  const NANOS_PER_SEC: nat := 1_000_000_000

  /** A duration in nanoseconds. */
  type Duration = nat

  function FromSecs(secs: nat): Duration {
    secs * NANOS_PER_SEC
  }

  datatype CleanupPeriod = CleanupPeriod(duration: Duration)

  const CLEANUP_PERIOD_MIN := CleanupPeriod(FromSecs(60))
  const CLEANUP_PERIOD_MAX := CleanupPeriod(FromSecs(60 * 60 * 24))
  const CLEANUP_PERIOD_DEFAULT := CleanupPeriod(FromSecs(600))

  /** `CleanupPeriod::new`: from one minute to one day, both inclusive. */
  function NewCleanupPeriod(d: Duration): (r: Result<CleanupPeriod, BundleError>)
    ensures r.Success? <==> 60 * NANOS_PER_SEC <= d <= 86400 * NANOS_PER_SEC
    ensures r.Success? ==> r.value.duration == d
    ensures r.Failure? ==> r.error == InvalidCleanupPeriod
  {
    if d >= CLEANUP_PERIOD_MIN.duration && d <= CLEANUP_PERIOD_MAX.duration then
      Success(CleanupPeriod(d))
    else
      Failure(InvalidCleanupPeriod)
  }

  /** The limits themselves are accepted; one nanosecond beyond either is not. */
  lemma CleanupPeriodBounds()
    ensures NewCleanupPeriod(FromSecs(60)).Success?
    ensures NewCleanupPeriod(FromSecs(86400)).Success?
    ensures NewCleanupPeriod(FromSecs(60) - 1).Failure?
    ensures NewCleanupPeriod(FromSecs(86400) + 1).Failure?
    ensures NewCleanupPeriod(CLEANUP_PERIOD_DEFAULT.duration) == Success(CLEANUP_PERIOD_DEFAULT)
  {
  }

  // ---------------------------------------------------------------------
  // Priority order
  // ---------------------------------------------------------------------

  datatype PriorityDimension = Time | Cause

  /** The array of the source: exactly two dimensions. */
  type PriorityDims = s: seq<PriorityDimension> | |s| == 2 witness [Cause, Time]

  datatype PriorityOrder = PriorityOrder(dims: PriorityDims)

  const PRIORITY_ORDER_DEFAULT := PriorityOrder([Cause, Time])

  /**
   The loop of `PriorityOrder::new` over the dimensions with a set of those
   already seen: true when some dimension repeats one seen before it.
   */
  function HasRepeat(dims: seq<PriorityDimension>, seen: set<PriorityDimension>): (r: bool)
    ensures r <==> (exists i :: 0 <= i < |dims| && dims[i] in seen)
                   || (exists i, j :: 0 <= i < j < |dims| && dims[i] == dims[j])
  {
    if |dims| == 0 then false
    else if dims[0] in seen then true
    else
      var r := HasRepeat(dims[1..], seen + {dims[0]});
      assert forall i :: 0 < i < |dims| ==> dims[1..][i - 1] == dims[i];
      r
  }

  /** `PriorityOrder::new`: exactly two dimensions, neither repeated. */
  function NewPriorityOrder(dims: seq<PriorityDimension>): (r: Result<PriorityOrder, BundleError>)
    ensures r.Success? <==> |dims| == 2 && dims[0] != dims[1]
    ensures r.Success? ==> r.value.dims == dims
    ensures r.Failure? ==> r.error == InvalidPriorityOrder
  {
    if |dims| != 2 then Failure(InvalidPriorityOrder)
    else if HasRepeat(dims, {}) then Failure(InvalidPriorityOrder)
    else Success(PriorityOrder(dims))
  }

  /** An accepted order is a permutation of the two dimensions. */
  lemma AcceptedOrderIsPermutation(dims: seq<PriorityDimension>)
    requires NewPriorityOrder(dims).Success?
    ensures dims == [Cause, Time] || dims == [Time, Cause]
    ensures multiset(dims) == multiset{Cause, Time}
  {
  }

  /** The cases of the unit test for `PriorityOrder::new`. */
  lemma PriorityOrderExamples()
    ensures NewPriorityOrder([]).Failure?
    ensures NewPriorityOrder([Cause]).Failure?
    ensures NewPriorityOrder([Cause, Cause]).Failure?
    ensures NewPriorityOrder([Cause, Cause, Time]).Failure?
    ensures NewPriorityOrder([Cause, Time]).Success?
    ensures NewPriorityOrder(PRIORITY_ORDER_DEFAULT.dims) == Success(PRIORITY_ORDER_DEFAULT)
  {
  }

  // ---------------------------------------------------------------------
  // Comparing bundles
  // ---------------------------------------------------------------------

  /** The key a dimension sorts by: the cause's rank, or the creation time. */
  function DimKey(d: PriorityDimension, b: ZoneBundleInfo): int {
    match d
    case Cause => CauseRank(b.metadata.cause)
    case Time => b.metadata.timeCreated
  }

  function CompareDim(d: PriorityDimension, lhs: ZoneBundleInfo, rhs: ZoneBundleInfo): Ordering {
    CompareInt(DimKey(d, lhs), DimKey(d, rhs))
  }

  /** `k` is the first dimension on which the two bundles differ. */
  predicate FirstDifferenceAt(
    order: seq<PriorityDimension>, lhs: ZoneBundleInfo, rhs: ZoneBundleInfo, k: nat)
  {
    && k < |order|
    && (forall i :: 0 <= i < k ==> CompareDim(order[i], lhs, rhs) == Equal)
    && CompareDim(order[k], lhs, rhs) != Equal
  }

  /**
   `PriorityOrder::compare_bundles`: compare along each dimension in turn
   and return the first result that is not `Equal`.
   */
  function CompareBundles(
    order: seq<PriorityDimension>, lhs: ZoneBundleInfo, rhs: ZoneBundleInfo): (r: Ordering)
    ensures r == Equal <==> forall i :: 0 <= i < |order| ==> CompareDim(order[i], lhs, rhs) == Equal
    ensures r != Equal ==>
              exists k: nat :: FirstDifferenceAt(order, lhs, rhs, k) && r == CompareDim(order[k], lhs, rhs)
  {
    if |order| == 0 then Equal
    else
      var o := CompareDim(order[0], lhs, rhs);
      if o != Equal then
        assert FirstDifferenceAt(order, lhs, rhs, 0);
        o
      else
        var r := CompareBundles(order[1..], lhs, rhs);
        assert forall i :: 0 < i < |order| ==> order[1..][i - 1] == order[i];
        if r != Equal then
          var k: nat :| FirstDifferenceAt(order[1..], lhs, rhs, k) && r == CompareDim(order[1..][k], lhs, rhs);
          assert FirstDifferenceAt(order, lhs, rhs, k + 1);
          r
        else
          r
  }

  /** Swapping the bundles flips the result. */
  lemma {:induction false} CompareBundlesFlip(
    order: seq<PriorityDimension>, a: ZoneBundleInfo, b: ZoneBundleInfo)
    ensures CompareBundles(order, b, a) == CompareBundles(order, a, b).Flip()
  {
    if |order| > 0 {
      CompareBundlesFlip(order[1..], a, b);
    }
  }

  /** "Not greater" is transitive, so the comparison is a total preorder. */
  lemma {:induction false} CompareBundlesTransitive(
    order: seq<PriorityDimension>, a: ZoneBundleInfo, b: ZoneBundleInfo, c: ZoneBundleInfo)
    requires CompareBundles(order, a, b) != Greater
    requires CompareBundles(order, b, c) != Greater
    ensures CompareBundles(order, a, c) != Greater
  {
    if |order| > 0 {
      var d := order[0];
      if DimKey(d, a) == DimKey(d, b) == DimKey(d, c) {
        CompareBundlesTransitive(order[1..], a, b, c);
      }
    }
  }

  /** The two orders of the unit test on four bundles from two days and two causes. */
  lemma CompareBundlesExamples(old1: ZoneBundleInfo, new1: ZoneBundleInfo)
    requires old1.metadata.timeCreated < new1.metadata.timeCreated
    requires old1.metadata.cause == ExplicitRequest && new1.metadata.cause == TerminatedInstance
    ensures CompareBundles([Time, Cause], old1, new1) == Less
    ensures CompareBundles([Cause, Time], old1, new1) == Greater
  {
  }

  // ---------------------------------------------------------------------
  // Sorting bundles (`sort_by` with the priority comparison, a stable sort)
  // ---------------------------------------------------------------------

  predicate SortedBy(order: seq<PriorityDimension>, s: seq<ZoneBundleInfo>) {
    forall i, j :: 0 <= i < j < |s| ==> CompareBundles(order, s[i], s[j]) != Greater
  }

  /** Insert `x` before the first element that sorts strictly after it. */
  function InsertBundle(
    order: seq<PriorityDimension>, x: ZoneBundleInfo, s: seq<ZoneBundleInfo>): (r: seq<ZoneBundleInfo>)
    ensures multiset(r) == multiset(s) + multiset{x}
  {
    if |s| == 0 then [x]
    else if CompareBundles(order, s[0], x) == Greater then [x] + s
    else
      assert s == [s[0]] + s[1..];
      [s[0]] + InsertBundle(order, x, s[1..])
  }

  /** Insertion keeps a sorted sequence sorted. */
  lemma {:induction false} InsertBundleSorted(
    order: seq<PriorityDimension>, x: ZoneBundleInfo, s: seq<ZoneBundleInfo>)
    requires SortedBy(order, s)
    ensures SortedBy(order, InsertBundle(order, x, s))
  {
    if |s| == 0 {
    } else if CompareBundles(order, s[0], x) == Greater {
      CompareBundlesFlip(order, s[0], x);
      forall j | 0 <= j < |s|
        ensures CompareBundles(order, x, s[j]) != Greater
      {
        if j > 0 {
          CompareBundlesTransitive(order, x, s[0], s[j]);
        }
      }
      PrependSorted(order, x, s);
    } else {
      var t := InsertBundle(order, x, s[1..]);
      TailSorted(order, s);
      InsertBundleSorted(order, x, s[1..]);
      HeadBeforeInsertion(order, x, s, t);
      PrependSorted(order, s[0], t);
    }
  }

  /** Dropping the head keeps a sequence sorted. */
  lemma TailSorted(order: seq<PriorityDimension>, s: seq<ZoneBundleInfo>)
    requires SortedBy(order, s) && |s| > 0
    ensures SortedBy(order, s[1..])
  {
    forall i, j | 0 <= i < j < |s[1..]|
      ensures CompareBundles(order, s[1..][i], s[1..][j]) != Greater
    {
      assert s[1..][i] == s[i + 1] && s[1..][j] == s[j + 1];
    }
  }

  /** A head that sorts no later than every element keeps a sorted sequence sorted. */
  lemma PrependSorted(order: seq<PriorityDimension>, x: ZoneBundleInfo, s: seq<ZoneBundleInfo>)
    requires SortedBy(order, s)
    requires forall j :: 0 <= j < |s| ==> CompareBundles(order, x, s[j]) != Greater
    ensures SortedBy(order, [x] + s)
  {
    var r := [x] + s;
    forall i, j | 0 <= i < j < |r|
      ensures CompareBundles(order, r[i], r[j]) != Greater
    {
      if i == 0 {
        assert r[j] == s[j - 1];
      } else {
        assert r[i] == s[i - 1] && r[j] == s[j - 1];
      }
    }
  }

  /** The head of a sorted sequence sorts no later than anything inserted after it. */
  lemma HeadBeforeInsertion(
    order: seq<PriorityDimension>, x: ZoneBundleInfo, s: seq<ZoneBundleInfo>, t: seq<ZoneBundleInfo>)
    requires SortedBy(order, s) && |s| > 0
    requires CompareBundles(order, s[0], x) != Greater
    requires multiset(t) == multiset(s[1..]) + multiset{x}
    ensures forall j :: 0 <= j < |t| ==> CompareBundles(order, s[0], t[j]) != Greater
  {
    forall j | 0 <= j < |t|
      ensures CompareBundles(order, s[0], t[j]) != Greater
    {
      var y := t[j];
      assert y in multiset(t);
      if y != x {
        assert y in multiset(s[1..]);
        var k :| 0 <= k < |s[1..]| && s[1..][k] == y;
        assert s[k + 1] == y;
      }
    }
  }

  /** A stable insertion sort by the priority comparison, lowest priority first. */
  function SortBundles(order: seq<PriorityDimension>, s: seq<ZoneBundleInfo>): (r: seq<ZoneBundleInfo>)
    ensures multiset(r) == multiset(s)
    ensures SortedBy(order, r)
  {
    if |s| == 0 then []
    else
      assert s == s[..|s| - 1] + [s[|s| - 1]];
      var sorted := SortBundles(order, s[..|s| - 1]);
      InsertBundleSorted(order, s[|s| - 1], sorted);
      InsertBundle(order, s[|s| - 1], sorted)
  }

  lemma SortedLength(order: seq<PriorityDimension>, s: seq<ZoneBundleInfo>)
    ensures |SortBundles(order, s)| == |s|
  {
    assert |multiset(SortBundles(order, s))| == |multiset(s)|;
  }

  /**
   The unit test's four bundles: a terminated instance and an explicit
   request on a later day, then the same two causes on an earlier day.
   Sorting them by time first and by cause first gives the orders the
   test expects.
   */
  lemma SortBundlesExamples(info: seq<ZoneBundleInfo>)
    requires |info| == 4
    requires info[0].metadata.timeCreated == info[1].metadata.timeCreated
    requires info[2].metadata.timeCreated == info[3].metadata.timeCreated
    requires info[2].metadata.timeCreated < info[0].metadata.timeCreated
    requires info[0].metadata.cause == TerminatedInstance && info[1].metadata.cause == ExplicitRequest
    requires info[2].metadata.cause == TerminatedInstance && info[3].metadata.cause == ExplicitRequest
    ensures SortBundles([Time, Cause], info) == [info[2], info[3], info[0], info[1]]
    ensures SortBundles([Cause, Time], info) == [info[2], info[0], info[3], info[1]]
  {
    var a, b, c, d := info[0], info[1], info[2], info[3];
    FourElements(info);
    SortFour([Time, Cause], a, b, c, d);
    SortFour([Cause, Time], a, b, c, d);
    TimeFirstExample(a, b, c, d);
    CauseFirstExample(a, b, c, d);
  }

  /** Sorting a list with one more bundle inserts that bundle into the sorted rest. */
  lemma SortSnoc(order: seq<PriorityDimension>, s: seq<ZoneBundleInfo>, x: ZoneBundleInfo)
    ensures SortBundles(order, s + [x]) == InsertBundle(order, x, SortBundles(order, s))
  {
    assert (s + [x])[..|s|] == s;
  }

  /** Sorting four bundles inserts each into the sorted ones before it. */
  lemma SortFour(order: seq<PriorityDimension>, a: ZoneBundleInfo, b: ZoneBundleInfo, c: ZoneBundleInfo, d: ZoneBundleInfo)
    ensures SortBundles(order, [a, b, c, d])
         == InsertBundle(order, d, InsertBundle(order, c, InsertBundle(order, b, [a])))
  {
    SnocFour(a, b, c, d);
    SortSnoc(order, [], a);
    SortSnoc(order, [a], b);
    SortSnoc(order, [a, b], c);
    SortSnoc(order, [a, b, c], d);
  }

  lemma SnocFour<T>(a: T, b: T, c: T, d: T)
    ensures [] + [a] == [a] && [a] + [b] == [a, b]
    ensures [a, b] + [c] == [a, b, c] && [a, b, c] + [d] == [a, b, c, d]
  {
  }

  lemma FourElements<T>(s: seq<T>)
    requires |s| == 4
    ensures s == [s[0], s[1], s[2], s[3]]
  {
  }

  /** The time-first half of the unit test: older before newer, and terminated before explicit on a day. */
  lemma TimeFirstExample(a: ZoneBundleInfo, b: ZoneBundleInfo, c: ZoneBundleInfo, d: ZoneBundleInfo)
    requires a.metadata.timeCreated == b.metadata.timeCreated
    requires c.metadata.timeCreated == d.metadata.timeCreated
    requires c.metadata.timeCreated < a.metadata.timeCreated
    requires a.metadata.cause == TerminatedInstance && b.metadata.cause == ExplicitRequest
    requires c.metadata.cause == TerminatedInstance && d.metadata.cause == ExplicitRequest
    ensures InsertBundle([Time, Cause], d, InsertBundle([Time, Cause], c, InsertBundle([Time, Cause], b, [a])))
         == [c, d, a, b]
  {
    var order: seq<PriorityDimension> := [Time, Cause];
    InsertPair(order, a, b);
    InsertFirstOfTwo(order, c, a, b);
    InsertSecondOfThree(order, d, c, a, b);
  }

  /** The cause-first half of the unit test: terminated before explicit, and older before newer within a cause. */
  lemma CauseFirstExample(a: ZoneBundleInfo, b: ZoneBundleInfo, c: ZoneBundleInfo, d: ZoneBundleInfo)
    requires a.metadata.timeCreated == b.metadata.timeCreated
    requires c.metadata.timeCreated == d.metadata.timeCreated
    requires c.metadata.timeCreated < a.metadata.timeCreated
    requires a.metadata.cause == TerminatedInstance && b.metadata.cause == ExplicitRequest
    requires c.metadata.cause == TerminatedInstance && d.metadata.cause == ExplicitRequest
    ensures InsertBundle([Cause, Time], d, InsertBundle([Cause, Time], c, InsertBundle([Cause, Time], b, [a])))
         == [c, a, d, b]
  {
    var order: seq<PriorityDimension> := [Cause, Time];
    InsertPair(order, a, b);
    InsertFirstOfTwo(order, c, a, b);
    InsertThirdOfThree(order, d, c, a, b);
  }

  /** Two bundles already in order stay in order after an insertion. */
  lemma InsertPair(order: seq<PriorityDimension>, a: ZoneBundleInfo, b: ZoneBundleInfo)
    requires CompareBundles(order, a, b) != Greater
    ensures InsertBundle(order, b, [a]) == [a, b]
  {
    assert [a][1..] == [];
  }

  /** A bundle sorting strictly before the first of two goes in front. */
  lemma InsertFirstOfTwo(order: seq<PriorityDimension>, x: ZoneBundleInfo, a: ZoneBundleInfo, b: ZoneBundleInfo)
    requires CompareBundles(order, a, x) == Greater
    ensures InsertBundle(order, x, [a, b]) == [x, a, b]
  {
  }

  /** A bundle sorting between the first and the second of three goes second. */
  lemma InsertSecondOfThree(
    order: seq<PriorityDimension>, x: ZoneBundleInfo, a: ZoneBundleInfo, b: ZoneBundleInfo, c: ZoneBundleInfo)
    requires CompareBundles(order, a, x) != Greater
    requires CompareBundles(order, b, x) == Greater
    ensures InsertBundle(order, x, [a, b, c]) == [a, x, b, c]
  {
    ListShapes(a, b, c, x);
    InsertPast(order, x, a, [b, c]);
    InsertFirstOfTwo(order, x, b, c);
  }

  /** A bundle sorting between the second and the third of three goes third. */
  lemma InsertThirdOfThree(
    order: seq<PriorityDimension>, x: ZoneBundleInfo, a: ZoneBundleInfo, b: ZoneBundleInfo, c: ZoneBundleInfo)
    requires CompareBundles(order, a, x) != Greater
    requires CompareBundles(order, b, x) != Greater
    requires CompareBundles(order, c, x) == Greater
    ensures InsertBundle(order, x, [a, b, c]) == [a, b, x, c]
  {
    ListShapes(a, b, c, x);
    InsertPast(order, x, a, [b, c]);
    InsertSecondOfTwo(order, x, b, c);
  }

  /** A bundle sorting between two goes between them. */
  lemma InsertSecondOfTwo(order: seq<PriorityDimension>, x: ZoneBundleInfo, b: ZoneBundleInfo, c: ZoneBundleInfo)
    requires CompareBundles(order, b, x) != Greater
    requires CompareBundles(order, c, x) == Greater
    ensures InsertBundle(order, x, [b, c]) == [b, x, c]
  {
    ListShapes(b, b, c, x);
    InsertPast(order, x, b, [c]);
    InsertBeforeOne(order, x, c);
  }

  /** A bundle sorting strictly before the only one goes in front. */
  lemma InsertBeforeOne(order: seq<PriorityDimension>, x: ZoneBundleInfo, c: ZoneBundleInfo)
    requires CompareBundles(order, c, x) == Greater
    ensures InsertBundle(order, x, [c]) == [x, c]
  {
  }

  /** A bundle sorting no earlier than the head is inserted into the rest. */
  lemma InsertPast(order: seq<PriorityDimension>, x: ZoneBundleInfo, y: ZoneBundleInfo, rest: seq<ZoneBundleInfo>)
    requires CompareBundles(order, y, x) != Greater
    ensures InsertBundle(order, x, [y] + rest) == [y] + InsertBundle(order, x, rest)
  {
    assert ([y] + rest)[1..] == rest;
  }

  lemma ListShapes<T>(a: T, b: T, c: T, x: T)
    ensures [a, b, c] == [a] + [b, c] && [b, c] == [b] + [c]
    ensures [a] + [x, b, c] == [a, x, b, c]
    ensures [b] + [x, c] == [b, x, c] && [a] + [b, x, c] == [a, b, x, c]
  {
  }

  // ---------------------------------------------------------------------
  // Pruning one directory
  // ---------------------------------------------------------------------

  /** The total size of a sequence of bundles. */
  function SumBytes(s: seq<ZoneBundleInfo>): nat {
    if |s| == 0 then 0 else SumBytes(s[..|s| - 1]) + s[|s| - 1].bytes
  }

  /** Usage left after removing `removed`, with saturating subtraction. */
  function UsageAfter(used: nat, removed: seq<ZoneBundleInfo>): nat {
    SaturatingSub(used, SumBytes(removed))
  }

  /**
   Removing the first `k` bundles of `sorted` is the least removal that
   brings usage to at most `available`, or removes every bundle when no
   prefix does.
   */
  predicate IsShortestPrune(sorted: seq<ZoneBundleInfo>, used: nat, available: nat, k: nat) {
    && k <= |sorted|
    && (k < |sorted| ==> UsageAfter(used, sorted[..k]) <= available)
    && (forall j :: 0 <= j < k ==> UsageAfter(used, sorted[..j]) > available)
  }

  /** The usage, space available and quota measured for one bundle directory. */
  datatype BundleUtilization = BundleUtilization(datasetQuota: U64, bytesAvailable: nat, bytesUsed: U64)

  /** The number of bundles removed from a directory, and their total size. */
  datatype CleanupCount = CleanupCount(bundles: nat, bytes: nat)

  /**
   The loop of `run_cleanup` over the sorted bundles of one directory:
   while usage is above the space available, remove the next bundle and
   subtract its size (saturating at zero).
   */
  method PruneDirectory(sorted: seq<ZoneBundleInfo>, usage: BundleUtilization)
    returns (count: CleanupCount, removed: seq<ZoneBundleInfo>)
    ensures IsShortestPrune(sorted, usage.bytesUsed, usage.bytesAvailable, count.bundles)
    ensures removed == sorted[..count.bundles]
    ensures count.bytes == SumBytes(removed)
  {
    var nBytes: nat := usage.bytesUsed;
    count := CleanupCount(0, 0);
    var i := 0;
    while i < |sorted| && nBytes > usage.bytesAvailable
      invariant i <= |sorted|
      invariant nBytes == UsageAfter(usage.bytesUsed, sorted[..i])
      invariant count == CleanupCount(i, SumBytes(sorted[..i]))
      invariant forall j :: 0 <= j < i ==> UsageAfter(usage.bytesUsed, sorted[..j]) > usage.bytesAvailable
    {
      var each := sorted[i];
      assert sorted[..i + 1][..i] == sorted[..i];
      nBytes := SaturatingSub(nBytes, each.bytes);
      count := CleanupCount(count.bundles + 1, count.bytes + each.bytes);
      i := i + 1;
    }
    removed := sorted[..i];
  }

  /** Every removed bundle sorts no later than every bundle kept. */
  lemma PruneRemovesLowestPriority(
    order: seq<PriorityDimension>, sorted: seq<ZoneBundleInfo>, k: nat, i: nat, j: nat)
    requires SortedBy(order, sorted)
    requires i < k <= j < |sorted|
    ensures CompareBundles(order, sorted[i], sorted[j]) != Greater
  {
  }

  // ---------------------------------------------------------------------
  // A whole clean-up pass
  // ---------------------------------------------------------------------

  /** What a pass knows of one storage directory. */
  datatype StorageDir = StorageDir(usage: BundleUtilization, bundles: seq<ZoneBundleInfo>)

  predicate WithinLimit(d: StorageDir) {
    d.usage.bytesUsed <= d.usage.bytesAvailable
  }

  /** The result of a pass for one directory: `k` bundles removed from the sorted list. */
  predicate PrunedAsPolicy(
    order: seq<PriorityDimension>, d: StorageDir, c: CleanupCount, removed: seq<ZoneBundleInfo>)
  {
    var sorted := SortBundles(order, d.bundles);
    && IsShortestPrune(sorted, d.usage.bytesUsed, d.usage.bytesAvailable, c.bundles)
    && removed == sorted[..c.bundles]
    && c.bytes == SumBytes(removed)
  }

  /**
   The pure core of `run_cleanup`, over the directories keyed by path. When
   every directory is within its limit nothing is done and nothing is
   reported. Otherwise every directory reports a count, and has removed
   the shortest prefix of its priority-sorted bundles that brings it within
   its limit.
   */
  method RunCleanup(dirs: map<string, StorageDir>, priority: PriorityOrder)
    returns (counts: map<string, CleanupCount>, removed: map<string, seq<ZoneBundleInfo>>)
    ensures (forall p :: p in dirs ==> WithinLimit(dirs[p])) ==> counts == map[] && removed == map[]
    ensures (exists p :: p in dirs && !WithinLimit(dirs[p])) ==>
              && counts.Keys == dirs.Keys
              && removed.Keys == dirs.Keys
              && forall p :: p in dirs ==> PrunedAsPolicy(priority.dims, dirs[p], counts[p], removed[p])
  {
    if forall p :: p in dirs ==> WithinLimit(dirs[p]) {
      return map[], map[];
    }
    counts, removed := PruneAll(dirs, priority.dims);
  }

  /** Every directory pruned as the policy says. */
  ghost predicate AllPruned(
    order: seq<PriorityDimension>, dirs: map<string, StorageDir>,
    counts: map<string, CleanupCount>, removed: map<string, seq<ZoneBundleInfo>>)
  {
    forall p :: p in counts ==> p in dirs && p in removed && PrunedAsPolicy(order, dirs[p], counts[p], removed[p])
  }

  /** The loop of `run_cleanup`: sort and prune each directory in turn. */
  method PruneAll(dirs: map<string, StorageDir>, order: seq<PriorityDimension>)
    returns (counts: map<string, CleanupCount>, removed: map<string, seq<ZoneBundleInfo>>)
    ensures counts.Keys == dirs.Keys && removed.Keys == dirs.Keys
    ensures forall p :: p in dirs ==> PrunedAsPolicy(order, dirs[p], counts[p], removed[p])
  {
    counts := map[];
    removed := map[];
    var todo := dirs.Keys;
    while todo != {}
      invariant todo <= dirs.Keys
      invariant counts.Keys == dirs.Keys - todo
      invariant removed.Keys == dirs.Keys - todo
      invariant AllPruned(order, dirs, counts, removed)
      decreases todo
    {
      var p :| p in todo;
      var sorted := SortBundles(order, dirs[p].bundles);
      var c, r := PruneDirectory(sorted, dirs[p].usage);
      AllPrunedExtend(order, dirs, counts, removed, p, c, r);
      counts := counts[p := c];
      removed := removed[p := r];
      todo := todo - {p};
    }
    assert AllPruned(order, dirs, counts, removed);
  }

  lemma AllPrunedExtend(
    order: seq<PriorityDimension>, dirs: map<string, StorageDir>,
    counts: map<string, CleanupCount>, removed: map<string, seq<ZoneBundleInfo>>,
    p: string, c: CleanupCount, r: seq<ZoneBundleInfo>)
    requires AllPruned(order, dirs, counts, removed)
    requires p in dirs && PrunedAsPolicy(order, dirs[p], c, r)
    ensures AllPruned(order, dirs, counts[p := c], removed[p := r])
  {
  }

  /**
   After a pass, a directory that kept some bundles is within its limit,
   and the bundles kept plus those removed are the bundles it had.
   */
  lemma PrunedDirectoryOutcome(
    order: seq<PriorityDimension>, d: StorageDir, c: CleanupCount, removed: seq<ZoneBundleInfo>)
    requires PrunedAsPolicy(order, d, c, removed)
    ensures c.bundles < |d.bundles| ==> UsageAfter(d.usage.bytesUsed, removed) <= d.usage.bytesAvailable
    ensures multiset(removed) <= multiset(d.bundles)
  {
    var sorted := SortBundles(order, d.bundles);
    SortedLength(order, d.bundles);
    PrefixSubMultiset(sorted, c.bundles);
  }

  lemma PrefixSubMultiset<T>(s: seq<T>, k: nat)
    requires k <= |s|
    ensures multiset(s[..k]) <= multiset(s)
  {
    assert s == s[..k] + s[k..];
  }

  // ---------------------------------------------------------------------
  // Clean-up settings
  // ---------------------------------------------------------------------

  datatype CleanupContext = CleanupContext(
    period: CleanupPeriod,
    storageLimit: StorageLimit,
    priority: PriorityOrder)

  const CLEANUP_CONTEXT_DEFAULT :=
    CleanupContext(CLEANUP_PERIOD_DEFAULT, STORAGE_LIMIT_DEFAULT, PRIORITY_ORDER_DEFAULT)

  /** The pieces of a context update, and whether the clean-up task is woken. */
  datatype ContextUpdate = ContextUpdate(context: CleanupContext, notify: bool)

  /**
   `ZoneBundler::update_cleanup_context`: set each field given, keep the
   others, and wake the clean-up task when the period shrinks or the
   storage limit drops.
   */
  function UpdateCleanupContext(
    ctx: CleanupContext,
    newPeriod: Option<CleanupPeriod>,
    newStorageLimit: Option<StorageLimit>,
    newPriority: Option<PriorityOrder>): (r: ContextUpdate)
    ensures r.context.period == if newPeriod.Some? then newPeriod.value else ctx.period
    ensures r.context.storageLimit == if newStorageLimit.Some? then newStorageLimit.value else ctx.storageLimit
    ensures r.context.priority == if newPriority.Some? then newPriority.value else ctx.priority
    ensures r.notify <==>
              || (newPeriod.Some? && newPeriod.value.duration < ctx.period.duration)
              || (newStorageLimit.Some? && newStorageLimit.value.pct < ctx.storageLimit.pct)
  {
    var notifyForPeriod := newPeriod.Some? && newPeriod.value.duration < ctx.period.duration;
    var period := if newPeriod.Some? then newPeriod.value else ctx.period;
    var priority := if newPriority.Some? then newPriority.value else ctx.priority;
    var notifyForLimit := newStorageLimit.Some? && newStorageLimit.value.pct < ctx.storageLimit.pct;
    var limit := if newStorageLimit.Some? then newStorageLimit.value else ctx.storageLimit;
    ContextUpdate(CleanupContext(period, limit, priority), notifyForPeriod || notifyForLimit)
  }

  /**
   Repeating an update changes nothing more and wakes nobody; an update
   that only changes the priority never wakes the task.
   */
  lemma UpdateCleanupContextIdempotent(
    ctx: CleanupContext,
    newPeriod: Option<CleanupPeriod>,
    newStorageLimit: Option<StorageLimit>,
    newPriority: Option<PriorityOrder>)
    ensures var once := UpdateCleanupContext(ctx, newPeriod, newStorageLimit, newPriority);
            var twice := UpdateCleanupContext(once.context, newPeriod, newStorageLimit, newPriority);
            twice.context == once.context && !twice.notify
    ensures !UpdateCleanupContext(ctx, None, None, newPriority).notify
    ensures UpdateCleanupContext(ctx, None, None, None).context == ctx
  {
  }

  /** The unit test's update: half the period, half the limit, reversed priority. */
  lemma UpdateCleanupContextExample()
    ensures var newContext := CleanupContext(CleanupPeriod(FromSecs(300)), StorageLimit(12), PriorityOrder([Time, Cause]));
            var r := UpdateCleanupContext(CLEANUP_CONTEXT_DEFAULT, Some(newContext.period),
                                          Some(newContext.storageLimit), Some(newContext.priority));
            r.context == newContext && r.notify
  {
  }

  // ---------------------------------------------------------------------
  // Reading `zfs list` and `du`
  // ---------------------------------------------------------------------

  /** The exit status and standard output of a command, the output already decoded. */
  datatype CommandOutput = CommandOutput(success: bool, stdout: string)

  /**
   `zfs_quota`: from the first line of `zfs list -Hpo quota,avail`, take the
   first two whitespace-separated fields. The available space must parse;
   a quota of `-`, of `0`, or one that does not parse, gives the available
   space, and any other quota is returned as parsed.
   */
  function ParseZfsQuota(out: CommandOutput): (r: Result<U64, BundleError>)
    ensures r.Failure? ==> r.error.Cleanup?
    ensures !out.success ==> r == Failure(Cleanup(CommandFailed))
    ensures out.success && |out.stdout| == 0 ==> r == Failure(Cleanup(NoLines))
  {
    if !out.success then Failure(Cleanup(CommandFailed))
    else match FirstLine(out.stdout)
      case None => Failure(Cleanup(NoLines))
      case Some(line) =>
        match NextToken(line)
        case None => Failure(Cleanup(NoQuotaPart))
        case Some((quotaPart, rest)) =>
          match NextToken(rest)
          case None => Failure(Cleanup(NoAvailPart))
          case Some((availPart, _)) => QuotaFromFields(quotaPart, availPart)
  }

  /**
   The two fields of `zfs list -Hpo quota,avail`: the available size must
   parse; a quota of `-`, of `0`, or one that does not parse, gives the
   available size.
   */
  function QuotaFromFields(quotaPart: string, availPart: string): (r: Result<U64, BundleError>)
    ensures r.Failure? <==> ParseU64(Trim(availPart)).None?
    ensures r.Failure? ==> r.error == Cleanup(BadAvail)
    ensures r.Success? && r.value != ParseU64(Trim(availPart)).value ==>
              ParseU64(Trim(quotaPart)) == Some(r.value)
    ensures ParseU64(Trim(availPart)).Some? && (Trim(quotaPart) in {"-", "0"} || ParseU64(Trim(quotaPart)).None?) ==>
              r == Success(ParseU64(Trim(availPart)).value)
    ensures ParseU64(Trim(availPart)).Some? && Trim(quotaPart) != "0" && ParseU64(Trim(quotaPart)).Some? ==>
              r == Success(ParseU64(Trim(quotaPart)).value)
  {
    match ParseU64(Trim(availPart))
    case None => Failure(Cleanup(BadAvail))
    case Some(avail) =>
      var quota := Trim(quotaPart);
      if quota == "-" || quota == "0" then Success(avail)
      else match ParseU64(quota)
        case Some(q) => Success(q)
        case None => Success(avail)
  }

  /** `quota<TAB>avail` lines in the format `zfs list -Hp` prints. */
  function ZfsLine(quota: string, avail: string, rest: string): string {
    quota + "\t" + avail + "\n" + rest
  }

  lemma ZfsLineTokens(quota: string, avail: string, rest: string)
    requires |quota| > 0 && |avail| > 0
    requires forall i :: 0 <= i < |quota| ==> !IsAsciiWhitespace(quota[i])
    requires forall i :: 0 <= i < |avail| ==> !IsAsciiWhitespace(avail[i])
    ensures ParseZfsQuota(CommandOutput(true, ZfsLine(quota, avail, rest))) == QuotaFromFields(quota, avail)
  {
    var line := quota + "\t" + avail;
    TwoFieldLine(quota, avail, rest);
    assert FirstLine(ZfsLine(quota, avail, rest)) == Some(line);
    TwoFieldTokens(quota, avail);
  }

  lemma TwoFieldLine(first: string, second: string, rest: string)
    requires forall i :: 0 <= i < |first| ==> !IsAsciiWhitespace(first[i])
    requires forall i :: 0 <= i < |second| ==> !IsAsciiWhitespace(second[i])
    ensures FirstLine(first + "\t" + second + "\n" + rest) == Some(first + "\t" + second)
  {
    var line := first + "\t" + second;
    forall i | 0 <= i < |line|
      ensures line[i] != '\n' && line[i] != '\r'
    {
      if i < |first| {
        assert line[i] == first[i];
      } else if i > |first| {
        assert line[i] == second[i - |first| - 1];
      }
    }
    FirstLineOf(line, rest);
  }

  lemma TwoFieldTokens(first: string, second: string)
    requires |first| > 0 && |second| > 0
    requires forall i :: 0 <= i < |first| ==> !IsAsciiWhitespace(first[i])
    requires forall i :: 0 <= i < |second| ==> !IsAsciiWhitespace(second[i])
    ensures NextToken(first + "\t" + second) == Some((first, "\t" + second))
    ensures NextToken("\t" + second) == Some((second, ""))
  {
    var tail := "\t" + second;
    assert first + "\t" + second == first + tail;
    assert tail[0] == '\t';
    NextTokenOfToken(first, tail);
    LastToken(second);
  }

  lemma LastToken(tok: string)
    requires |tok| > 0
    requires forall i :: 0 <= i < |tok| ==> !IsAsciiWhitespace(tok[i])
    ensures NextToken("\t" + tok) == Some((tok, ""))
  {
    NextTokenSkipsWhitespace('\t', tok);
    assert tok + "" == tok;
    NextTokenOfToken(tok, "");
  }

  /**
   A numeric quota and available size print back as that quota, or as the
   available size when the quota is zero (no quota set).
   */
  lemma ParseZfsQuotaNumbers(quota: U64, avail: U64, rest: string)
    ensures ParseZfsQuota(CommandOutput(true, ZfsLine(ToDecimal(quota), ToDecimal(avail), rest)))
            == Success(if quota == 0 then avail else quota)
  {
    var q := ToDecimal(quota);
    var a := ToDecimal(avail);
    ZfsLineTokens(q, a, rest);
    QuotaFromNumbers(quota, avail);
  }

  lemma QuotaFromNumbers(quota: U64, avail: U64)
    ensures QuotaFromFields(ToDecimal(quota), ToDecimal(avail)) == Success(if quota == 0 then avail else quota)
  {
    var q := ToDecimal(quota);
    var a := ToDecimal(avail);
    DigitsAreTrimmed(q);
    DigitsAreTrimmed(a);
    ParseToDecimal(avail, U64_LIMIT);
    ParseToDecimal(quota, U64_LIMIT);
    assert q != "-" by { assert IsAsciiDigit(q[0]); }
    if quota == 0 {
      assert q == "0";
    } else {
      assert q != "0";
    }
  }

  /** A volume's quota `-` gives the available size. */
  lemma ParseZfsQuotaDash(avail: U64, rest: string)
    ensures ParseZfsQuota(CommandOutput(true, ZfsLine("-", ToDecimal(avail), rest))) == Success(avail)
  {
    var a := ToDecimal(avail);
    ZfsLineTokens("-", a, rest);
    DigitsAreTrimmed(a);
    ParseToDecimal(avail, U64_LIMIT);
    assert Trim("-") == "-" by { TrimIdentity("-"); }
  }

  /** An available size that is not a number is an error, whatever the quota. */
  lemma ParseZfsQuotaBadAvail(quota: U64, rest: string)
    ensures ParseZfsQuota(CommandOutput(true, ZfsLine(ToDecimal(quota), "none", rest)))
            == Failure(Cleanup(BadAvail))
  {
    var q := ToDecimal(quota);
    DigitsAreToken(q);
    NoneIsNotANumber();
    ZfsLineTokens(q, "none", rest);
  }

  lemma NoneIsNotANumber()
    ensures forall i :: 0 <= i < |"none"| ==> !IsAsciiWhitespace("none"[i])
    ensures ParseU64(Trim("none")).None?
  {
    var w := "none";
    assert w == ['n', 'o', 'n', 'e'];
    LowerCaseWord(w);
  }

  /** A word of lower-case letters is its own trimmed token and no number. */
  lemma LowerCaseWord(w: string)
    requires |w| > 0
    requires forall i :: 0 <= i < |w| ==> 'a' <= w[i] <= 'z'
    ensures forall i :: 0 <= i < |w| ==> !IsAsciiWhitespace(w[i])
    ensures ParseU64(Trim(w)).None?
  {
    TrimIdentity(w);
    assert w[0] != '+' && !IsAsciiDigit(w[0]);
  }

  /** Output with a single field on its first line lacks the available size. */
  lemma ParseZfsQuotaMissingAvail(quota: U64, rest: string)
    ensures ParseZfsQuota(CommandOutput(true, ToDecimal(quota) + "\n" + rest))
            == Failure(Cleanup(NoAvailPart))
  {
    var q := ToDecimal(quota);
    FirstLineOf(q, rest);
    assert q + "" == q;
    NextTokenOfToken(q, "");
  }

  /** The operating systems `du` is run on, which differ in the block size reported. */
  datatype TargetOs = Illumos | Linux | MacOs

  function DuBlockSize(os: TargetOs): nat {
    match os
    case Illumos => 1
    case Linux => 1
    case MacOs => 512
  }

  /** `u64::saturating_mul`. */
  function SaturatingMul(a: nat, b: nat): (r: U64)
    ensures a * b <= U64_MAX ==> r == a * b
    ensures a * b > U64_MAX ==> r == U64_MAX
  {
    if a * b <= U64_MAX then a * b else U64_MAX
  }

  /**
   `disk_usage`: the first whitespace-separated field of the trimmed first
   line of `du -s`, parsed as an unsigned 64-bit count of blocks and
   multiplied (saturating) by the platform's block size.
   */
  function ParseDiskUsage(out: CommandOutput, os: TargetOs): (r: Result<U64, BundleError>)
    ensures r.Failure? ==> r.error.Cleanup?
    ensures !out.success ==> r == Failure(Cleanup(CommandFailed))
    ensures out.success && |out.stdout| == 0 ==> r == Failure(Cleanup(NoLines))
  {
    if !out.success then Failure(Cleanup(CommandFailed))
    else match FirstLine(out.stdout)
      case None => Failure(Cleanup(NoLines))
      case Some(line) =>
        match NextToken(Trim(line))
        case None => Failure(Cleanup(NoUsageSize))
        case Some((part, _)) =>
          match ParseU64(part)
          case None => Failure(Cleanup(BadUsage))
          case Some(x) => Success(SaturatingMul(x, DuBlockSize(os)))
  }

  /** The first token of `tok + rest` is `tok` when `rest` starts with whitespace, also after trimming. */
  lemma FirstTokenOfTrimmed(tok: string, rest: string)
    requires AllDigits(tok) && |tok| > 0
    requires |rest| == 0 || IsAsciiWhitespace(rest[0])
    ensures NextToken(Trim(tok + rest)).Some?
    ensures NextToken(Trim(tok + rest)).value.0 == tok
  {
    assert IsAsciiDigit(tok[0]) && IsAsciiDigit(tok[|tok| - 1]);
    var m := TrimAfterWord(tok, rest);
    var tail := rest[..m];
    assert |tail| == 0 || tail[0] == rest[0];
    DigitsAreToken(tok);
    NextTokenOfToken(tok, tail);
  }

  /**
   `du -s` output of a block count followed by the path gives that count
   times the block size, saturating at `u64::MAX`.
   */
  lemma ParseDiskUsageNumber(blocks: U64, path: string, rest: string, os: TargetOs)
    requires forall i :: 0 <= i < |path| ==> path[i] != '\n' && path[i] != '\r'
    ensures ParseDiskUsage(CommandOutput(true, ToDecimal(blocks) + "\t" + path + "\n" + rest), os)
            == Success(SaturatingMul(blocks, DuBlockSize(os)))
  {
    var b := ToDecimal(blocks);
    var line := b + "\t" + path;
    assert b + "\t" + path + "\n" + rest == line + "\n" + rest;
    assert forall i :: 0 <= i < |line| ==> line[i] != '\n' && line[i] != '\r' by {
      forall i | 0 <= i < |line|
        ensures line[i] != '\n' && line[i] != '\r'
      {
        if i < |b| { assert line[i] == b[i]; }
        else if i > |b| { assert line[i] == path[i - |b| - 1]; }
      }
    }
    FirstLineOf(line, rest);
    assert line == b + ("\t" + path);
    FirstTokenOfTrimmed(b, "\t" + path);
    ParseToDecimal(blocks, U64_LIMIT);
  }

  /** The utilization of one directory, from its `zfs list` and `du` outputs. */
  function DirectoryUtilization(
    zfs: CommandOutput, du: CommandOutput, limit: StorageLimit, os: TargetOs)
    : (r: Result<BundleUtilization, BundleError>)
    ensures r.Success? ==> r.value.bytesAvailable == BytesAvailable(limit, r.value.datasetQuota)
    ensures r.Success? <==> ParseZfsQuota(zfs).Success? && ParseDiskUsage(du, os).Success?
    ensures ParseZfsQuota(zfs).Failure? ==> r == Failure(ParseZfsQuota(zfs).error)
    ensures ParseZfsQuota(zfs).Success? && ParseDiskUsage(du, os).Failure? ==>
              r == Failure(ParseDiskUsage(du, os).error)
    ensures r.Success? ==>
              r.value.datasetQuota == ParseZfsQuota(zfs).value && r.value.bytesUsed == ParseDiskUsage(du, os).value
  {
    var quota :- ParseZfsQuota(zfs);
    var used :- ParseDiskUsage(du, os);
    Success(BundleUtilization(quota, BytesAvailable(limit, quota), used))
  }

  // ---------------------------------------------------------------------
  // Listing
  // ---------------------------------------------------------------------

  /** The filter of `ZoneBundler::list`: no filter, or a substring of the zone name. */
  predicate MatchesFilter(filter: Option<string>, md: ZoneBundleMetadata) {
    match filter
    case None => true
    case Some(f) => Contains(md.id.zoneName, f)
  }

  /** The bundles `list` keeps, in the order given. */
  function FilterBundles(bundles: seq<ZoneBundleMetadata>, filter: Option<string>)
    : (r: seq<ZoneBundleMetadata>)
    ensures forall md :: md in r <==> md in bundles && MatchesFilter(filter, md)
    ensures |r| <= |bundles|
  {
    if |bundles| == 0 then []
    else
      var rest := FilterBundles(bundles[1..], filter);
      assert forall md :: md in bundles <==> md == bundles[0] || md in bundles[1..];
      if MatchesFilter(filter, bundles[0]) then [bundles[0]] + rest else rest
  }

  /** No filter and the empty filter both list every bundle. */
  lemma {:induction false} FilterNoneOrEmptyKeepsAll(bundles: seq<ZoneBundleMetadata>)
    ensures FilterBundles(bundles, None) == bundles
    ensures FilterBundles(bundles, Some("")) == bundles
  {
    if |bundles| > 0 {
      ContainsTrivial(bundles[0].id.zoneName);
      FilterNoneOrEmptyKeepsAll(bundles[1..]);
    }
  }

  /** A filter that every zone name starts with lists every bundle. */
  lemma {:induction false} FilterCommonPrefixKeepsAll(bundles: seq<ZoneBundleMetadata>, prefix: string)
    requires forall i :: 0 <= i < |bundles| ==> prefix <= bundles[i].id.zoneName
    ensures FilterBundles(bundles, Some(prefix)) == bundles
  {
    if |bundles| > 0 {
      var name := bundles[0].id.zoneName;
      assert name == "" + prefix + name[|prefix|..];
      ContainsInfix("", prefix, name[|prefix|..]);
      assert forall i :: 0 <= i < |bundles[1..]| ==> bundles[1..][i] == bundles[i + 1];
      FilterCommonPrefixKeepsAll(bundles[1..], prefix);
    }
  }
}
